=== FILE: README.md ===
# empirical_network_scaling — verified model of the distance and swap core

This project is a Dafny model of the computational core of
`empirical_network_scaling`. That repository measures how path lengths grow
with network size. Its core has six parts:

- **Exact all-pairs hop distances** on unweighted, possibly disconnected
  graphs, in two versions:
  - a numba BFS over a "semisparse" adjacency table, with rows padded by `-1`;
  - a C++ BFS over relabelled components, with a histogram aggregator.
- **Sampled distances**: a bidirectional point-to-point BFS, plus a sampler
  that weights each connected component by its squared size.
- **Histogram statistics**: median, mean and maximum over a value→count
  dictionary.
- **Edge-list reading**: the C++ `read_edgelist`.
- **Double-edge swaps**: the degree-preserving Markov-chain step, in three
  forms:
  - the sampler classes' `_swap` and `_local_swap`;
  - the adjacency-matrix step `MCMC_step_stub`;
  - the chain object that applies that step to a graph.

Graphs are adjacency lists `seq<seq<int>>` over node indices. Hop distance is
defined once, in `Reach`:
- `Ball(g, s, k)` is the set of nodes reachable from `s` in at most `k` steps.
- `IsDist(g, s, v, d)` says `v` is first reached at radius `d`.

Random draws are explicit inputs: the samplers take the values
`np.random` would have produced. The Python functions that mutate objects in
place are modelled as pure functions from the old state to the new one.
Exceptions become the `Failure` case of a `Result`, named after the Python
exception or the C++ fault.

Modules:
- `Wrappers`: `Option` and `Result`.
- `SeqUtil`: sums, concatenation and minimum keys.
- `Reach` and `Subgraphs`: hop-distance semantics and reachability inside subgraphs.
- `BfsQueue`: the FIFO invariant that both BFS kernels share.
- `Semisparse`: the Python table, the BFS and the drivers.
- `CppBfs`, `Components` and `Apsp`: the C++ BFS and the component decomposition.
- `DistanceDistribution` and `Histograms`: the C++ aggregation.
- `DictStatistics`: median, mean and maximum of a histogram.
- `Bidirectional`: point-to-point distance.
- `PathSample`: component probabilities and the two samplers.
- `EdgeList`: `read_edgelist`.
- `EdgeSwap`: the configuration-model `_swap`.
- `TrackedSwap`: `_swap`, `_choose_edge` and `_local_swap` with the `_edges_dict` index.
- `StepStub`: `MCMC_step_stub` and `MCMC_class.step_and_get_graph`.

## Model

| member | source | states |
|---|---|---|
| BfsQueue.QueueInit | py_tools/src/graph/semisparse.py:146-153 | Seeding the queue with the start node establishes the queue invariant: `end` equals the number of visited nodes, the queue lists exactly the visited nodes, and each visited node carries its hop distance. |
| BfsQueue.QueueVisit | py_tools/src/graph/semisparse.py:163-168 | Enqueuing an unvisited neighbour with its parent's distance plus one keeps the invariant, and there was room for it (`end < n`). |
| BfsQueue.QueueAdvance | py_tools/src/graph/semisparse.py:155-169 | Once a dequeued node's neighbours are all visited, the read index can move past it without breaking the invariant. |
| BfsQueue.QueueExhausted | py_tools/src/graph/semisparse.py:155 | If the read index catches up with `end` while fewer than `n` nodes are visited, the start does not reach every node. So on a connected component the `pos <= end` guard never reads the unwritten slot. |
| BfsQueue.QueueComplete | py_tools/src/graph/semisparse.py:155-170 | When all `n` nodes are visited, every `dist` entry is the true hop distance, and the start reaches every node. |
| Semisparse.MaxDegree | py_tools/src/graph/semisparse.py:65 | The empty graph is an error. Otherwise the result bounds every degree and is attained by some node. |
| Semisparse.PadNeighbours | py_tools/src/graph/semisparse.py:90-92 | Padding a row of node indices with `-1` to the table width and reading up to the first `-1` gives back the row. |
| Semisparse.DecodeEncode | py_tools/src/graph/semisparse.py:75-94 | The table built from a loopless adjacency list is well formed: every row has width `max_degree`, or `[0]` for a single node. The graph the BFS reads from it is exactly the original adjacency. |
| Semisparse.BfsDistances | py_tools/src/graph/semisparse.py:135-170 | When the start reaches every node, every entry is the hop distance from the start, whatever the reused `tracker` held before. The result is a `Failure` exactly on a table the start does not span, where the source reads an unwritten `tracker` slot. |
| Semisparse.ApspDriver | py_tools/src/graph/semisparse.py:97-113 | On a connected table the result is the concatenation of the distance rows, so block `[i*n, i*n+n)` is node `i`'s distance vector. A disconnected table gives a `Failure`. |
| Semisparse.RollingSumDriver | py_tools/src/graph/semisparse.py:116-131 | On a connected table the result is the sum of all pairwise distances. A disconnected table gives a `Failure`. |
| Semisparse.Preprocess | py_tools/src/graph/semisparse.py:56-72 | The empty graph is an error. A connected graph gives the flattened distance matrix, and a disconnected one a `Failure`. |
| Semisparse.PreprocessRollingSum | py_tools/src/graph/semisparse.py:56-72 | The empty graph is an error. A connected graph gives the sum of all pairwise distances, and a disconnected one a `Failure`. |
| Semisparse.AllPairsShortestPaths | py_tools/src/graph/semisparse.py:7-25 | Up to one node gives the empty array. Otherwise the result is every component's distance block in order, `Σ n_c²` values, with no cross-component pair. |
| Semisparse.AllPairsShortestPathsRollingSum | py_tools/src/graph/semisparse.py:28-53 | Up to one node gives `(1, 0)`. Otherwise the count is `Σ n_c²` (an isolated node adds 1) and the sum is the total of the per-component distance sums. |
| Apsp.RollingAgreesWithApsp | py_tools/src/graph/semisparse.py:14-53 | The array of all distances has `Σ n_c²` entries, and its sum equals the rolling-sum total. |
| Apsp.ComponentLayout | py_tools/src/graph/semisparse.py:19-25 | The distance from local node `i` to `v` of component `c` sits at offset `Σ_{b<c} n_b² + i*n_c + v` of the concatenated result. |
| Apsp.SingleEdge | py_tools/test/test_semisparse_pytest.py:82-86 | A single edge is one component whose distance matrix is `[[0,1],[1,0]]`: four distances summing to 2. |
| Apsp.LoneComponent | py_tools/src/graph/semisparse.py:45-48 | A one-node component has the single distance 0 and contributes a sum of 0. |
| CppBfs.ClearBuffers | cpp_apsp/all_pairs_shortest_paths.cpp:82-85 | `visited` and `dist` are zero on `0..n-1`, and every entry beyond `n` is left as it was. |
| CppBfs.BfsDistances | cpp_apsp/all_pairs_shortest_paths.cpp:73-106 | When the start reaches every node of the component, the result is `Some` and its first `n` entries are the hop distances, whatever the three buffers held before. The result is `None` exactly when the start does not reach every node. |
| Components.DfsHelper | cpp_apsp/all_pairs_shortest_paths.cpp:13-34 | Previously visited nodes stay visited. A previously unvisited node becomes visited iff it is reachable from `u` through unvisited nodes. The new component holds exactly those nodes, with their full adjacency lists. |
| Components.RelabelComponent | cpp_apsp/all_pairs_shortest_paths.cpp:36-56 | It succeeds iff every first-seen label is below `g.size()`. Then the mapping is the first-seen labelling and each relabelled row is the node's list mapped through it, in the same order. |
| Components.RelabelBijection | cpp_apsp/all_pairs_shortest_paths.cpp:37-51 | For a component closed under neighbours, the labelling covers exactly its keys, is injective, and stays in `0..k-1`. Every label in that range is used: label `a` goes to the `a`-th node in first-seen order. |
| Components.ClosedFits | cpp_apsp/all_pairs_shortest_paths.cpp:38-52 | For a closed component, `relabeled[mapping[u]]` is always in range. |
| Components.RelabelKeepsEdges | cpp_apsp/all_pairs_shortest_paths.cpp:47-53 | `v ∈ g[u]` iff `mapping[v] ∈ relabeled[mapping[u]]`. |
| Components.RelabelledIsComponent | cpp_apsp/all_pairs_shortest_paths.cpp:64-67 | On a symmetric graph, the relabelled form of the component found from a root is a connected graph on `0..k-1`. |
| Components.CollectComponent | cpp_apsp/all_pairs_shortest_paths.cpp:64-68 | One round adds a set of new nodes disjoint from the visited ones and containing `i`. On a symmetric graph this set is exactly `i`'s reachability class, and the result is that part of `g` relabelled in first-seen order, a connected graph. |
| Components.PartsKeepEdges | cpp_apsp/all_pairs_shortest_paths.cpp:58-71 | Within a collected part, `v ∈ g[u]` iff the label of `v` is on the row of the label of `u` in that part's graph. |
| Components.GetComponents | cpp_apsp/all_pairs_shortest_paths.cpp:58-71 | The components partition the labels `0..n-1`, each with its own size. On a symmetric graph each part is the reachability class of a root, and each component graph is that part of `g`, lists included, relabelled in first-seen order: a connected graph on `0..k-1`. |
| DistanceDistribution.CountDistances | cpp_apsp/main.cpp:43-48 | `num_distances` is `Σ component.size()²`. |
| DistanceDistribution.RecordAll | cpp_apsp/main.cpp:82-91 | Recording a BFS vector adds its values to the histogram's multiset, its sum to `sum_distances` and its length to `distance_index`. The only failure is a zero threshold with a nonempty vector. |
| DistanceDistribution.ComponentDistances | cpp_apsp/main.cpp:71-93 | BFS from every local index adds the component's whole distance matrix to the histogram and the running sum. The only failure is a zero threshold. |
| DistanceDistribution.AggregateComponents | cpp_apsp/main.cpp:59-94 | After all components, the histogram counts exactly the same-component pair distances (a one-node component adds one 0), and the sum is their total. |
| DistanceDistribution.Distribution | cpp_apsp/main.cpp:31-102 | With either threshold rule, the run fails iff there are distances and the threshold is 0. Otherwise the summary is `{0: 1}` for the empty graph, or a histogram whose counts total `Σ n_c²` and whose weighted sum equals `sum_distances`. |
| DistanceDistribution.DistributionAsWritten | cpp_apsp/main.cpp:57-89 | With `print_threshold = num_distances / 10`, the function fails exactly when there are 1 to 9 distances, and otherwise returns the summary. |
| DistanceDistribution.SingleEdgeDividesByZero | cpp_apsp/main.cpp:57 | A single edge is a valid one-component input with 4 distances, inside the 1..9 band where `DistributionAsWritten` fails: the source's threshold `4 / 10` is 0, so the first `%` divides by zero, while the corrected threshold is 1. |
| DistanceDistribution.DistributionCorrected | cpp_apsp/main.cpp:31-102 | With a threshold of at least 1, every valid component list yields its summary. |
| DistanceDistribution.HistogramTotals | cpp_apsp/main.cpp:82-95 | A histogram of a list of values has positive counts summing to the list's length, and Σ key·count equals the list's sum. |
| DistanceDistribution.MeanGeodesicDistance | cpp_apsp/main.cpp:95 | `mean_of_dict` of the returned histogram equals `sum_distances / num_distances`. |
| Histograms.RecordCounts | cpp_apsp/main.cpp:85-88 | Incrementing key `j` (or creating it at 1) turns a histogram of a multiset into one of the multiset plus `j`. |
| Histograms.ItemsSorted | py_tools/src/utils/dict_statistics.py:21 | The listed items are in strictly increasing key order. |
| Histograms.ExpandCounts | py_tools/src/utils/dict_statistics.py:21-37 | Expanding each key by its count, in key order, gives exactly the multiset the histogram counts. |
| DictStatistics.MedianOfDict | py_tools/src/utils/dict_statistics.py:5-37 | The empty dictionary, and only it, raises the `RuntimeError`. |
| DictStatistics.MedianIsMedian | py_tools/src/utils/dict_statistics.py:13-37 | With positive counts, the scan returns the median of the sorted expanded observations. For an odd total that is the middle element. For an even total it is the mean of the two middle elements, including the `(k + next key)/2` case, whose `d_list[i+1]` read stays in range. |
| DictStatistics.ObservationsSorted | py_tools/src/utils/dict_statistics.py:21 | The sequence the median is read from is sorted and holds exactly the counted observations. |
| DictStatistics.ZeroCountReadsPastEnd | py_tools/src/utils/dict_statistics.py:29-33 | On `{0: 0}` the zero count meets the even target 0 at the last item, so `d_list[i+1]` is read past the end (`IndexError`). |
| DictStatistics.MaxKeyOfDict | py_tools/src/utils/dict_statistics.py:40-50 | Empty raises. Otherwise the result is a key no smaller than any key. |
| DictStatistics.MeanOfDict | py_tools/src/utils/dict_statistics.py:53-63 | The empty dictionary raises. |
| DictStatistics.MeanIsAverage | py_tools/src/utils/dict_statistics.py:60-63 | With positive counts, `Σ k·v / Σ v` is the average of the expanded observations. |
| Bidirectional.BidirectionalDistance | py_tools/src/graph/bidirectional_bfs.py:5-47 | `s == t` gives 0 before the graph is read, even for a label that is not a node. Otherwise both ends are nodes, and on a symmetric graph the result is a number iff `t` is reachable from `s`, and that number is the hop distance. |
| Bidirectional.ExpandLevel | py_tools/src/graph/bidirectional_bfs.py:27-47 | Expanding one side's level either meets the other side, at a node whose distance from this root is one more than the level and whose stored distance from the other root completes the sum, or grows this side's distance map by exactly the next level and keeps it disjoint from the other. An empty new fringe leaves the map unchanged. |
| Bidirectional.MeetingIsDistance | py_tools/src/graph/bidirectional_bfs.py:36-37 | While the two balls are disjoint, the first meeting node's `dist_pred + dist_succ` is the true `s`–`t` distance, even in the middle of a level. |
| Bidirectional.NotCloser | py_tools/src/graph/bidirectional_bfs.py:18-19 | Disjoint balls of radii `kf` and `kb` put `t` farther than `kf + d` from `s`, for every `d ≤ kb`. |
| Bidirectional.ExhaustedSide | py_tools/src/graph/bidirectional_bfs.py:25 | A side whose fringe empties without meeting the other side cannot reach the other root. |
| PathSample.ComponentProbabilities | py_tools/src/graph/pathsample.py:51-67 | The call fails with division by zero iff there are components and all are empty. Otherwise there is one probability in [0, 1] per component, positive for every nonempty one. |
| PathSample.ProbabilitiesSumToOne | py_tools/src/graph/pathsample.py:65-66 | The probabilities sum to 1. |
| PathSample.ProbabilitiesProportional | py_tools/src/graph/pathsample.py:60-67 | `p_b · n_c² = p_c · n_b²`: probability is proportional to squared size. |
| PathSample.SingleComponentIsCertain | py_tools/test/test_pathsample_pytest.py:9-20 | A connected graph gets probabilities exactly `[1]`. |
| PathSample.LargerIsLikelier | py_tools/src/graph/pathsample.py:64-66 | A component at least as large is at least as likely. |
| PathSample.SamplerNoRejection | py_tools/src/graph/pathsample.py:26-48 | It returns None iff the graph has at most one vertex. Otherwise there is one answer per draw, `max(num_samples, 0)` in all. A repeated vertex gives 0, and on a symmetric graph every answer is the hop distance between the drawn vertices. |
| PathSample.SamplesAreFinite | py_tools/src/graph/pathsample.py:44-46 | On a symmetric graph every sample is a finite, non-negative distance. |
| PathSample.HalfBatch | py_tools/src/graph/pathsample.py:16 | `int(batch_size/2)` truncates toward zero for either sign. |
| PathSample.Mean | py_tools/src/graph/pathsample.py:21 | A `None` entry raises `TypeError`. An empty list gives no mean. Otherwise the mean times the length is the sum. |
| PathSample.DecideSymmetric | py_tools/src/graph/pathsample.py:21 | The stopping test does not depend on which batch comes first. |
| PathSample.DecideSameMean | py_tools/src/graph/pathsample.py:21 | With a positive threshold, equal nonempty means always stop the loop. |
| PathSample.ThresholdSampler | py_tools/src/graph/pathsample.py:7-23 | A graph with at most one vertex raises `TypeError` on the first round. On a symmetric graph with two or more vertices the run succeeds. Both batches always hold `rounds · half_batch` samples. Each earlier checkpoint's means were not within the threshold. Convergence happens only when they are. Without convergence every supplied round was used. Sample `i` of each list is the `sampler_no_rejection_igraph` answer to draw `i % half_batch` of round `i / half_batch`'s first or second batch (`FromRounds`): 0 for a repeated vertex, and on a symmetric graph the hop distance of the drawn pair. |
| EdgeList.NumNodes | cpp_apsp/read_edgelist.cpp:18 | `stoul` fails outside ±2^64. Otherwise the value is congruent to the header mod 2^64 and lies in the signed 64-bit range. |
| EdgeList.MinusOneIsNoCount | cpp_apsp/read_edgelist.cpp:37 | A `-1` header survives the unsigned-to-signed conversion as `-1`. |
| EdgeList.SmallCountKept | cpp_apsp/read_edgelist.cpp:18 | A header in `0..2^63-1` is kept as is. |
| EdgeList.Label | cpp_apsp/read_edgelist.cpp:25-28 | When `zero_indexed` is 0, a label is one less than the input. Otherwise it is unchanged. |
| EdgeList.ReadPairsDescribes | cpp_apsp/read_edgelist.cpp:23-36 | After the edge loop, the keys are exactly the endpoints of non-loop pairs, `b ∈ g[a]` iff some non-loop pair joins `a` and `b` in either order, and no list has a duplicate. |
| EdgeList.ReadEdgelist | cpp_apsp/read_graphs.cpp:17-50 | The call fails iff the header conversion fails. The edges are exactly the non-loop pairs, with no duplicates or loops. A `-1` header gives exactly the endpoints as keys. Any other count adds `0..count-1`. |
| EdgeList.ReadEdgelistSymmetric | cpp_apsp/read_edgelist.cpp:32-35 | `b ∈ g[a]` implies `a ∈ g[b]`. |
| EdgeList.FillKeepsEdges | cpp_apsp/read_edgelist.cpp:40-45 | Filling singletons leaves every existing list untouched and gives new keys empty lists. |
| EdgeList.RepeatAddsNothing | cpp_apsp/read_graphs.cpp:36-39 | Repeating a pair, or adding it reversed, leaves the adjacency unchanged. |
| EdgeSwap.Indices | py_tools/src/graph/configuration_model_mcmc.py:85-88 | The draw is a `ValueError` iff `m < 2`. Otherwise the two positions are distinct and both in `[0, m)`. |
| EdgeSwap.IndicesOnto | py_tools/src/graph/configuration_model_mcmc.py:85-88 | Every ordered pair of distinct positions is produced by some draw. |
| EdgeSwap.IndicesInjective | py_tools/src/graph/configuration_model_mcmc.py:85-88 | Different draws give different position pairs. |
| EdgeSwap.Proposal | py_tools/src/graph/configuration_model_mcmc.py:90-95 | `(u, v)` is the first listed edge, and `{x, y}` is the second edge in one of its two orientations. |
| EdgeSwap.Swap | py_tools/src/graph/configuration_model_mcmc.py:79-110 | The swap fails iff fewer than two edges. The list length is kept. An unchanged graph means an unchanged list. |
| EdgeSwap.SwapKeepsMirror | py_tools/src/graph/configuration_model_mcmc.py:107-110 | If the list was a duplicate-free listing of the graph's edges, it still is after the swap. |
| EdgeSwap.SwapKeepsDegrees | py_tools/src/graph/configuration_model_mcmc.py:107-110 | Replacing `(u,v),(x,y)` by `(u,x),(v,y)` leaves every node's degree in the edge list unchanged. |
| EdgeSwap.SwapReversible | py_tools/src/graph/configuration_model_mcmc.py:98-110 | On a loopless graph, every accepted swap is undone by a swap on the same two positions. The graph and every listed edge are restored, exactly when the first swap kept the second edge's orientation. |
| EdgeSwap.RunSwaps | py_tools/src/graph/configuration_model_mcmc.py:145-152 | A nonempty run fails iff fewer than two edges, and never changes the number of edges. |
| EdgeSwap.RunKeepsDegreesAndMirror | py_tools/src/graph/configuration_model_mcmc.py:145-152 | However many swaps run, every degree is kept and the list still mirrors the graph. |
| TrackedSwap.IndexKeysAreEdges | py_tools/src/graph/mcmc.py:24 | When `_edges_dict` inverts `_edges`, its keys are exactly the graph's edges. |
| TrackedSwap.Install | py_tools/src/graph/mcmc.py:107-119 | The install raises `KeyError` iff a popped edge is missing from `_edges_dict`. |
| TrackedSwap.InstallConsistent | py_tools/src/graph/mcmc.py:107-119 | Installing an accepted swap succeeds, rewires the graph, rewrites the two positions, and keeps `_edges_dict` the inverse of `_edges`. |
| TrackedSwap.UniformSwap | py_tools/src/graph/mcmc.py:80-90 | Fewer than two edges is a `ValueError`. |
| TrackedSwap.UniformSwapAgrees | py_tools/src/graph/mcmc.py:80-119 | On a consistent sampler state, `_swap` makes the configuration-model swap's decision and leaves the same graph and list, with the index still consistent. |
| TrackedSwap.FirstWithNeighbour | py_tools/src/graph/mcmc.py:128-131 | The rejection loop picks a drawn node with a neighbour. It finds none iff no drawn node has one. |
| TrackedSwap.Farthest | py_tools/src/graph/mcmc.py:133-140 | An empty list gives -1. Otherwise the result is the first neighbour maximising `abs(deg − deg1)`. |
| TrackedSwap.ChooseEdge | py_tools/src/graph/mcmc.py:127-141 | Without a drawn node of positive degree there is no result. Otherwise the result is a sorted pair that is an edge of the graph. It joins the first drawn node with a neighbour to the first neighbour, in iteration order, whose degree lies farthest from that node's degree. |
| TrackedSwap.LocalSwap | py_tools/src/graph/mcmc.py:121-178 | With the plain-swap branch the result is `_swap`. Otherwise the result is missing iff an edge choice runs out of draws. Any completed step keeps the index consistent and every degree unchanged. |
| StepStub.StepStub | py_tools/src/graph/mcmc.py:226-305 | The step raises `ValueError` iff fewer than two edges. A rejection leaves the matrix, the edge list and `swaps` unchanged. Any step keeps the shapes and node ranges. |
| StepStub.StepKeepsMatrix | py_tools/src/graph/mcmc.py:290-298 | A step keeps every row sum (degree), and keeps a symmetric matrix symmetric. |
| StepStub.StepRecordsNodes | py_tools/src/graph/mcmc.py:285-303 | An accepted step leaves `(swaps[0], swaps[2])` and `(swaps[1], swaps[3])` at the two drawn positions of the edge list, and every other position as it was. |
| StepStub.RewireSymmetric | py_tools/src/graph/mcmc.py:290-298 | The eight matrix updates keep a symmetric matrix symmetric. |
| StepStub.RewireRowSums | py_tools/src/graph/mcmc.py:290-298 | The eight matrix updates leave every row sum as it was. |
| StepStub.RewireMatches | py_tools/src/graph/mcmc.py:345-347 | If the matrix is the graph's adjacency matrix, with loops doubled, the updates turn it into the rewired graph's. |
| StepStub.StepAndGetGraph | py_tools/src/graph/mcmc.py:351-379 | The graph changes only when the step accepts. |
| StepStub.ChainAgreesWithSwap | py_tools/src/graph/mcmc.py:369-379 | With loops and multi-edges disallowed and a consistent matrix, `step_and_get_graph` and the swap accept together and leave the same graph and edge list. The matrix stays consistent. |
| StepStub.RunsAgree | py_tools/test/test_mcmc_pytest.py:7-26 | Seeded alike, `MCMC_class` and `MCMCSamplerNX` with swap probability 1 end with the same graph, as an adjacency, and the same edge list (`_edges` equals `edge_list`) after any number of steps. |

## Left out

- Floating point: probabilities, means and the mean geodesic distance are exact reals, and rounding is not modelled.
- Floating-point integers: several float values in the source hold whole numbers, and the model uses `int` for them:
  - the float64 `results` and `dist` arrays of semisparse.py (lines 109 and 148-149);
  - the float running total `sum_distances = 0.0` of the rolling-sum driver (semisparse.py:128);
  - the `double` counts of the `std::map<int, double>` histogram (main.cpp:41 and 85-88).
  These values are non-negative integers: a distance is below `n`, a count is at most `Σ n_c²`, and a component's distance sum is at most `n³`. float64 holds an integer exactly up to 2^53, so the model is exact while they stay below it, which for a distance sum means components of up to about 200,000 nodes. Rounding beyond that is not modelled.
- Output: printing, progress output, timing, file reading and writing, `get_filenames`, `append_distance_distribution_to_file` and `main` are not modelled.
- `read_gml`: it wraps igraph's GML reader. So do empirical.py and apsp_multi_component.py, and they are not modelled.
- runner.py and helper.py: they are job glue (environment variables, multiprocessing, CSV) and are not modelled.
- OpenMP: the parallel loop in `get_distance_distribution` is modelled as a sequential loop with one set of scratch buffers. Its critical section only serialises commutative updates.
- Integer width: 64-bit `unsigned long long` counters and `int64` matrix entries are unbounded integers. The `stoul` conversion is the one place where the wrap-around is written out.
- EdgeList.Label: the 32-bit overflow of `a--` at `INT_MIN` is not modelled, and non-numeric headers (which make `stoul` throw) are represented only by out-of-range values.
- numba and numpy: `jit`, `np.pad` and `nx.to_scipy_sparse_matrix` are modelled by their result, a table of padded rows.
- Randomness: `np.random` draws are inputs, and distributions are not modelled.
- Neighbour order: networkx's neighbour order is supplied as the `order` parameter of `TrackedSwap.ChooseEdge` and `TrackedSwap.LocalSwap`.
- `_burn_to_convergence` and burn-in: they depend on floating-point assortativity from igraph inside an unbounded loop.
- `get_new_sample` loops: `MCMCSamplerNX.get_new_sample` with p = 1 and the configuration-model `get_new_sample` are modelled as runs over a finite list of draws. The igraph conversion of the result is not modelled.
- `MCMC_class.__init__`: the `NotImplementedError` for vertex-labelled spaces and the construction of `A` from networkx are not modelled. `StepStub.Matches` states what that construction yields.
- PathSample.ThresholdSampler: termination is not modelled. The loop runs over a finite list of rounds, and without convergence the result reports that every round was used.
- PathSample.SamplerNoRejection: the component list is an input. `Clustering` states what igraph's `components()` promises: members in range and pairwise reachable.
- TrackedSwap.ChooseEdge: `while True` draws a node until one has a neighbour. It is modelled over a finite list of drawn nodes, and no result means the list ran out.
- TrackedSwap.LocalSwap: it requires the class invariant that `_edges_dict` inverts `_edges` and that both list the graph's edges. Under that invariant the `pop` calls never raise.
- EdgeSwap.SwapReversible: it needs a loopless graph. When the first swap reversed the second edge, the list is restored only up to the orientation of that pair.
- Components.DfsHelper: it is called only on an unvisited start, as `get_components` does.
- Components.RelabelComponent: a label outside `relabeled` is undefined behaviour in C++. It is modelled as `Failure(OutOfRange)`.
- Components.GetComponents: the correctness of the parts and of their graphs is stated for symmetric graphs, which is what the edge-list and GML readers produce. For any graph the result is only stated to be a partition with matching sizes.
- Bidirectional.BidirectionalDistance: distance correctness is stated for symmetric graphs. With a directed adjacency the reverse search would follow out-edges.
- Bidirectional.BidirectionalDistance: when `s != t` and one of them is not a node, the source raises `KeyError` at `G.adj[v]` once it expands that side. For `s` that happens at once. For `t` it happens only if the reverse side is ever expanded; otherwise the forward search runs dry and returns `None`. The model requires both ends to be nodes in that case, so this path is not modelled.
- Bidirectional.ExpandLevel: when the new fringe is empty, the contract states only that the map's key set is unchanged.
- DictStatistics: keys are modelled as integers, a `map<int, int>`. The source accepts any number as a key, and its tests use integral float keys such as `34.0`. The program's own histograms have integer distance keys. Non-integral keys are not modelled.
- DictStatistics.MedianOfDict: its own contract states only the empty-dictionary error. `DictStatistics.MedianIsMedian` states the value for positive counts, and `DictStatistics.ZeroCountReadsPastEnd` gives one zero-count failure.
- DictStatistics.MeanOfDict: its own contract states only the empty-dictionary error. `DictStatistics.MeanIsAverage` states the value. The `ZeroDivisionError` for counts that sum to zero is modelled but not stated.
- TrackedSwap.UniformSwap: its own contract states only the `ValueError`. `TrackedSwap.UniformSwapAgrees` states the rest under the index invariant.
- StepStub.RunsAgree: the test compares `list(G.edges)` in networkx's iteration order. That order is not modelled. The lemma states that the two graphs are equal as adjacency relations and that the two samplers' edge lists are equal.
- StepStub.StepAndGetGraph: the `NetworkXError` raised when `remove_edge` finds no edge is modelled but not stated in the contract. `StepStub.ChainAgreesWithSwap` shows it cannot happen when the matrix matches the graph.
- CppBfs.BfsDistances: the contract covers only the first `n` entries of the returned buffer, which is all the caller reads.
- Semisparse.BfsDistances, CppBfs.BfsDistances, Semisparse.ApspDriver, Semisparse.RollingSumDriver, Semisparse.Preprocess, Semisparse.PreprocessRollingSum: these are meant for one connected component. On a table or graph the start does not span, the source's loop runs out of queued nodes and reads a `tracker` slot no search wrote (a `-1` or a stale node). It then returns unspecified distances. The model returns a `Failure` there instead (`None` for `CppBfs.BfsDistances`).
- Semisparse.AllPairsShortestPaths, Semisparse.AllPairsShortestPathsRollingSum: the split of `G` by `nx.is_connected`, `nx.connected_components` and `G.subgraph`, and the relabelling of each part by `to_scipy_sparse_matrix`, are not modelled. The drivers take the list of relabelled components as input, constrained only to be non-empty connected graphs on `0..n_c-1`. No contract ties the blocks to `G`'s components. The C++ counterpart `Components.GetComponents` does state that tie.
- Semisparse.Preprocess, Semisparse.PreprocessRollingSum, Semisparse.AllPairsShortestPaths, Semisparse.AllPairsShortestPathsRollingSum: they require loopless graphs, matching the "simple graph" the docstrings ask for. `Semisparse.MaxDegree` takes the longest neighbour list as `max(G.degree)`. The two agree only on a loopless graph, because networkx counts a self-loop twice in a degree. `Semisparse.DecodeEncode` also needs looplessness for its one-node case, where the source's table `[0]` reads as a node with no neighbours.

## Findings

| source | as written | input that shows it | evidently intended | confidence | as-written member | corrected member |
|---|---|---|---|---|---|---|
| cpp_apsp/main.cpp:57 | `print_threshold = num_distances/10` is then used as the divisor of `distance_index % print_threshold` (lines 67 and 89). | A graph with a single edge: 4 distances, so a threshold of 0 and a modulo by zero at the first recorded distance. Any graph with 1 to 9 distances does the same. | A progress threshold of at least 1, such as `max(num_distances/10, 1)`. | not executed | DistanceDistribution.DistributionAsWritten | DistanceDistribution.DistributionCorrected |

=== FILE: apsp.dfy ===
/**
 * What an all-pairs shortest-path computation over a graph's connected
 * components is meant to produce, shared by the Python and the C++
 * kernels.
 *
 * A graph is given as the sequence of its connected components, each on its
 * own local indices `0..n-1`.  `AllDistances(g)` is a component's hop
 * distance matrix; `ComponentBlocks` lays each matrix out row by row, and the
 * concatenation of the blocks is the vector of every same-component ordered
 * pair's distance.  `RowsSoFar` is the invariant of a loop that runs one
 * search per start node.
 */
module Apsp {
  import opened Reach
  import opened SeqUtil

  /** The hop-distance matrix of a connected graph: row `s` is the distance vector from `s`. */
  ghost function AllDistances(g: Adj): (rows: seq<seq<int>>)
    requires Connected(g)
    ensures |rows| == |g| && Uniform(rows, |g|)
    ensures forall s, v :: 0 <= s < |g| && 0 <= v < |g| ==> IsDist(g, s, v, rows[s][v])
  {
    seq(|g|, s requires 0 <= s < |g| => Distances(g, s))
  }

  /** `rows` holds the distance vectors from the first `|rows|` nodes of `g`. */
  ghost predicate RowsSoFar(g: Adj, rows: seq<seq<int>>) {
    && |rows| <= |g|
    && (forall s :: 0 <= s < |rows| ==> ReachesAll(g, s))
    && (forall s :: 0 <= s < |rows| ==> rows[s] == Distances(g, s))
  }

  lemma ExtendRows(g: Adj, rows: seq<seq<int>>, d: seq<int>)
    requires RowsSoFar(g, rows) && |rows| < |g|
    requires ReachesAll(g, |rows|) && d == Distances(g, |rows|)
    ensures RowsSoFar(g, rows + [d])
  {
  }

  lemma RowsComplete(g: Adj, rows: seq<seq<int>>)
    requires RowsSoFar(g, rows) && |rows| == |g|
    ensures Connected(g) && rows == AllDistances(g)
  {
  }

  /** A node that does not reach every node makes the graph disconnected. */
  lemma NotConnected(g: Adj, s: int)
    requires 0 <= s < |g| && !ReachesAll(g, s)
    ensures !Connected(g)
  {
  }

  /**
   * Block layout of the driver's vector: the distance from `i` to `v` is
   * entry `i * n + v`, and the vector sums to the rolling-sum driver's total.
   */
  lemma ApspLayout(g: Adj, i: int, v: int)
    requires Connected(g) && 0 <= i < |g| && 0 <= v < |g|
    ensures |Concat(AllDistances(g))| == |g| * |g|
    ensures 0 <= i * |g| + v < |g| * |g|
    ensures Concat(AllDistances(g))[i * |g| + v] == AllDistances(g)[i][v]
    ensures Sum(Concat(AllDistances(g))) == SumOfSums(AllDistances(g))
  {
    MulNonNegative(i, |g|);
    ConcatLength(AllDistances(g), |g|);
    ConcatIndex(AllDistances(g), |g|, i, v);
    SumConcat(AllDistances(g));
  }

  // ---------------------------------------------------------------------
  // A graph as its components
  // ---------------------------------------------------------------------

  /** The number of nodes of a graph given by its components, `len(G)`. */
  function NodeCount(comps: seq<Adj>): (n: nat)
    ensures |comps| > 0 ==> n >= |comps[|comps| - 1]|
    decreases |comps|
  {
    if |comps| == 0 then 0 else NodeCount(comps[..|comps| - 1]) + |comps[|comps| - 1]|
  }

  /** The number of same-component ordered pairs, the sum of the squared component sizes. */
  function SumSquares(comps: seq<Adj>): nat
    decreases |comps|
  {
    if |comps| == 0 then 0
    else SumSquares(comps[..|comps| - 1]) + |comps[|comps| - 1]| * |comps[|comps| - 1]|
  }

  /** A graph given as its connected components, each on its own local indices. */
  ghost predicate ValidComponents(comps: seq<Adj>) {
    forall c :: 0 <= c < |comps| ==> IsComponent(comps[c])
  }

  /** A non-empty connected graph on local indices. */
  ghost predicate IsComponent(g: Adj) {
    |g| >= 1 && ValidAdj(g) && Connected(g)
  }

  /** Component data of a prefix of the components is a prefix of the component data. */
  lemma ComponentsPrefix(comps: seq<Adj>, c: int)
    requires ValidComponents(comps) && 0 <= c <= |comps|
    ensures ValidComponents(comps[..c])
    ensures ComponentBlocks(comps)[..c] == ComponentBlocks(comps[..c])
    ensures ComponentSums(comps)[..c] == ComponentSums(comps[..c])
  {
  }

  /** Component data of all components extends that of all but the last. */
  lemma ComponentsSnoc(comps: seq<Adj>)
    requires ValidComponents(comps) && |comps| > 0
    ensures ValidComponents(comps[..|comps| - 1])
    ensures ComponentBlocks(comps)
         == ComponentBlocks(comps[..|comps| - 1]) + [Concat(AllDistances(comps[|comps| - 1]))]
    ensures ComponentSums(comps)
         == ComponentSums(comps[..|comps| - 1]) + [SumOfSums(AllDistances(comps[|comps| - 1]))]
  {
    ComponentsPrefix(comps, |comps| - 1);
    TakeStep(ComponentBlocks(comps), |comps| - 1);
    TakeStep(ComponentSums(comps), |comps| - 1);
    assert ComponentBlocks(comps)[..|comps|] == ComponentBlocks(comps);
    assert ComponentSums(comps)[..|comps|] == ComponentSums(comps);
  }

  /** Each component's flattened distance matrix. */
  ghost function ComponentBlocks(comps: seq<Adj>): (blocks: seq<seq<int>>)
    requires ValidComponents(comps)
    ensures |blocks| == |comps|
  {
    seq(|comps|, c requires 0 <= c < |comps| => Concat(AllDistances(comps[c])))
  }

  /** Each component's total distance. */
  ghost function ComponentSums(comps: seq<Adj>): (sums: seq<int>)
    requires ValidComponents(comps)
    ensures |sums| == |comps|
  {
    seq(|comps|, c requires 0 <= c < |comps| => SumOfSums(AllDistances(comps[c])))
  }

  /** A one-node component has the single distance 0. */
  lemma LoneComponent(g: Adj)
    requires |g| == 1 && Connected(g)
    ensures AllDistances(g) == [[0]] && SumOfSums(AllDistances(g)) == 0
  {
    StartIsDistZero(g, 0);
    IsDistUnique(g, 0, 0, AllDistances(g)[0][0], 0);
    assert AllDistances(g)[0] == [0];
    assert [[0]][..0] == [] && [0][..0] == [];
  }

  /** A single edge is connected, its two nodes one hop apart: four pairs summing to 2. */
  lemma SingleEdge()
    ensures IsComponent([[1], [0]])
    ensures AllDistances([[1], [0]]) == [[0, 1], [1, 0]]
    ensures SumOfSums(AllDistances([[1], [0]])) == 2 && SumSquares([[[1], [0]]]) == 4
  {
    EdgeMatrix([[1], [0]]);
    assert [[0, 1], [1, 0]][..1] == [[0, 1]] && [[0, 1]][..0] == [];
    assert [0, 1][..1] == [0] && [1, 0][..1] == [1] && [0][..0] == [] && [1][..0] == [];
    assert [[[1], [0]]][..0] == [];
  }

  lemma EdgeMatrix(g: Adj)
    requires g == [[1], [0]]
    ensures Connected(g) && AllDistances(g) == [[0, 1], [1, 0]]
  {
    EdgeHop(g, 0, 1);
    EdgeHop(g, 1, 0);
    IsDistUnique(g, 0, 0, AllDistances(g)[0][0], 0);
    IsDistUnique(g, 0, 1, AllDistances(g)[0][1], 1);
    IsDistUnique(g, 1, 0, AllDistances(g)[1][0], 1);
    IsDistUnique(g, 1, 1, AllDistances(g)[1][1], 0);
    assert AllDistances(g)[0] == [0, 1] && AllDistances(g)[1] == [1, 0];
  }

  /** In the single edge, each end is at distance 0 from itself and 1 from the other. */
  lemma EdgeHop(g: Adj, s: int, v: int)
    requires g == [[1], [0]] && ((s == 0 && v == 1) || (s == 1 && v == 0))
    ensures IsDist(g, s, s, 0) && IsDist(g, s, v, 1)
    ensures ReachesAll(g, s)
  {
    BallStep(g, s, 0, s, v);
    assert s in Ball(g, s, 0);
    assert Reachable(g, s, s) && Reachable(g, s, v);
  }

  /**
   * The two entry points agree for two or more nodes: the rolling count is
   * the length of the flattened vector and the rolling sum is its total.
   */
  lemma {:induction false} RollingAgreesWithApsp(comps: seq<Adj>)
    requires ValidComponents(comps)
    ensures |Concat(ComponentBlocks(comps))| == SumSquares(comps)
    ensures Sum(Concat(ComponentBlocks(comps))) == Sum(ComponentSums(comps))
    decreases |comps|
  {
    if |comps| > 0 {
      var k := |comps| - 1;
      var front := comps[..k];
      ComponentsPrefix(comps, k);
      RollingAgreesWithApsp(front);
      var block := Concat(AllDistances(comps[k]));
      ComponentsSnoc(comps);
      ConcatSnoc(ComponentBlocks(front), block);
      ConcatLength(AllDistances(comps[k]), |comps[k]|);
      SumConcat(AllDistances(comps[k]));
      SumAppend(Concat(ComponentBlocks(front)), block);
      SumSnoc(ComponentSums(front), SumOfSums(AllDistances(comps[k])));
    }
  }

  /**
   * Where a pair sits in `all_pairs_shortest_paths`'s vector: the distance
   * from local node `i` to local node `v` of component `c` is entry
   * `SumSquares(comps[..c]) + (i * n + v)`, `n` the component's size.
   * Every entry is such a same-component pair, so pairs in different
   * components never appear.
   */
  lemma ComponentLayout(comps: seq<Adj>, c: int, i: int, v: int)
    requires ValidComponents(comps) && 0 <= c < |comps|
    requires 0 <= i < |comps[c]| && 0 <= v < |comps[c]|
    ensures SumSquares(comps[..c]) + (i * |comps[c]| + v) < |Concat(ComponentBlocks(comps))|
    ensures Concat(ComponentBlocks(comps))[SumSquares(comps[..c]) + (i * |comps[c]| + v)]
         == AllDistances(comps[c])[i][v]
  {
    var g := comps[c];
    var k := i * |g| + v;
    assert Connected(g);
    ApspLayout(g, i, v);
    assert 0 <= k < |g| * |g|;
    ComponentBlock(comps, c, k);
    assert Concat(ComponentBlocks(comps))[SumSquares(comps[..c]) + k] == Concat(AllDistances(g))[k];
  }

  /** Component `c`'s block starts after the `SumSquares(comps[..c])` entries of the blocks before it. */
  lemma ComponentBlock(comps: seq<Adj>, c: int, k: int)
    requires ValidComponents(comps) && 0 <= c < |comps|
    requires 0 <= k < |comps[c]| * |comps[c]|
    ensures |Concat(AllDistances(comps[c]))| == |comps[c]| * |comps[c]|
    ensures SumSquares(comps[..c]) + k < |Concat(ComponentBlocks(comps))|
    ensures Concat(ComponentBlocks(comps))[SumSquares(comps[..c]) + k] == Concat(AllDistances(comps[c]))[k]
  {
    BlocksBefore(comps, c);
    ConcatLength(AllDistances(comps[c]), |comps[c]|);
    ConcatAt(ComponentBlocks(comps), c, k);
  }

  /** The blocks before component `c` hold `SumSquares(comps[..c])` entries. */
  lemma BlocksBefore(comps: seq<Adj>, c: int)
    requires ValidComponents(comps) && 0 <= c < |comps|
    ensures |Concat(ComponentBlocks(comps)[..c])| == SumSquares(comps[..c])
  {
    ComponentsPrefix(comps, c);
    RollingAgreesWithApsp(comps[..c]);
  }
}

=== FILE: bfs_queue.dfy ===
/**
 * The single-array FIFO discipline shared by both BFS kernels
 * (`_bfs_distances` in semisparse.py and `bfs_distances` in
 * all_pairs_shortest_paths.cpp).
 *
 * Both keep one array `tracker` as the queue: entries `tracker[0..end)` have
 * been enqueued, the first `pos` of them have been dequeued, `end` equals the
 * number of visited nodes, and the loop guard reads `pos <= end` rather than
 * `pos < end`.  `QueueInv` is the invariant both loops keep; the lemmas below
 * are the transitions (enqueue a newly seen neighbour, finish a dequeued
 * node) and the two ways a search can end (queue exhausted, all visited).
 */
module BfsQueue {
  import opened Reach

  /** The node indices below `n` whose visited flag is set. */
  ghost function Marked(visited: seq<int>, n: nat): set<int>
    requires n <= |visited|
  {
    set v | 0 <= v < n && visited[v] != 0
  }

  /** Buffer sizes and queue bounds; the queue starts with `s`. */
  ghost predicate Shape(g: Adj, s: int, visited: seq<int>, dist: seq<int>, tracker: seq<int>,
                        done: int, end: int)
  {
    && ValidAdj(g) && 0 <= s < |g|
    && |visited| >= |g| && |dist| >= |g| && |tracker| >= |g|
    && 0 <= done <= end <= |g| && 1 <= end && tracker[0] == s
    && (forall i :: 0 <= i < end ==> 0 <= tracker[i] < |g|)
  }

  /** The queue holds exactly the visited nodes below `n`, and there are `end` of them. */
  ghost predicate Holds(n: nat, visited: seq<int>, tracker: seq<int>, end: int) {
    && n <= |visited| && 0 <= end <= |tracker|
    && (forall v :: 0 <= v < n ==> (visited[v] != 0 <==> v in tracker[..end]))
    && |Marked(visited, n)| == end
  }

  /** Every visited node carries its hop distance from `s`. */
  ghost predicate Labelled(g: Adj, s: int, visited: seq<int>, dist: seq<int>) {
    && |visited| >= |g| && |dist| >= |g|
    && (forall v :: 0 <= v < |g| && visited[v] != 0 ==> IsDist(g, s, v, dist[v]))
  }

  /** Distances along the queue never decrease, and the unscanned part spans one level. */
  ghost predicate Levels(dist: seq<int>, tracker: seq<int>, done: int, end: int) {
    && 0 <= done <= end <= |tracker|
    && (forall i :: 0 <= i < end ==> 0 <= tracker[i] < |dist|)
    && (forall i, j :: 0 <= i <= j < end ==> dist[tracker[i]] <= dist[tracker[j]])
    && (done < end ==> dist[tracker[end - 1]] <= dist[tracker[done]] + 1)
  }

  /** The first `done` queue entries have all their neighbours visited. */
  ghost predicate Scanned(g: Adj, visited: seq<int>, tracker: seq<int>, done: int) {
    && |visited| >= |g| && 0 <= done <= |tracker|
    && (forall i, w :: 0 <= i < done && 0 <= tracker[i] < |g| && 0 <= w < |g| && w in g[tracker[i]]
          ==> visited[w] != 0)
  }

  /** No unvisited node lies within the level of the entry being scanned. */
  ghost predicate Frontier(g: Adj, s: int, visited: seq<int>, dist: seq<int>, tracker: seq<int>,
                           done: int, end: int)
  {
    && |visited| >= |g| && 0 <= done <= end <= |tracker|
    && (done < end ==>
          && 0 <= tracker[done] < |dist| && dist[tracker[done]] >= 0
          && (forall w :: 0 <= w < |g| && visited[w] == 0 ==> w !in Ball(g, s, dist[tracker[done]])))
  }

  /**
   * The queue invariant.  `done` is the number of queue entries whose
   * neighbour lists have been scanned completely; while the entry
   * `tracker[done]` is being scanned the source's `pos` is `done + 1`.
   */
  ghost predicate QueueInv(g: Adj, s: int, visited: seq<int>, dist: seq<int>,
                           tracker: seq<int>, done: int, end: int)
  {
    && Shape(g, s, visited, dist, tracker, done, end)
    && Holds(|g|, visited, tracker, end)
    && Labelled(g, s, visited, dist)
    && Levels(dist, tracker, done, end)
    && Scanned(g, visited, tracker, done)
    && Frontier(g, s, visited, dist, tracker, done, end)
  }

  /** The state right after the source seeds the queue with `s`. */
  lemma QueueInit(g: Adj, s: int, visited: seq<int>, dist: seq<int>, tracker: seq<int>)
    requires ValidAdj(g) && 0 <= s < |g|
    requires |visited| >= |g| && |dist| >= |g| && |tracker| >= |g|
    requires forall v :: 0 <= v < |g| ==> (visited[v] != 0 <==> v == s)
    requires dist[s] == 0 && tracker[0] == s
    ensures QueueInv(g, s, visited, dist, tracker, 0, 1)
  {
    assert Marked(visited, |g|) == {s};
    assert tracker[..1] == [s];
    StartIsDistZero(g, s);
  }

  /** Every queue entry is visited. */
  lemma QueuedIsVisited(n: nat, visited: seq<int>, tracker: seq<int>, end: int, i: int)
    requires Holds(n, visited, tracker, end)
    requires 0 <= i < end && 0 <= tracker[i] < n
    ensures visited[tracker[i]] != 0
  {
    assert tracker[..end][i] == tracker[i];
  }

  /** An unvisited node is nowhere in the queue. */
  lemma NotQueued(n: nat, visited: seq<int>, tracker: seq<int>, end: int, w: int)
    requires Holds(n, visited, tracker, end)
    requires 0 <= w < n && visited[w] == 0
    ensures forall i :: 0 <= i < end ==> tracker[i] != w
  {
    forall i | 0 <= i < end
      ensures tracker[i] != w
    {
      assert tracker[..end][i] == tracker[i];
    }
  }

  /** Enqueueing an unvisited node keeps the queue equal to the visited set. */
  lemma VisitHolds(n: nat, visited: seq<int>, tracker: seq<int>, end: int, w: int)
    requires Holds(n, visited, tracker, end) && |tracker| >= n
    requires 0 <= w < n && visited[w] == 0
    ensures end < n
    ensures Holds(n, visited[w := 1], tracker[end := w], end + 1)
  {
    var M := Marked(visited, n);
    assert w !in M;
    SubsetOfRangeSize(M + {w}, n);
    var visited', tracker' := visited[w := 1], tracker[end := w];
    assert Marked(visited', n) == M + {w};
    assert tracker'[..end + 1] == tracker[..end] + [w];
  }

  /** The newly seen neighbour `w` of `u` gets distance one more than `u`'s. */
  lemma VisitLabelled(g: Adj, s: int, visited: seq<int>, dist: seq<int>, tracker: seq<int>,
                      done: int, w: int)
    requires Labelled(g, s, visited, dist)
    requires 0 <= done < |tracker| && 0 <= tracker[done] < |g| && visited[tracker[done]] != 0
    requires 0 <= w < |g| && w in g[tracker[done]]
    requires dist[tracker[done]] >= 0 && w !in Ball(g, s, dist[tracker[done]])
    ensures Labelled(g, s, visited[w := 1], dist[w := dist[tracker[done]] + 1])
  {
    var u := tracker[done];
    assert IsDist(g, s, u, dist[u]);
    BallStep(g, s, dist[u], u, w);
    assert IsDist(g, s, w, dist[u] + 1);
  }

  /** Appending a node one level below the scanned entry keeps the levels ordered. */
  lemma VisitLevels(dist: seq<int>, tracker: seq<int>, done: int, end: int, w: int)
    requires Levels(dist, tracker, done, end) && done < end < |tracker|
    requires 0 <= w < |dist| && forall i :: 0 <= i < end ==> tracker[i] != w
    ensures Levels(dist[w := dist[tracker[done]] + 1], tracker[end := w], done, end + 1)
  {
    var dist', tracker' := dist[w := dist[tracker[done]] + 1], tracker[end := w];
    forall i, j | 0 <= i <= j < end + 1
      ensures dist'[tracker'[i]] <= dist'[tracker'[j]]
    {
      if j == end && i < end {
        assert dist[tracker[i]] <= dist[tracker[end - 1]];
      }
    }
  }

  /** Marking more nodes visited never unscans an entry. */
  lemma VisitScanned(g: Adj, visited: seq<int>, tracker: seq<int>, done: int, end: int, w: int)
    requires Scanned(g, visited, tracker, done) && done <= end < |tracker| && 0 <= w < |visited|
    ensures Scanned(g, visited[w := 1], tracker[end := w], done)
  {
  }

  /** Visiting a node leaves the scanned entry's level, and so the frontier, intact. */
  lemma VisitFrontier(g: Adj, s: int, visited: seq<int>, dist: seq<int>, tracker: seq<int>,
                      done: int, end: int, w: int)
    requires Frontier(g, s, visited, dist, tracker, done, end) && done < end < |tracker|
    requires 0 <= w < |visited| && w < |dist| && tracker[done] != w
    ensures Frontier(g, s, visited[w := 1], dist[w := dist[tracker[done]] + 1],
                     tracker[end := w], done, end + 1)
  {
  }

  /** Appending a node index to a queue with room keeps the buffers' shape. */
  lemma VisitShape(g: Adj, s: int, visited: seq<int>, dist: seq<int>, tracker: seq<int>,
                   done: int, end: int, w: int)
    requires Shape(g, s, visited, dist, tracker, done, end) && done < end < |g| && 0 <= w < |g|
    ensures Shape(g, s, visited[w := 1], dist[w := dist[tracker[done]] + 1],
                  tracker[end := w], done, end + 1)
  {
  }

  /** Visiting a new neighbour `w` of the node being scanned keeps the invariant. */
  lemma QueueVisit(g: Adj, s: int, visited: seq<int>, dist: seq<int>, tracker: seq<int>,
                   done: int, end: int, w: int, next: int)
    requires QueueInv(g, s, visited, dist, tracker, done, end)
    requires done < end && next == end + 1
    requires 0 <= w < |g| && w in g[tracker[done]] && visited[w] == 0
    ensures end < |g|
    ensures QueueInv(g, s, visited[w := 1], dist[w := dist[tracker[done]] + 1],
                     tracker[end := w], done, next)
  {
    VisitHolds(|g|, visited, tracker, end, w);
    QueuedIsVisited(|g|, visited, tracker, end, done);
    NotQueued(|g|, visited, tracker, end, w);
    VisitLabelled(g, s, visited, dist, tracker, done, w);
    VisitLevels(dist, tracker, done, end, w);
    VisitScanned(g, visited, tracker, done, end, w);
    VisitFrontier(g, s, visited, dist, tracker, done, end, w);
    VisitShape(g, s, visited, dist, tracker, done, end, w);
  }

  /** Once every neighbour of `tracker[done]` is visited, it counts as scanned. */
  lemma QueueAdvance(g: Adj, s: int, visited: seq<int>, dist: seq<int>, tracker: seq<int>,
                     done: int, end: int)
    requires QueueInv(g, s, visited, dist, tracker, done, end)
    requires done < end
    requires forall w :: 0 <= w < |g| && w in g[tracker[done]] ==> visited[w] != 0
    ensures QueueInv(g, s, visited, dist, tracker, done + 1, end)
  {
    AdvanceScanned(g, visited, tracker, done);
    AdvanceLevels(dist, tracker, done, end);
    if done + 1 < end {
      AdvanceFrontier(g, s, visited, dist, tracker, done, end);
    }
  }

  /** The entry whose neighbours are all visited joins the scanned prefix. */
  lemma AdvanceScanned(g: Adj, visited: seq<int>, tracker: seq<int>, done: int)
    requires Scanned(g, visited, tracker, done) && done < |tracker| && 0 <= tracker[done] < |g|
    requires forall w :: 0 <= w < |g| && w in g[tracker[done]] ==> visited[w] != 0
    ensures Scanned(g, visited, tracker, done + 1)
  {
  }

  /** Dequeueing keeps the queue's levels ordered. */
  lemma AdvanceLevels(dist: seq<int>, tracker: seq<int>, done: int, end: int)
    requires Levels(dist, tracker, done, end) && done < end
    ensures Levels(dist, tracker, done + 1, end)
  {
    if done + 1 < end {
      assert dist[tracker[done]] <= dist[tracker[done + 1]];
    }
  }

  /** Moving to the next queue entry keeps the frontier, whether or not the level changes. */
  lemma AdvanceFrontier(g: Adj, s: int, visited: seq<int>, dist: seq<int>, tracker: seq<int>,
                        done: int, end: int)
    requires Shape(g, s, visited, dist, tracker, done, end)
    requires Holds(|g|, visited, tracker, end)
    requires Labelled(g, s, visited, dist)
    requires Levels(dist, tracker, done, end)
    requires Scanned(g, visited, tracker, done + 1)
    requires Frontier(g, s, visited, dist, tracker, done, end)
    requires done + 1 < end
    ensures Frontier(g, s, visited, dist, tracker, done + 1, end)
  {
    var level := dist[tracker[done]];
    var next := dist[tracker[done + 1]];
    assert level <= next <= level + 1;
    if next == level + 1 {
      forall w | 0 <= w < |g| && visited[w] == 0
        ensures w !in Ball(g, s, next)
      {
        NextLevelUnvisited(g, s, visited, dist, tracker, done, end, w);
      }
    }
  }

  /** The case of `AdvanceFrontier` where the queue moves on to the next level. */
  lemma NextLevelUnvisited(g: Adj, s: int, visited: seq<int>, dist: seq<int>, tracker: seq<int>,
                           done: int, end: int, w: int)
    requires Shape(g, s, visited, dist, tracker, done, end)
    requires Holds(|g|, visited, tracker, end)
    requires Labelled(g, s, visited, dist)
    requires Levels(dist, tracker, done, end)
    requires Scanned(g, visited, tracker, done + 1)
    requires Frontier(g, s, visited, dist, tracker, done, end)
    requires done + 1 < end
    requires dist[tracker[done + 1]] == dist[tracker[done]] + 1
    requires 0 <= w < |g| && visited[w] == 0
    ensures w !in Ball(g, s, dist[tracker[done + 1]])
  {
    BallUnfold(g, s, dist[tracker[done]]);
    if w in Succ(g, Ball(g, s, dist[tracker[done]])) {
      var p := SuccWitness(g, Ball(g, s, dist[tracker[done]]), w);
      InLevelIsScanned(g, s, visited, dist, tracker, done, end, p);
    }
  }

  /**
   * When the queue moves on to the next level, every visited node within the
   * current level has already been dequeued and scanned.
   */
  lemma InLevelIsScanned(g: Adj, s: int, visited: seq<int>, dist: seq<int>, tracker: seq<int>,
                         done: int, end: int, p: int)
    requires Shape(g, s, visited, dist, tracker, done, end)
    requires Holds(|g|, visited, tracker, end)
    requires Labelled(g, s, visited, dist)
    requires Levels(dist, tracker, done, end)
    requires Scanned(g, visited, tracker, done + 1)
    requires done + 1 < end
    requires dist[tracker[done + 1]] == dist[tracker[done]] + 1
    requires 0 <= p < |g| && visited[p] != 0 && dist[tracker[done]] >= 0
    requires p in Ball(g, s, dist[tracker[done]])
    ensures forall x :: 0 <= x < |g| && x in g[p] ==> visited[x] != 0
  {
    var ip := QueueIndex(|g|, visited, tracker, end, p);
    IsDistLeast(g, s, p, dist[p], dist[tracker[done]]);
  }

  /** A visited node sits at some position of the queue. */
  lemma QueueIndex(n: nat, visited: seq<int>, tracker: seq<int>, end: int, v: int) returns (i: int)
    requires Holds(n, visited, tracker, end)
    requires 0 <= v < n && visited[v] != 0
    ensures 0 <= i < end && tracker[i] == v
  {
    assert v in tracker[..end];
    i :| 0 <= i < end && tracker[..end][i] == v;
  }

  /**
   * When the queue is exhausted (`done == end`) the visited set is closed
   * under neighbours, so an unvisited node exists and is unreachable from `s`.
   */
  lemma QueueExhausted(g: Adj, s: int, visited: seq<int>, dist: seq<int>, tracker: seq<int>,
                       end: int)
    requires QueueInv(g, s, visited, dist, tracker, end, end)
    requires end < |g|
    ensures !ReachesAll(g, s)
  {
    var n := |g|;
    var S := Marked(visited, n);
    assert s in tracker[..end];
    RangeSize(n);
    if Range(n) <= S {
      SubsetSize(Range(n), S);
    } else {
      var v :| v in Range(n) && v !in S;
      forall u, x | u in S && 0 <= u < n && x in g[u] && 0 <= x < n
        ensures x in S
      {
        assert u in tracker[..end];
        var iu :| 0 <= iu < end && tracker[iu] == u;
      }
      forall k: nat
        ensures v !in Ball(g, s, k)
      {
        ClosedContainsBalls(g, s, S, k);
      }
      assert !Reachable(g, s, v);
    }
  }

  /** When every node is visited, each carries its distance and all are reachable. */
  lemma QueueComplete(g: Adj, s: int, visited: seq<int>, dist: seq<int>, tracker: seq<int>,
                      done: int, end: int)
    requires QueueInv(g, s, visited, dist, tracker, done, end)
    requires end == |g|
    ensures forall v :: 0 <= v < |g| ==> IsDist(g, s, v, dist[v])
    ensures ReachesAll(g, s)
  {
    var n := |g|;
    RangeSize(n);
    var M := Marked(visited, n);
    assert M <= Range(n);
    if M != Range(n) {
      var v :| v in Range(n) && v !in M;
      SubsetSize(M, Range(n) - {v});
    }
    forall v | 0 <= v < n
      ensures IsDist(g, s, v, dist[v])
    {
      assert v in M;
    }
    forall v | 0 <= v < n
      ensures Reachable(g, s, v)
    {
      assert v in Ball(g, s, dist[v]);
    }
  }

  /** An entry of an adjacency list is a node of the graph. */
  lemma ListedIsNode(g: Adj, u: int, i: int)
    requires ValidAdj(g) && 0 <= u < |g| && 0 <= i < |g[u]|
    ensures 0 <= g[u][i] < |g| && g[u][i] in g[u]
  {
  }

  /**
   * The body of both inner loops for a neighbour `w` of the node being
   * scanned: if `w` is unvisited, visit it and enqueue it; otherwise leave
   * everything as it is.
   */
  method VisitNeighbour(ghost g: Adj, start: int, visited: seq<int>, dist: seq<int>,
                        tracker: seq<int>, done: int, end: int, w: int)
    returns (visitedOut: seq<int>, distOut: seq<int>, trackerOut: seq<int>, endOut: int)
    requires QueueInv(g, start, visited, dist, tracker, done, end) && done < end
    requires 0 <= w < |g| && w in g[tracker[done]]
    ensures endOut == (if visited[w] == 0 then end + 1 else end)
    ensures QueueInv(g, start, visitedOut, distOut, trackerOut, done, endOut)
    ensures |visitedOut| == |visited| && |distOut| == |dist| && |trackerOut| == |tracker|
    ensures trackerOut[done] == tracker[done] && visitedOut[w] != 0
    ensures forall v :: 0 <= v < |visited| && visited[v] != 0 ==> visitedOut[v] != 0
  {
    if visited[w] == 0 {
      visitedOut, distOut, trackerOut, endOut := Enqueue(g, start, visited, dist, tracker, done, end, w);
    } else {
      visitedOut, distOut, trackerOut, endOut := visited, dist, tracker, end;
    }
  }

  /**
   * The body of the inner loop for a neighbour `w` not seen before: mark it
   * visited, give it the scanned node's distance plus one, and append it to
   * the queue at `end`.
   */
  method Enqueue(ghost g: Adj, start: int, visited: seq<int>, dist: seq<int>, tracker: seq<int>,
                 done: int, end: int, w: int)
    returns (visitedOut: seq<int>, distOut: seq<int>, trackerOut: seq<int>, endOut: int)
    requires QueueInv(g, start, visited, dist, tracker, done, end) && done < end
    requires 0 <= w < |g| && w in g[tracker[done]] && visited[w] == 0
    ensures end < |g| && endOut == end + 1
    ensures QueueInv(g, start, visitedOut, distOut, trackerOut, done, endOut)
    ensures |visitedOut| == |visited| && |distOut| == |dist| && |trackerOut| == |tracker|
    ensures trackerOut[done] == tracker[done] && trackerOut[end] == w
    ensures visitedOut[w] != 0
    ensures forall v :: 0 <= v < |visited| && visited[v] != 0 ==> visitedOut[v] != 0
  {
    endOut := end + 1;
    QueueVisit(g, start, visited, dist, tracker, done, end, w, endOut);
    visitedOut, distOut, trackerOut := visited[w := 1], dist[w := dist[tracker[done]] + 1], tracker[end := w];
  }

}

=== FILE: bidirectional.dfy ===
/**
 * `bidirectional_bfs_distance_networkx` and `bidirectional_bfs_distance_igraph`
 * of bidirectional_bfs.py: the hop distance between `s` and `t` found by
 * growing a search from each end, one whole level at a time, the side with
 * the shorter fringe first.
 *
 * The two functions differ only in how they list a node's neighbours; both
 * read `g[v]` here.  `dist_pred` and `dist_succ` are maps, the fringes are
 * lists.  The Python function falls off its loop and returns `None` when the
 * ends are not connected; that is `None` here too.
 */
module Bidirectional {
  import opened Wrappers
  import opened Reach
  import Subgraphs

  /**
   * One side of the search after `k` levels from `root`: `dist` holds exactly
   * the nodes within `k` hops, each with its hop distance, and `fringe` lists
   * exactly the nodes at distance `k`.
   */
  ghost predicate Side(g: Adj, root: int, dist: map<int, int>, fringe: seq<int>, k: nat) {
    && dist.Keys == Ball(g, root, k)
    && (forall v :: v in dist ==> IsDist(g, root, v, dist[v]))
    && forall v :: v in fringe <==> IsDist(g, root, v, k)
  }

  /** The search state between levels: both sides exact, and no node met from both. */
  ghost predicate Searching(g: Adj, s: int, t: int, pred: map<int, int>, succ: map<int, int>,
                            forward: seq<int>, reverse: seq<int>, kf: nat, kb: nat) {
    && Side(g, s, pred, forward, kf)
    && Side(g, t, succ, reverse, kb)
    && pred.Keys !! succ.Keys
  }

  /**
   * The search: 0 at once when `s == t`, before the graph is read, so even
   * for a label that is not a node; otherwise expand a level of the
   * forward side when its fringe is no longer than the reverse one, else a
   * level of the reverse side, and stop at the first neighbour already
   * reached from the other end.  In an undirected graph the answer is the hop
   * distance, and `None` exactly when `t` cannot be reached.
   */
  method BidirectionalDistance(g: Adj, s: int, t: int) returns (r: Option<int>)
    requires ValidAdj(g) && (s == t || (0 <= s < |g| && 0 <= t < |g|))
    ensures s == t ==> r == Some(0)
    ensures Symmetric(g) ==> (r.Some? <==> Reachable(g, s, t))
    ensures Symmetric(g) && r.Some? ==> IsDist(g, s, t, r.value)
  {
    if s == t {
      StartIsDistZero(g, s);
      return Some(0);
    }
    var pred := map[s := 0];
    var succ := map[t := 0];
    var forward := [s];
    var reverse := [t];
    ghost var kf: nat, kb: nat := 0, 0;
    StartSide(g, s);
    StartSide(g, t);
    while |forward| > 0 && |reverse| > 0
      invariant Searching(g, s, t, pred, succ, forward, reverse, kf, kb)
      decreases 2 * |g| - |pred.Keys| - |succ.Keys|, |forward| + |reverse|
    {
      BallSize(g, s, kf);
      BallSize(g, t, kb);
      if |forward| <= |reverse| {
        var found, pred', forward', w := ExpandLevel(g, s, forward, pred, kf, t, succ, kb);
        if found.Some? {
          if Symmetric(g) {
            MeetingIsDistance(g, s, t, kf, kb, w, succ[w], found.value);
          }
          return found;
        }
        pred, forward, kf := pred', forward', kf + 1;
        BallSize(g, s, kf);
      } else {
        var found, succ', reverse', w := ExpandLevel(g, t, reverse, succ, kb, s, pred, kf);
        if found.Some? {
          if Symmetric(g) {
            MeetingIsDistance(g, t, s, kb, kf, w, pred[w], found.value);
            IsDistSymmetric(g, t, s, found.value);
          }
          return found;
        }
        succ, reverse, kb := succ', reverse', kb + 1;
        BallSize(g, t, kb);
      }
    }
    if Symmetric(g) {
      if |forward| == 0 {
        ExhaustedSide(g, s, pred, kf, t, kb);
      } else {
        ExhaustedSide(g, t, succ, kb, s, kf);
        if Reachable(g, s, t) {
          Subgraphs.ReachSymmetric(g, s, t);
        }
      }
    }
    return None;
  }

  /**
   * One level of one side: scan the neighbours of every fringe node, giving
   * each node not yet in `dist` distance `k + 1` and putting it on the new
   * fringe, and stop as soon as a scanned neighbour is in `other`, returning
   * the two distances added.
   */
  method ExpandLevel(g: Adj, ghost root: int, level: seq<int>, dist: map<int, int>, ghost k: nat,
                     ghost otherRoot: int, other: map<int, int>, ghost otherK: nat)
    returns (found: Option<int>, distOut: map<int, int>, fringe: seq<int>, ghost w: int)
    requires ValidAdj(g) && 0 <= root < |g|
    requires Side(g, root, dist, level, k) && dist.Keys !! other.Keys
    ensures found.None? ==> Side(g, root, distOut, fringe, k + 1) && distOut.Keys !! other.Keys
    ensures found.None? && fringe == [] ==> distOut.Keys == dist.Keys
    ensures found.None? && fringe != [] ==> |dist.Keys| < |distOut.Keys|
    ensures found.Some? ==> IsDist(g, root, w, k + 1) && w in other && found.value == k + 1 + other[w]
  {
    FringeFacts(g, root, dist, level, k);
    distOut, fringe, w := dist, [], root;
    for i := 0 to |level|
      invariant Expanding(g, root, level, dist, k, other, distOut, fringe, i, 0)
    {
      found, distOut, fringe, w := ScanNode(g, root, level, dist, k, other, distOut, fringe, i);
      if found.Some? {
        return;
      }
    }
    LevelDone(g, root, level, dist, k, other, distOut, fringe);
    found := None;
  }

  /** The scan of fringe node `level[i]`: its neighbours in list order. */
  method ScanNode(g: Adj, ghost root: int, level: seq<int>, ghost dist: map<int, int>, ghost k: nat,
                  other: map<int, int>, distIn: map<int, int>, fringeIn: seq<int>, i: int)
    returns (found: Option<int>, distOut: map<int, int>, fringe: seq<int>, ghost w: int)
    requires Expanding(g, root, level, dist, k, other, distIn, fringeIn, i, 0) && i < |level|
    ensures found.None? ==> Expanding(g, root, level, dist, k, other, distOut, fringe, i + 1, 0)
    ensures found.Some? ==> IsDist(g, root, w, k + 1) && w in other && found.value == k + 1 + other[w]
  {
    distOut, fringe, w := distIn, fringeIn, root;
    var v := level[i];
    var nbrs := g[v];
    for j := 0 to |nbrs|
      invariant Expanding(g, root, level, dist, k, other, distOut, fringe, i, j)
    {
      var x := nbrs[j];
      var met;
      met, distOut, fringe := ScanNeighbour(g, root, level, dist, k, other, distOut, fringe, i, j);
      if met {
        return Some(distOut[x] + other[x]), distOut, fringe, x;
      }
    }
    NextNode(g, level, distOut, i);
    found := None;
  }

  /**
   * The scan of one neighbour `x`: record it one level out unless it is
   * already in `distIn`, then report whether the other side has it.
   */
  method ScanNeighbour(g: Adj, ghost root: int, level: seq<int>, ghost dist: map<int, int>, ghost k: nat,
                       other: map<int, int>, distIn: map<int, int>, fringeIn: seq<int>, i: int, j: int)
    returns (met: bool, distOut: map<int, int>, fringe: seq<int>)
    requires Expanding(g, root, level, dist, k, other, distIn, fringeIn, i, j)
    requires i < |level| && j < |g[level[i]]|
    ensures met ==> && g[level[i]][j] in other && g[level[i]][j] in distOut
                    && distOut[g[level[i]][j]] == k + 1 && IsDist(g, root, g[level[i]][j], k + 1)
    ensures !met ==> Expanding(g, root, level, dist, k, other, distOut, fringe, i, j + 1)
  {
    var v := level[i];
    var x := g[v][j];
    distOut, fringe := distIn, fringeIn;
    if x !in distOut {
      fringe := fringe + [x];
      distOut := distOut[x := distOut[v] + 1];
    }
    GrowOne(g, root, level, dist, k, distIn, fringeIn, distOut, fringe, i, j);
    met := x in other;
    if !met {
      ScanAt(g, level, distIn, distOut, i, j);
    }
  }

  /** What a level's expansion reads and never changes: the side before the level. */
  ghost predicate Frame(g: Adj, root: int, level: seq<int>, dist: map<int, int>, k: nat) {
    && ValidAdj(g) && 0 <= root < |g|
    && dist.Keys == Ball(g, root, k)
    && forall a :: 0 <= a < |level| ==> 0 <= level[a] < |g| && level[a] in dist && dist[level[a]] == k
  }

  /**
   * `distOut` extends `dist` without changing an old entry; every new entry
   * is a node one level further out, recorded at that distance, and the new
   * fringe lists exactly the new entries.
   */
  ghost predicate Grown(g: Adj, root: int, dist: map<int, int>, k: nat, distOut: map<int, int>, fringe: seq<int>) {
    && (forall v :: v in dist ==> v in distOut && distOut[v] == dist[v])
    && (forall v :: v in distOut && v !in dist ==> distOut[v] == k + 1 && IsDist(g, root, v, k + 1))
    && (forall v :: v in fringe <==> v in distOut && v !in dist)
  }

  /** The neighbours of the first `i` fringe nodes, and the first `j` of the next, are in `distOut`. */
  ghost predicate Scanned(g: Adj, level: seq<int>, distOut: map<int, int>, i: int, j: int) {
    && (forall a :: 0 <= a < |level| ==> 0 <= level[a] < |g|)
    && 0 <= i <= |level| && 0 <= j
    && (i < |level| ==> j <= |g[level[i]]|)
    && (forall a, b :: 0 <= a < i && 0 <= b < |g[level[a]]| ==> g[level[a]][b] in distOut)
    && (forall b :: 0 <= b < j && i < |level| ==> g[level[i]][b] in distOut)
  }

  /**
   * Part way through a level: `i` fringe nodes and the first `j` neighbours
   * of the next one are scanned, and nothing reached so far meets the other side.
   */
  ghost predicate Expanding(g: Adj, root: int, level: seq<int>, dist: map<int, int>, k: nat,
                            other: map<int, int>, distOut: map<int, int>, fringe: seq<int>, i: int, j: int) {
    && Frame(g, root, level, dist, k)
    && Grown(g, root, dist, k, distOut, fringe)
    && Scanned(g, level, distOut, i, j)
    && distOut.Keys !! other.Keys
  }

  /** Scanning neighbour `x`: if new, it is one level out, recorded and put on the fringe. */
  lemma GrowOne(g: Adj, root: int, level: seq<int>, dist: map<int, int>, k: nat,
                distBefore: map<int, int>, fringeBefore: seq<int>, distOut: map<int, int>, fringe: seq<int>,
                i: int, j: int)
    requires Frame(g, root, level, dist, k) && Grown(g, root, dist, k, distBefore, fringeBefore)
    requires 0 <= i < |level| && 0 <= j < |g[level[i]]|
    requires distOut == if g[level[i]][j] in distBefore then distBefore
                        else distBefore[g[level[i]][j] := distBefore[level[i]] + 1]
    requires fringe == if g[level[i]][j] in distBefore then fringeBefore else fringeBefore + [g[level[i]][j]]
    ensures Grown(g, root, dist, k, distOut, fringe)
    ensures distOut.Keys == distBefore.Keys + {g[level[i]][j]}
    ensures g[level[i]][j] !in distBefore ==> distOut[g[level[i]][j]] == k + 1 && IsDist(g, root, g[level[i]][j], k + 1)
  {
    var v, x := level[i], g[level[i]][j];
    if x !in distBefore {
      BallStep(g, root, k, v, x);
    }
  }

  /** Recording neighbour `j` of fringe node `i` advances the scan by one. */
  lemma ScanAt(g: Adj, level: seq<int>, distBefore: map<int, int>, distOut: map<int, int>, i: int, j: int)
    requires Scanned(g, level, distBefore, i, j) && i < |level| && j < |g[level[i]]|
    requires distOut.Keys == distBefore.Keys + {g[level[i]][j]}
    ensures Scanned(g, level, distOut, i, j + 1)
  {
  }

  /** All neighbours of fringe node `i` scanned: on to the next node. */
  lemma NextNode(g: Adj, level: seq<int>, distOut: map<int, int>, i: int)
    requires 0 <= i < |level| && (forall a :: 0 <= a < |level| ==> 0 <= level[a] < |g|)
    requires Scanned(g, level, distOut, i, |g[level[i]]|)
    ensures Scanned(g, level, distOut, i + 1, 0)
  {
  }

  /** The start of a side: only the root, at distance 0. */
  lemma StartSide(g: Adj, root: int)
    ensures Side(g, root, map[root := 0], [root], 0)
  {
    StartIsDistZero(g, root);
    forall v | IsDist(g, root, v, 0)
      ensures v == root
    {
    }
  }

  /** A side's ball holds at most every node. */
  lemma BallSize(g: Adj, root: int, k: nat)
    requires 0 <= root < |g|
    ensures |Ball(g, root, k)| <= |g|
  {
    BallInRange(g, root, k);
    SubsetOfRangeSize(Ball(g, root, k), |g|);
  }

  /** Fringe nodes are nodes of the graph, recorded at the fringe's distance. */
  lemma FringeFacts(g: Adj, root: int, dist: map<int, int>, level: seq<int>, k: nat)
    requires 0 <= root < |g| && Side(g, root, dist, level, k)
    ensures forall a :: 0 <= a < |level| ==> 0 <= level[a] < |g| && level[a] in dist && dist[level[a]] == k
  {
    BallInRange(g, root, k);
    forall a | 0 <= a < |level|
      ensures 0 <= level[a] < |g| && level[a] in dist && dist[level[a]] == k
    {
      assert level[a] in level;
      IsDistUnique(g, root, level[a], k, dist[level[a]]);
    }
  }

  /** A whole level scanned without meeting the other side: the side is one level further out. */
  lemma LevelDone(g: Adj, root: int, level: seq<int>, dist: map<int, int>, k: nat, other: map<int, int>,
                  distOut: map<int, int>, fringe: seq<int>)
    requires Side(g, root, dist, level, k)
    requires Expanding(g, root, level, dist, k, other, distOut, fringe, |level|, 0)
    ensures Side(g, root, distOut, fringe, k + 1) && distOut.Keys !! other.Keys
    ensures fringe == [] ==> distOut.Keys == dist.Keys
    ensures fringe != [] ==> |dist.Keys| < |distOut.Keys|
  {
    LevelKeys(g, root, level, dist, k, distOut, fringe);
    LevelValues(g, root, dist, k, distOut);
    LevelFringe(g, root, dist, k, distOut, fringe);
    LevelSize(dist, distOut, fringe);
  }

  /** Old entries keep their distances and new ones are at `k + 1`: every entry is exact. */
  lemma LevelValues(g: Adj, root: int, dist: map<int, int>, k: nat, distOut: map<int, int>)
    requires forall v :: v in dist ==> IsDist(g, root, v, dist[v])
    requires forall v :: v in dist ==> v in distOut && distOut[v] == dist[v]
    requires forall v :: v in distOut && v !in dist ==> distOut[v] == k + 1 && IsDist(g, root, v, k + 1)
    ensures forall v :: v in distOut ==> IsDist(g, root, v, distOut[v])
  {
  }

  /** The new fringe lists exactly the nodes at distance `k + 1`. */
  lemma LevelFringe(g: Adj, root: int, dist: map<int, int>, k: nat, distOut: map<int, int>, fringe: seq<int>)
    requires dist.Keys == Ball(g, root, k) && distOut.Keys == Ball(g, root, k + 1)
    requires forall v :: v in distOut && v !in dist ==> IsDist(g, root, v, k + 1)
    requires forall v :: v in fringe <==> v in distOut && v !in dist
    ensures forall v :: v in fringe <==> IsDist(g, root, v, k + 1)
  {
    forall v | IsDist(g, root, v, k + 1)
      ensures v in fringe
    {
      assert v !in Ball(g, root, k);
    }
  }

  /** An empty new fringe leaves the map as it was; otherwise the map grew. */
  lemma LevelSize(dist: map<int, int>, distOut: map<int, int>, fringe: seq<int>)
    requires forall v :: v in dist ==> v in distOut && distOut[v] == dist[v]
    requires forall v :: v in fringe <==> v in distOut && v !in dist
    ensures fringe == [] ==> distOut.Keys == dist.Keys
    ensures fringe != [] ==> |dist.Keys| < |distOut.Keys|
  {
    if fringe == [] {
      NothingNew(dist, distOut, fringe);
    } else {
      SomethingNew(dist, distOut, fringe);
    }
  }

  lemma NothingNew(dist: map<int, int>, distOut: map<int, int>, fringe: seq<int>)
    requires forall v :: v in dist ==> v in distOut && distOut[v] == dist[v]
    requires forall v :: v in fringe <==> v in distOut && v !in dist
    requires fringe == []
    ensures distOut.Keys == dist.Keys
  {
    forall v | v in distOut.Keys
      ensures v in dist.Keys
    {
      assert v !in fringe;
    }
    forall v | v in dist.Keys
      ensures v in distOut.Keys
    {
      assert distOut[v] == dist[v];
    }
  }

  lemma SomethingNew(dist: map<int, int>, distOut: map<int, int>, fringe: seq<int>)
    requires forall v :: v in dist ==> v in distOut && distOut[v] == dist[v]
    requires forall v :: v in fringe <==> v in distOut && v !in dist
    requires fringe != []
    ensures |dist.Keys| < |distOut.Keys|
  {
    var x := fringe[0];
    assert x in fringe;
    forall v | v in dist.Keys + {x}
      ensures v in distOut.Keys
    {
      if v != x {
        assert distOut[v] == dist[v];
      }
    }
    SubsetSize(dist.Keys + {x}, distOut.Keys);
  }

  /** After the whole level, `distOut` holds exactly the nodes within `k + 1` hops. */
  lemma LevelKeys(g: Adj, root: int, level: seq<int>, dist: map<int, int>, k: nat,
                  distOut: map<int, int>, fringe: seq<int>)
    requires Side(g, root, dist, level, k) && Frame(g, root, level, dist, k)
    requires Grown(g, root, dist, k, distOut, fringe) && Scanned(g, level, distOut, |level|, 0)
    ensures distOut.Keys == Ball(g, root, k + 1)
  {
    LevelInside(g, root, dist, k, distOut);
    forall v | v in dist.Keys
      ensures v in distOut.Keys
    {
      assert distOut[v] == dist[v];
    }
    LevelCovers(g, root, level, dist, k, distOut);
  }

  /** Old entries are within `k` hops and new ones at `k + 1`: all within `k + 1`. */
  lemma LevelInside(g: Adj, root: int, dist: map<int, int>, k: nat, distOut: map<int, int>)
    requires dist.Keys == Ball(g, root, k)
    requires forall v :: v in distOut && v !in dist ==> IsDist(g, root, v, k + 1)
    ensures distOut.Keys <= Ball(g, root, k + 1)
  {
    BallMono(g, root, k, k + 1);
  }

  /** Every node one hop beyond the `k`-ball hangs off a fringe node, so the scan recorded it. */
  lemma LevelCovers(g: Adj, root: int, level: seq<int>, dist: map<int, int>, k: nat, distOut: map<int, int>)
    requires forall v :: IsDist(g, root, v, k) ==> v in level
    requires dist.Keys == Ball(g, root, k) && dist.Keys <= distOut.Keys
    requires Scanned(g, level, distOut, |level|, 0)
    ensures Ball(g, root, k + 1) <= distOut.Keys
  {
    forall x | x in Ball(g, root, k + 1) && x !in Ball(g, root, k)
      ensures x in distOut
    {
      var u := HangsOffFringe(g, root, k, x);
      assert u in level;
      var a :| 0 <= a < |level| && level[a] == u;
      var b :| 0 <= b < |g[u]| && g[u][b] == x;
      assert g[level[a]][b] in distOut;
    }
  }

  /** A node first reached at `k + 1` hops is a neighbour of a node at distance exactly `k`. */
  lemma HangsOffFringe(g: Adj, root: int, k: nat, x: int) returns (u: int)
    requires x in Ball(g, root, k + 1) && x !in Ball(g, root, k)
    ensures IsDist(g, root, u, k) && 0 <= u < |g| && x in g[u]
  {
    BallUnfold(g, root, k);
    u := SuccWitness(g, Ball(g, root, k), x);
    var d := LeastLevel(g, root, u, k);
    if d < k {
      BallStep(g, root, d, u, x);
      BallMono(g, root, d + 1, k);
      assert false;
    }
  }

  /**
   * Two searches whose balls are still apart meet at `w`, one level beyond
   * the `kf`-ball of `s` and `d` hops from `t`: in an undirected graph
   * `n = kf + 1 + d` is the distance from `s` to `t`.
   */
  lemma MeetingIsDistance(g: Adj, s: int, t: int, kf: nat, kb: nat, w: int, d: int, n: int)
    requires Symmetric(g) && 0 <= s < |g| && 0 <= t < |g|
    requires Ball(g, s, kf) !! Ball(g, t, kb)
    requires IsDist(g, s, w, kf + 1) && w in Ball(g, t, kb) && IsDist(g, t, w, d) && n == kf + 1 + d
    ensures IsDist(g, s, t, n)
  {
    IsDistLeast(g, t, w, d, kb);
    BallSymmetric(g, t, w, d);
    NotCloser(g, s, t, kf, kb, d);
    Exactly(g, s, w, t, kf, d, n);
  }

  /** A node reached through `w` in `i + 1 + d` hops, and not within `i + d`, is at distance `i + 1 + d`. */
  lemma Exactly(g: Adj, s: int, w: int, t: int, i: nat, d: nat, n: int)
    requires w in Ball(g, s, i + 1) && t in Ball(g, w, d) && t !in Ball(g, s, i + d) && n == i + 1 + d
    ensures IsDist(g, s, t, n)
  {
    BallCompose(g, s, w, t, i + 1, d);
    BallRadius(g, s, t, i + 1 + d, n);
    BallRadius(g, s, t, i + d, n - 1);
    DistBetween(g, s, t, n);
  }

  /** Within radius `n` but not radius `n - 1`: the distance is `n`. */
  lemma DistBetween(g: Adj, s: int, t: int, n: int)
    requires n >= 1 && t in Ball(g, s, n) && t !in Ball(g, s, n - 1)
    ensures IsDist(g, s, t, n)
  {
  }

  /** With the balls apart, `t` is not within `kf + d` hops of `s` for any `d <= kb`. */
  lemma NotCloser(g: Adj, s: int, t: int, kf: nat, kb: nat, d: nat)
    requires Symmetric(g) && 0 <= s < |g|
    requires Ball(g, s, kf) !! Ball(g, t, kb) && d <= kb
    ensures t !in Ball(g, s, kf + d)
  {
    if t in Ball(g, s, kf + d) {
      var p := BallSplit(g, s, t, kf, d);
      BallInRange(g, s, kf);
      BallSymmetric(g, p, t, d);
      BallMono(g, t, d, kb);
      assert false;
    }
  }

  /**
   * A side whose fringe ran empty has found everything reachable from its
   * root; if the other root lies outside it, that root is unreachable.
   */
  lemma ExhaustedSide(g: Adj, root: int, dist: map<int, int>, k: nat, other: int, otherK: nat)
    requires 0 <= root < |g| && Side(g, root, dist, [], k)
    requires dist.Keys !! Ball(g, other, otherK)
    ensures !Reachable(g, root, other)
  {
    BallMono(g, other, 0, otherK);
    StartIsDistZero(g, root);
    assert k != 0 by {
      if k == 0 {
        assert false;
      }
    }
    var j := k - 1;
    BallMono(g, root, 0, j);
    NoLevelClosed(g, root, j, k);
    if Reachable(g, root, other) {
      var n: nat :| other in Ball(g, root, n);
      ClosedContainsBalls(g, root, Ball(g, root, j), n);
      assert false;
    }
  }

  /** With no node at distance exactly `j + 1`, no edge leaves the `j`-ball. */
  lemma NoLevelClosed(g: Adj, root: int, j: nat, k: nat)
    requires k == j + 1 && forall v :: !IsDist(g, root, v, k)
    ensures Ball(g, root, j + 1) == Ball(g, root, j)
    ensures forall u, v :: u in Ball(g, root, j) && 0 <= u < |g| && v in g[u] && 0 <= v < |g| ==> v in Ball(g, root, j)
  {
    forall v | v in Ball(g, root, j + 1)
      ensures v in Ball(g, root, j)
    {
      assert !IsDist(g, root, v, k);
    }
    BallMono(g, root, j, j + 1);
    forall u, v | u in Ball(g, root, j) && 0 <= u < |g| && v in g[u] && 0 <= v < |g|
      ensures v in Ball(g, root, j)
    {
      BallStep(g, root, j, u, v);
    }
  }
}

=== FILE: components.dfy ===
/**
 * `dfs_helper`, `relabel_component` and `get_components` of
 * all_pairs_shortest_paths.cpp: split a graph on labels `0..n-1` into its
 * connected components, each relabelled onto its own local indices.
 *
 * The graph `std::map<int, std::vector<int>>` has every label below its size
 * as a key (the source relies on that), so it is an `Adj`.  The `visited` vector
 * of 0/1 flags is a `seq<bool>`.
 */
module Components {
  import opened Wrappers
  import opened Reach
  import opened SeqUtil
  import opened Subgraphs
  import Apsp

  /** A component as `dfs_helper` collects it: each node label with its adjacency list. */
  type Component = map<int, seq<int>>

  /** `g` with the lists of the nodes visited in `visited` emptied: the edges a new search may follow. */
  function Restrict(g: Adj, visited: seq<bool>): (r: Adj)
    requires |visited| == |g|
    ensures |r| == |g|
    ensures forall v :: 0 <= v < |g| ==> r[v] == if visited[v] then [] else g[v]
  {
    seq(|g|, v requires 0 <= v < |g| => if visited[v] then [] else g[v])
  }

  /** The number of nodes not yet visited. */
  function Unvisited(visited: seq<bool>): nat
    decreases |visited|
  {
    if |visited| == 0 then 0
    else Unvisited(visited[..|visited| - 1]) + (if visited[|visited| - 1] then 0 else 1)
  }

  /** Marking a node visited leaves one fewer to visit. */
  lemma {:induction false} MarkVisited(visited: seq<bool>, x: int)
    requires 0 <= x < |visited| && !visited[x]
    ensures Unvisited(visited[x := true]) == Unvisited(visited) - 1
    decreases |visited|
  {
    var last := |visited| - 1;
    if x == last {
      assert visited[x := true][..last] == visited[..last];
    } else {
      assert visited[x := true][..last] == visited[..last][x := true];
      MarkVisited(visited[..last], x);
    }
  }

  /** The entries of `l` not yet visited, in list order: what the inner loop pushes. */
  function UnvisitedOf(l: seq<int>, visited: seq<bool>): (r: seq<int>)
    requires forall i :: 0 <= i < |l| ==> 0 <= l[i] < |visited|
    ensures forall i :: 0 <= i < |r| ==> r[i] in l && 0 <= r[i] < |visited| && !visited[r[i]]
    ensures forall i :: 0 <= i < |l| && !visited[l[i]] ==> l[i] in r
    decreases |l|
  {
    if |l| == 0 then []
    else
      var front := UnvisitedOf(l[..|l| - 1], visited);
      assert forall i :: 0 <= i < |l| - 1 ==> l[..|l| - 1][i] == l[i];
      front + (if visited[l[|l| - 1]] then [] else [l[|l| - 1]])
  }

  /** With every entry visited nothing is left to push. */
  lemma {:induction false} AllVisited(l: seq<int>, visited: seq<bool>)
    requires forall i :: 0 <= i < |l| ==> 0 <= l[i] < |visited| && visited[l[i]]
    ensures UnvisitedOf(l, visited) == []
    decreases |l|
  {
    if |l| > 0 {
      AllVisited(l[..|l| - 1], visited);
    }
  }

  /** The inner `for (auto const &v : g[u])` loop: push every neighbour not yet visited. */
  method PushUnvisited(l: seq<int>, visited: seq<bool>, stack: seq<int>) returns (stackOut: seq<int>)
    requires forall i :: 0 <= i < |l| ==> 0 <= l[i] < |visited|
    ensures stackOut == stack + UnvisitedOf(l, visited)
  {
    stackOut := stack;
    for j := 0 to |l|
      invariant stackOut == stack + UnvisitedOf(l[..j], visited)
    {
      TakeStep(l, j);
      if !visited[l[j]] {
        stackOut := stackOut + [l[j]];
      }
    }
    TakeAll(l);
  }

  // ---------------------------------------------------------------------
  // The invariant of the `dfs_helper` loop
  // ---------------------------------------------------------------------

  /** Buffers in range; the search only adds visits, and never stacks a node visited before it. */
  ghost predicate DfsShape(g: Adj, visited0: seq<bool>, visited: seq<bool>, stack: seq<int>) {
    && ValidAdj(g) && |visited0| == |g| && |visited| == |g|
    && (forall p :: 0 <= p < |stack| ==> 0 <= stack[p] < |g| && !visited0[stack[p]])
    && (forall v :: 0 <= v < |g| && visited0[v] ==> visited[v])
  }

  /** Everything the search visited or stacked is reachable from `u` avoiding earlier visits. */
  ghost predicate DfsSound(g: Adj, visited0: seq<bool>, u: int, visited: seq<bool>, stack: seq<int>)
    requires |visited0| == |g| && |visited| == |g|
  {
    && 0 <= u < |g| && (visited[u] || u in stack)
    && (forall p :: 0 <= p < |stack| ==> Reachable(Restrict(g, visited0), u, stack[p]))
    && (forall v :: 0 <= v < |g| && visited[v] && !visited0[v] ==> Reachable(Restrict(g, visited0), u, v))
  }

  /**
   * A visited node still on the stack has each neighbour visited or stacked
   * above it, so popping it again pushes nothing: the reason the loop ends.
   */
  ghost predicate DfsAbove(g: Adj, visited: seq<bool>, stack: seq<int>)
    requires ValidAdj(g) && |visited| == |g| && forall p :: 0 <= p < |stack| ==> 0 <= stack[p] < |g|
  {
    forall p, w :: 0 <= p < |stack| && visited[stack[p]] && w in g[stack[p]] ==> visited[w] || w in stack[p + 1..]
  }

  /** A node this search visited has each neighbour visited or still stacked. */
  ghost predicate DfsPending(g: Adj, visited0: seq<bool>, visited: seq<bool>, stack: seq<int>)
    requires ValidAdj(g) && |visited0| == |g| && |visited| == |g|
  {
    forall v, w :: 0 <= v < |g| && visited[v] && !visited0[v] && w in g[v] ==> visited[w] || w in stack
  }

  ghost predicate DfsInv(g: Adj, visited0: seq<bool>, u: int, visited: seq<bool>, stack: seq<int>) {
    && DfsShape(g, visited0, visited, stack)
    && DfsSound(g, visited0, u, visited, stack)
    && DfsAbove(g, visited, stack)
    && DfsPending(g, visited0, visited, stack)
  }

  /** `component` gained exactly the nodes this search visited, each with its adjacency list. */
  ghost predicate Collected(g: Adj, visited0: seq<bool>, visited: seq<bool>, component: Component,
                            componentOut: Component)
    requires |visited0| == |g| && |visited| == |g|
  {
    && (forall v :: v in componentOut <==> v in component || (0 <= v < |g| && visited[v] && !visited0[v]))
    && (forall v :: 0 <= v < |g| && visited[v] && !visited0[v] ==> componentOut[v] == g[v])
    && (forall v :: v in component && !(0 <= v < |g| && visited[v] && !visited0[v]) ==> componentOut[v] == component[v])
  }

  // ---------------------------------------------------------------------
  // One iteration: pop `x` from `rest + [x]`
  // ---------------------------------------------------------------------

  /** Popping a node not yet visited: it is marked and its unvisited neighbours are pushed. */
  lemma PopFresh(g: Adj, visited0: seq<bool>, u: int, visited: seq<bool>, stack: seq<int>,
                 rest: seq<int>, x: int, visitedNew: seq<bool>, stackNew: seq<int>)
    requires DfsInv(g, visited0, u, visited, stack) && stack == rest + [x] && 0 <= x < |g| && !visited[x]
    requires visitedNew == visited[x := true] && stackNew == rest + UnvisitedOf(g[x], visitedNew)
    ensures DfsInv(g, visited0, u, visitedNew, stackNew)
  {
    var pushed := UnvisitedOf(g[x], visitedNew);
    assert stack[|stack| - 1] == x;
    FreshSound(g, visited0, u, visited, stack, rest, x, pushed);
    FreshAbove(g, visited, stack, rest, x, pushed);
    FreshPending(g, visited0, visited, stack, rest, x, pushed);
  }

  lemma FreshSound(g: Adj, visited0: seq<bool>, u: int, visited: seq<bool>, stack: seq<int>,
                   rest: seq<int>, x: int, pushed: seq<int>)
    requires DfsInv(g, visited0, u, visited, stack) && stack == rest + [x] && 0 <= x < |g| && !visited[x]
    requires pushed == UnvisitedOf(g[x], visited[x := true])
    ensures DfsShape(g, visited0, visited[x := true], rest + pushed)
    ensures DfsSound(g, visited0, u, visited[x := true], rest + pushed)
  {
    assert stack[|stack| - 1] == x;
    var r := Restrict(g, visited0);
    var k: nat :| x in Ball(r, u, k);
    forall i | 0 <= i < |pushed|
      ensures Reachable(r, u, pushed[i])
    {
      BallStep(r, u, k, x, pushed[i]);
    }
    assert forall p :: 0 <= p < |rest| ==> rest[p] == stack[p];
  }

  lemma FreshAbove(g: Adj, visited: seq<bool>, stack: seq<int>, rest: seq<int>, x: int, pushed: seq<int>)
    requires ValidAdj(g) && |visited| == |g| && forall p :: 0 <= p < |stack| ==> 0 <= stack[p] < |g|
    requires DfsAbove(g, visited, stack) && stack == rest + [x] && 0 <= x < |g| && !visited[x]
    requires pushed == UnvisitedOf(g[x], visited[x := true])
    ensures forall p :: 0 <= p < |rest + pushed| ==> 0 <= (rest + pushed)[p] < |g|
    ensures DfsAbove(g, visited[x := true], rest + pushed)
  {
    assert forall p :: 0 <= p < |rest| ==> rest[p] == stack[p];
    forall p, w | 0 <= p < |rest + pushed| && visited[x := true][(rest + pushed)[p]] && w in g[(rest + pushed)[p]]
      ensures visited[x := true][w] || w in (rest + pushed)[p + 1..]
    {
      if p < |rest| {
        DropConcat(rest, [x], p + 1);
        DropConcat(rest, pushed, p + 1);
      }
    }
  }

  lemma FreshPending(g: Adj, visited0: seq<bool>, visited: seq<bool>, stack: seq<int>,
                     rest: seq<int>, x: int, pushed: seq<int>)
    requires ValidAdj(g) && |visited0| == |g| && |visited| == |g|
    requires DfsPending(g, visited0, visited, stack) && stack == rest + [x] && 0 <= x < |g| && !visited[x]
    requires pushed == UnvisitedOf(g[x], visited[x := true])
    ensures DfsPending(g, visited0, visited[x := true], rest + pushed)
  {
  }

  /** Popping a node already visited: every neighbour is visited, so nothing is pushed. */
  lemma PopSeen(g: Adj, visited0: seq<bool>, u: int, visited: seq<bool>, stack: seq<int>,
                rest: seq<int>, x: int, stackNew: seq<int>)
    requires DfsInv(g, visited0, u, visited, stack) && stack == rest + [x] && 0 <= x < |g| && visited[x]
    requires stackNew == rest + UnvisitedOf(g[x], visited)
    ensures stackNew == rest
    ensures DfsInv(g, visited0, u, visited, stackNew)
  {
    assert stack[|stack| - 1] == x;
    SeenPushesNothing(g, visited, stack, x);
    SeenSound(g, visited0, u, visited, stack, rest, x);
    SeenAbove(g, visited, stack, rest, x);
    SeenPending(g, visited0, visited, stack, rest, x);
  }

  lemma SeenSound(g: Adj, visited0: seq<bool>, u: int, visited: seq<bool>, stack: seq<int>,
                  rest: seq<int>, x: int)
    requires DfsShape(g, visited0, visited, stack) && DfsSound(g, visited0, u, visited, stack)
    requires stack == rest + [x] && 0 <= x < |g| && visited[x]
    ensures DfsShape(g, visited0, visited, rest) && DfsSound(g, visited0, u, visited, rest)
  {
    assert forall p :: 0 <= p < |rest| ==> rest[p] == stack[p];
  }

  lemma SeenPending(g: Adj, visited0: seq<bool>, visited: seq<bool>, stack: seq<int>,
                    rest: seq<int>, x: int)
    requires ValidAdj(g) && |visited0| == |g| && |visited| == |g|
    requires DfsPending(g, visited0, visited, stack) && stack == rest + [x] && 0 <= x < |g| && visited[x]
    ensures DfsPending(g, visited0, visited, rest)
  {
  }

  lemma SeenPushesNothing(g: Adj, visited: seq<bool>, stack: seq<int>, x: int)
    requires ValidAdj(g) && |visited| == |g| && forall p :: 0 <= p < |stack| ==> 0 <= stack[p] < |g|
    requires DfsAbove(g, visited, stack) && |stack| > 0 && stack[|stack| - 1] == x && visited[x]
    ensures UnvisitedOf(g[x], visited) == []
  {
    assert stack[|stack|..] == [];
    AllVisited(g[x], visited);
  }

  lemma SeenAbove(g: Adj, visited: seq<bool>, stack: seq<int>, rest: seq<int>, x: int)
    requires ValidAdj(g) && |visited| == |g| && forall p :: 0 <= p < |stack| ==> 0 <= stack[p] < |g|
    requires DfsAbove(g, visited, stack) && stack == rest + [x] && 0 <= x < |g| && visited[x]
    ensures forall p :: 0 <= p < |rest| ==> 0 <= rest[p] < |g|
    ensures DfsAbove(g, visited, rest)
  {
    assert forall p :: 0 <= p < |rest| ==> rest[p] == stack[p];
    forall p, w | 0 <= p < |rest| && visited[rest[p]] && w in g[rest[p]]
      ensures visited[w] || w in rest[p + 1..]
    {
      DropConcat(rest, [x], p + 1);
    }
  }

  // ---------------------------------------------------------------------
  // dfs_helper
  // ---------------------------------------------------------------------

  /**
   * `dfs_helper(u, visited, component, g)`: mark and collect every node
   * reachable from the unvisited `u` without passing through a node visited
   * before the call; nothing else changes.
   */
  method DfsHelper(u: int, visited: seq<bool>, component: Component, g: Adj)
    returns (visitedOut: seq<bool>, componentOut: Component)
    requires ValidAdj(g) && |visited| == |g| && 0 <= u < |g| && !visited[u]
    ensures |visitedOut| == |g|
    ensures forall v :: 0 <= v < |g| && visited[v] ==> visitedOut[v]
    ensures forall v :: 0 <= v < |g| && !visited[v] ==> (visitedOut[v] <==> Reachable(Restrict(g, visited), u, v))
    ensures Collected(g, visited, visitedOut, component, componentOut)
  {
    visitedOut, componentOut := visited, component;
    var stack := [u];
    assert u in Ball(Restrict(g, visited), u, 0);
    while |stack| > 0
      invariant DfsInv(g, visited, u, visitedOut, stack)
      invariant Collected(g, visited, visitedOut, component, componentOut)
      decreases Unvisited(visitedOut), |stack|
    {
      visitedOut, componentOut, stack := DfsStep(g, u, visited, component, visitedOut, componentOut, stack);
    }
    DfsComplete(g, visited, u, visitedOut);
  }

  /** One pass of the `while (!s.empty())` loop. */
  method DfsStep(g: Adj, u: int, visited0: seq<bool>, component: Component, visited: seq<bool>,
                 collected: Component, stack: seq<int>)
    returns (visitedOut: seq<bool>, componentOut: Component, stackOut: seq<int>)
    requires DfsInv(g, visited0, u, visited, stack) && |stack| > 0
    requires Collected(g, visited0, visited, component, collected)
    ensures DfsInv(g, visited0, u, visitedOut, stackOut)
    ensures Collected(g, visited0, visitedOut, component, componentOut)
    ensures Unvisited(visitedOut) < Unvisited(visited)
         || (Unvisited(visitedOut) == Unvisited(visited) && |stackOut| < |stack|)
  {
    var x := stack[|stack| - 1];
    var rest := stack[..|stack| - 1];
    assert stack == rest + [x];
    visitedOut, componentOut := visited, collected;
    if !visited[x] {
      visitedOut := visited[x := true];
      componentOut := collected[x := g[x]];
      MarkVisited(visited, x);
    }
    stackOut := PushUnvisited(g[x], visitedOut, rest);
    if !visited[x] {
      PopFresh(g, visited0, u, visited, stack, rest, x, visitedOut, stackOut);
    } else {
      PopSeen(g, visited0, u, visited, stack, rest, x, stackOut);
    }
  }

  /** With the stack empty, every node reachable from `u` avoiding earlier visits is visited. */
  lemma DfsComplete(g: Adj, visited0: seq<bool>, u: int, visited: seq<bool>)
    requires DfsInv(g, visited0, u, visited, [])
    ensures forall v :: 0 <= v < |g| && Reachable(Restrict(g, visited0), u, v) ==> visited[v]
  {
    var r := Restrict(g, visited0);
    var S := set v | 0 <= v < |g| && visited[v];
    forall v | 0 <= v < |g| && Reachable(r, u, v)
      ensures visited[v]
    {
      var k: nat :| v in Ball(r, u, k);
      ClosedContainsBalls(r, u, S, k);
    }
  }

  // ---------------------------------------------------------------------
  // relabel_component: first-seen labels
  // ---------------------------------------------------------------------

  /** Every neighbour listed in the component is itself a node of it. */
  ghost predicate Closed(g: Component) {
    forall u, v :: u in g && v in g[u] ==> v in g
  }

  /** Each element once, in order of first occurrence. */
  function Dedup(s: seq<int>): (d: seq<int>)
    decreases |s|
  {
    if |s| == 0 then []
    else if s[|s| - 1] in Dedup(s[..|s| - 1]) then Dedup(s[..|s| - 1])
    else Dedup(s[..|s| - 1]) + [s[|s| - 1]]
  }

  ghost predicate Distinct(d: seq<int>) {
    forall i, j :: 0 <= i < j < |d| ==> d[i] != d[j]
  }

  /** `Dedup` keeps exactly the elements, each once. */
  lemma {:induction false} DedupElements(s: seq<int>)
    ensures Distinct(Dedup(s)) && |Dedup(s)| <= |s|
    ensures forall x :: x in Dedup(s) <==> x in s
    decreases |s|
  {
    if |s| > 0 {
      DedupElements(s[..|s| - 1]);
      assert s == s[..|s| - 1] + [s[|s| - 1]];
    }
  }

  /** Appending never changes what `Dedup` already listed. */
  lemma {:induction false} DedupPrefix(a: seq<int>, b: seq<int>)
    ensures |Dedup(a)| <= |Dedup(a + b)| && Dedup(a + b)[..|Dedup(a)|] == Dedup(a)
    decreases |b|
  {
    if |b| == 0 {
      assert a + b == a;
    } else {
      assert (a + b)[..|a + b| - 1] == a + b[..|b| - 1];
      DedupPrefix(a, b[..|b| - 1]);
    }
  }

  /** Element `d[i]` gets label `i`. */
  function Labels(d: seq<int>): (m: map<int, int>)
    decreases |d|
  {
    if |d| == 0 then map[] else Labels(d[..|d| - 1])[d[|d| - 1] := |d| - 1]
  }

  /** The labels of a duplicate-free list are its positions: a bijection onto `0..|d|-1`. */
  lemma {:induction false} LabelsArePositions(d: seq<int>)
    requires Distinct(d)
    ensures forall x :: x in Labels(d) <==> x in d
    ensures forall i :: 0 <= i < |d| ==> Labels(d)[d[i]] == i
    ensures |Labels(d).Keys| == |d|
    decreases |d|
  {
    if |d| > 0 {
      LabelsArePositions(d[..|d| - 1]);
      assert d[|d| - 1] !in d[..|d| - 1];
    }
  }

  /** A longer duplicate-free list with the same start labels its start the same way. */
  lemma LabelsExtend(d: seq<int>, e: seq<int>, x: int)
    requires Distinct(e) && |d| <= |e| && e[..|d|] == d && x in d
    ensures x in Labels(e) && x in Labels(d) && Labels(d)[x] == Labels(e)[x]
  {
    var i :| 0 <= i < |d| && d[i] == x;
    assert Distinct(d);
    LabelsArePositions(d);
    LabelsArePositions(e);
  }

  /** The nodes in the order `relabel_component` meets them: each key, then its list. */
  function Encounter(g: Component, keys: seq<int>): seq<int>
    requires forall i :: 0 <= i < |keys| ==> keys[i] in g
    decreases |keys|
  {
    if |keys| == 0 then []
    else Encounter(g, keys[..|keys| - 1]) + [keys[|keys| - 1]] + g[keys[|keys| - 1]]
  }

  /** The whole encounter order, keys in increasing order as a `std::map` iterates them. */
  function Traversal(g: Component): seq<int> {
    SortedSetLists(g.Keys);
    Encounter(g, SortedSet(g.Keys))
  }

  /** The nodes of `g` without repeats, in the order the traversal first meets them. */
  function SeenOrder(g: Component): seq<int> {
    Dedup(Traversal(g))
  }

  /** The label `relabel_component` gives each node: its position in first-seen order. */
  function FirstSeenLabels(g: Component): map<int, int> {
    Labels(SeenOrder(g))
  }

  /** A list with each node replaced by its label. */
  function MapThrough(m: map<int, int>, l: seq<int>): (r: seq<int>)
    requires forall i :: 0 <= i < |l| ==> l[i] in m
    ensures |r| == |l| && forall i :: 0 <= i < |l| ==> r[i] == m[l[i]]
  {
    seq(|l|, i requires 0 <= i < |l| => m[l[i]])
  }

  /** The encounter order of a prefix of the keys is a prefix of the whole order. */
  lemma {:induction false} EncounterPrefix(g: Component, keys: seq<int>, i: int)
    requires forall k :: 0 <= k < |keys| ==> keys[k] in g
    requires 0 <= i <= |keys|
    ensures |Encounter(g, keys[..i])| <= |Encounter(g, keys)|
    ensures Encounter(g, keys)[..|Encounter(g, keys[..i])|] == Encounter(g, keys[..i])
    decreases |keys| - i
  {
    if i == |keys| {
      assert keys[..i] == keys;
    } else {
      EncounterPrefix(g, keys, i + 1);
      assert keys[..i + 1][..i] == keys[..i];
    }
  }

  /** `FirstSeenLabels(g)` is one-to-one and covers every node met. */
  lemma FirstSeenFacts(g: Component)
    ensures forall x :: x in FirstSeenLabels(g) <==> x in Traversal(g)
    ensures forall x, y :: x in FirstSeenLabels(g) && y in FirstSeenLabels(g) && x != y
              ==> FirstSeenLabels(g)[x] != FirstSeenLabels(g)[y]
    ensures forall x :: x in FirstSeenLabels(g) ==> 0 <= FirstSeenLabels(g)[x] < |FirstSeenLabels(g).Keys|
  {
    DedupElements(Traversal(g));
    LabelsArePositions(Dedup(Traversal(g)));
    forall x | x in FirstSeenLabels(g)
      ensures 0 <= FirstSeenLabels(g)[x] < |FirstSeenLabels(g).Keys|
    {
      var i :| 0 <= i < |Dedup(Traversal(g))| && Dedup(Traversal(g))[i] == x;
    }
    forall x, y | x in FirstSeenLabels(g) && y in FirstSeenLabels(g) && x != y
      ensures FirstSeenLabels(g)[x] != FirstSeenLabels(g)[y]
    {
      var i :| 0 <= i < |Dedup(Traversal(g))| && Dedup(Traversal(g))[i] == x;
      var j :| 0 <= j < |Dedup(Traversal(g))| && Dedup(Traversal(g))[j] == y;
    }
  }

  /** Meeting `x`: a node not labelled yet gets the next free label, the others keep theirs. */
  lemma DedupStep(seen: seq<int>, x: int)
    ensures x in Labels(Dedup(seen)) ==>
              Labels(Dedup(seen + [x])) == Labels(Dedup(seen)) && |Dedup(seen + [x])| == |Dedup(seen)|
    ensures x !in Labels(Dedup(seen)) ==>
              Labels(Dedup(seen + [x])) == Labels(Dedup(seen))[x := |Dedup(seen)|]
              && |Dedup(seen + [x])| == |Dedup(seen)| + 1
  {
    DedupElements(seen);
    LabelsArePositions(Dedup(seen));
    assert (seen + [x])[..|seen|] == seen;
  }

  /** Once `x` is met in the order `t`, the label it has is its final one. */
  lemma MeetFinal(t: seq<int>, seen: seq<int>, x: int)
    requires |seen| < |t| && t[..|seen| + 1] == seen + [x]
    ensures x in Labels(Dedup(seen + [x])) && x in Labels(Dedup(t))
    ensures Labels(Dedup(seen + [x]))[x] == Labels(Dedup(t))[x]
  {
    assert t == (seen + [x]) + t[|seen| + 1..];
    DedupPrefix(seen + [x], t[|seen| + 1..]);
    DedupElements(t);
    DedupElements(seen + [x]);
    LabelsExtend(Dedup(seen + [x]), Dedup(t), x);
  }

  lemma MapThroughStep(m: map<int, int>, l: seq<int>, j: int)
    requires 0 <= j < |l| && forall i :: 0 <= i < |l| ==> l[i] in m
    ensures MapThrough(m, l[..j + 1]) == MapThrough(m, l[..j]) + [m[l[j]]]
  {
  }

  /** Every key of `g` and every node on its lists is met by `Encounter`. */
  lemma {:induction false} EncounterCovers(g: Component, keys: seq<int>)
    requires forall k :: 0 <= k < |keys| ==> keys[k] in g
    ensures forall k :: 0 <= k < |keys| ==> keys[k] in Encounter(g, keys)
    ensures forall k, v :: 0 <= k < |keys| && v in g[keys[k]] ==> v in Encounter(g, keys)
    decreases |keys|
  {
    if |keys| > 0 {
      EncounterCovers(g, keys[..|keys| - 1]);
    }
  }

  /** In a closed component every node met is a key. */
  lemma {:induction false} EncounterInside(g: Component, keys: seq<int>)
    requires Closed(g)
    requires forall k :: 0 <= k < |keys| ==> keys[k] in g
    ensures forall x :: x in Encounter(g, keys) ==> x in g
    decreases |keys|
  {
    if |keys| > 0 {
      var last := keys[|keys| - 1];
      EncounterInside(g, keys[..|keys| - 1]);
      forall x | x in Encounter(g, keys)
        ensures x in g
      {
        if x !in Encounter(g, keys[..|keys| - 1]) && x != last {
          assert x in g[last];
        }
      }
    }
  }

  /** Every key and every listed node has a label. */
  ghost predicate Labelled(g: Component, m: map<int, int>) {
    forall u :: u in g ==> u in m && forall i :: 0 <= i < |g[u]| ==> g[u][i] in m
  }

  lemma FirstSeenLabelsAll(g: Component)
    ensures Labelled(g, FirstSeenLabels(g))
  {
    SortedSetLists(g.Keys);
    EncounterCovers(g, SortedSet(g.Keys));
    FirstSeenFacts(g);
    forall u | u in g
      ensures u in FirstSeenLabels(g) && forall v :: v in g[u] ==> v in FirstSeenLabels(g)
    {
      var k :| 0 <= k < |SortedSet(g.Keys)| && SortedSet(g.Keys)[k] == u;
    }
  }

  /** In a closed component the labels are exactly `0..|g|-1`, one per key. */
  lemma ClosedLabels(g: Component)
    requires Closed(g)
    ensures FirstSeenLabels(g).Keys == g.Keys
    ensures forall x :: x in g ==> 0 <= FirstSeenLabels(g)[x] < |g.Keys|
  {
    LabelsInside(g);
    FirstSeenLabelsAll(g);
    FirstSeenFacts(g);
  }

  lemma LabelsInside(g: Component)
    requires Closed(g)
    ensures FirstSeenLabels(g).Keys <= g.Keys
  {
    SortedSetLists(g.Keys);
    EncounterInside(g, SortedSet(g.Keys));
    assert Traversal(g) == Encounter(g, SortedSet(g.Keys));
    FirstSeenFacts(g);
    forall x | x in FirstSeenLabels(g).Keys
      ensures x in g.Keys
    {
      assert x in Traversal(g);
    }
  }

  ghost predicate IsPrefix(a: seq<int>, t: seq<int>) {
    |a| <= |t| && t[..|a|] == a
  }

  /** Meeting key `keys[i]` keeps the nodes met a prefix of the whole order. */
  lemma NextKey(g: Component, keys: seq<int>, i: int)
    requires forall k :: 0 <= k < |keys| ==> keys[k] in g
    requires 0 <= i < |keys|
    ensures IsPrefix(Encounter(g, keys[..i]) + [keys[i]], Encounter(g, keys))
    ensures Encounter(g, keys[..i]) + [keys[i]] == Encounter(g, keys[..i]) + [keys[i]] + g[keys[i]][..0]
  {
    EncounterPrefix(g, keys, i + 1);
    assert keys[..i + 1][..i] == keys[..i];
  }

  /** Meeting entry `j` of the list of key `keys[i]`. */
  lemma NextEntry(g: Component, keys: seq<int>, i: int, j: int)
    requires forall k :: 0 <= k < |keys| ==> keys[k] in g
    requires 0 <= i < |keys| && 0 <= j < |g[keys[i]]|
    ensures IsPrefix(Encounter(g, keys[..i]) + [keys[i]] + g[keys[i]][..j] + [g[keys[i]][j]], Encounter(g, keys))
    ensures Encounter(g, keys[..i]) + [keys[i]] + g[keys[i]][..j] + [g[keys[i]][j]]
            == Encounter(g, keys[..i]) + [keys[i]] + g[keys[i]][..j + 1]
  {
    EncounterPrefix(g, keys, i + 1);
    assert keys[..i + 1][..i] == keys[..i];
    assert g[keys[i]][..j + 1] == g[keys[i]][..j] + [g[keys[i]][j]];
  }

  /** After the whole list of `keys[i]` the nodes met are those of the first `i + 1` keys. */
  lemma KeyDone(g: Component, keys: seq<int>, i: int)
    requires forall k :: 0 <= k < |keys| ==> keys[k] in g
    requires 0 <= i < |keys|
    ensures Encounter(g, keys[..i]) + [keys[i]] + g[keys[i]][..|g[keys[i]]|] == Encounter(g, keys[..i + 1])
  {
    assert keys[..i + 1][..i] == keys[..i];
    assert g[keys[i]][..|g[keys[i]]|] == g[keys[i]];
  }

  /** `relabel_component` writes through `relabeled[mapping[u]]` unchecked: an index past the end. */
  datatype Fault = OutOfRange

  /** Every node with a non-empty list gets a label below the number of keys, so its row exists. */
  ghost predicate LabelsFit(g: Component) {
    forall u :: u in g && |g[u]| > 0 && u in FirstSeenLabels(g) ==> FirstSeenLabels(g)[u] < |g.Keys|
  }

  /** The rows of the keys in `done` hold their lists, relabelled through `f`. */
  ghost predicate RowsFilled(g: Component, f: map<int, int>, rel: seq<seq<int>>, done: seq<int>)
    requires Labelled(g, f)
  {
    forall w :: w in done && w in g && 0 <= f[w] < |rel| ==> rel[f[w]] == MapThrough(f, g[w])
  }

  /** The rows of the nodes outside `done` are still empty. */
  ghost predicate RowsEmpty(f: map<int, int>, rel: seq<seq<int>>, done: seq<int>) {
    forall x :: x in f && x !in done && 0 <= f[x] < |rel| ==> rel[f[x]] == []
  }

  /** Every key in `done` with a non-empty list has a label below `size`. */
  ghost predicate RowsFit(g: Component, f: map<int, int>, done: seq<int>, size: int)
    requires Labelled(g, f)
  {
    forall w :: w in done && w in g && |g[w]| > 0 ==> f[w] < size
  }

  /** The labels handed out after meeting `seen`, agreeing with the final labels `f`. */
  ghost predicate LabelsSoFar(seen: seq<int>, mapping: map<int, int>, counter: int, f: map<int, int>) {
    && mapping == Labels(Dedup(seen))
    && counter == |Dedup(seen)|
    && forall x :: x in mapping ==> x in f && mapping[x] == f[x]
  }

  /** Distinct nodes get distinct labels, all non-negative. */
  ghost predicate OneToOne(f: map<int, int>) {
    && (forall x, y :: x in f && y in f && x != y ==> f[x] != f[y])
    && forall x :: x in f ==> 0 <= f[x]
  }

  /** The facts about the final labels the relabelling loops rely on. */
  lemma FinalLabels(g: Component, keys: seq<int>)
    requires keys == SortedSet(g.Keys)
    ensures forall k :: 0 <= k < |keys| ==> keys[k] in g
    ensures forall a, b :: 0 <= a < b < |keys| ==> keys[a] < keys[b]
    ensures forall u :: u in g ==> u in keys
    ensures Labels(Dedup(Encounter(g, keys))) == FirstSeenLabels(g)
    ensures Labelled(g, FirstSeenLabels(g)) && OneToOne(FirstSeenLabels(g))
  {
    SortedSetLists(g.Keys);
    FirstSeenFacts(g);
    FirstSeenLabelsAll(g);
  }

  /** One step of handing out labels: meeting `x`, the next node of the order `t`. */
  lemma MeetNode(t: seq<int>, seen: seq<int>, x: int, f: map<int, int>,
                 mapping: map<int, int>, counter: int, mappingNew: map<int, int>, counterNew: int)
    requires IsPrefix(seen + [x], t) && f == Labels(Dedup(t))
    requires LabelsSoFar(seen, mapping, counter, f)
    requires mappingNew == if x in mapping then mapping else mapping[x := counter]
    requires counterNew == if x in mapping then counter else counter + 1
    ensures LabelsSoFar(seen + [x], mappingNew, counterNew, f) && x in mappingNew
  {
    DedupStep(seen, x);
    MeetFinal(t, seen, x);
  }

  /**
   * `relabel_component`: visit the keys in increasing order, giving each node
   * the next label when first met, and append the label of every neighbour to
   * the row of the key's label.  It succeeds exactly when every such row
   * exists; then the labels are the first-seen positions and every row holds
   * its key's relabelled list.
   */
  method RelabelComponent(g: Component) returns (r: Result<Adj, Fault>, mapping: map<int, int>)
    ensures r.Success? <==> LabelsFit(g)
    ensures r.Success? ==> mapping == FirstSeenLabels(g) && Labelled(g, mapping)
    ensures r.Success? ==> |r.value| == |g.Keys|
    ensures r.Success? ==> forall u :: u in g && 0 <= mapping[u] < |g.Keys| ==>
              r.value[mapping[u]] == MapThrough(mapping, g[u])
  {
    var keys := SortedSet(g.Keys);
    FinalLabels(g, keys);
    ghost var t := Encounter(g, keys);
    ghost var f := Labels(Dedup(t));
    assert Prepared(g, keys, t, f);
    var ok, relabeled;
    ok, mapping, relabeled := RelabelKeys(g, keys, t, f);
    r := if ok then Success(relabeled) else Failure(OutOfRange);
  }

  /** The outer loop of `relabel_component`, over the keys in increasing order. */
  method RelabelKeys(g: Component, keys: seq<int>, ghost t: seq<int>, ghost f: map<int, int>)
    returns (ok: bool, mapping: map<int, int>, relabeled: seq<seq<int>>)
    requires keys == SortedSet(g.Keys) && Prepared(g, keys, t, f) && f == FirstSeenLabels(g)
    ensures ok <==> LabelsFit(g)
    ensures ok ==> mapping == FirstSeenLabels(g) && Labelled(g, mapping) && |relabeled| == |g.Keys|
    ensures ok ==> forall u :: u in g && 0 <= mapping[u] < |g.Keys| ==>
              relabeled[mapping[u]] == MapThrough(mapping, g[u])
  {
    relabeled := seq(|g.Keys|, _ => []);
    mapping := map[];
    var counter := 0;
    ghost var seen: seq<int> := [];
    NothingRelabelled(g, keys, f);
    for i := 0 to |keys|
      invariant KeysSoFar(g, f, keys, i, seen, mapping, counter, relabeled)
    {
      ok, mapping, counter, relabeled, seen := RelabelKey(g, keys, i, t, f, seen, mapping, counter, relabeled);
      if !ok {
        return;
      }
    }
    RelabelFinished(g, keys, t, f, seen, relabeled, mapping, counter);
    ok := true;
  }

  /** Before the first key nothing is labelled and every row is empty. */
  lemma NothingRelabelled(g: Component, keys: seq<int>, f: map<int, int>)
    requires Labelled(g, f) && forall k :: 0 <= k < |keys| ==> keys[k] in g
    ensures KeysSoFar(g, f, keys, 0, [], map[], 0, seq(|g.Keys|, _ => []))
  {
    assert keys[..0] == [];
  }

  /** The state after the last key: the labels are the final ones and every row is filled. */
  lemma RelabelFinished(g: Component, keys: seq<int>, t: seq<int>, f: map<int, int>, seen: seq<int>,
                        rel: seq<seq<int>>, mapping: map<int, int>, counter: int)
    requires keys == SortedSet(g.Keys) && Prepared(g, keys, t, f)
    requires KeysSoFar(g, f, keys, |keys|, seen, mapping, counter, rel)
    ensures LabelsFit(g)
    ensures mapping == FirstSeenLabels(g) && Labelled(g, mapping)
    ensures forall u :: u in g && 0 <= mapping[u] < |g.Keys| ==> rel[mapping[u]] == MapThrough(mapping, g[u])
  {
    TakeAll(keys);
    FinalLabels(g, keys);
  }

  /** A key with a list whose label is past the last row: `relabel_component` writes out of range. */
  lemma Unfit(g: Component, u: int)
    requires u in g && |g[u]| > 0 && u in FirstSeenLabels(g) && FirstSeenLabels(g)[u] >= |g.Keys|
    ensures !LabelsFit(g)
  {
  }

  /** Rows of `rel` for the keys in `done`: filled, the rest empty, and none out of range. */
  ghost predicate Rows(g: Component, f: map<int, int>, rel: seq<seq<int>>, done: seq<int>, size: int)
    requires Labelled(g, f)
  {
    |rel| == size && RowsFilled(g, f, rel, done) && RowsEmpty(f, rel, done) && RowsFit(g, f, done, size)
  }

  /** Fixed throughout `relabel_component`: `keys` are keys of `g` in increasing order, `t` the vertices met in turn, `f` the labels by first meeting. */
  ghost predicate Prepared(g: Component, keys: seq<int>, t: seq<int>, f: map<int, int>) {
    (forall k :: 0 <= k < |keys| ==> keys[k] in g)
    && (forall a, b :: 0 <= a < b < |keys| ==> keys[a] < keys[b])
    && t == Encounter(g, keys) && f == Labels(Dedup(t)) && Labelled(g, f) && OneToOne(f)
  }

  /**
   * The state of the outer loop of `relabel_component` after the first `i`
   * keys: every node met so far is labelled, and the rows of those keys are filled.
   */
  ghost predicate KeysSoFar(g: Component, f: map<int, int>, keys: seq<int>, i: int,
                            seen: seq<int>, mapping: map<int, int>, counter: int, rel: seq<seq<int>>)
    requires Labelled(g, f) && forall k :: 0 <= k < |keys| ==> keys[k] in g
  {
    0 <= i <= |keys| && seen == Encounter(g, keys[..i]) && LabelsSoFar(seen, mapping, counter, f)
    && Rows(g, f, rel, keys[..i], |g.Keys|)
  }

  /** One pass of the outer loop of `relabel_component`: label key `keys[i]`, then its list. */
  method RelabelKey(g: Component, keys: seq<int>, i: int, ghost t: seq<int>, ghost f: map<int, int>,
                    ghost seen: seq<int>, mapping: map<int, int>, counter: int, relabeled: seq<seq<int>>)
    returns (ok: bool, mappingOut: map<int, int>, counterOut: int, relabeledOut: seq<seq<int>>,
             ghost seenOut: seq<int>)
    requires Prepared(g, keys, t, f) && f == FirstSeenLabels(g) && 0 <= i < |keys|
    requires KeysSoFar(g, f, keys, i, seen, mapping, counter, relabeled)
    ensures ok ==> KeysSoFar(g, f, keys, i + 1, seenOut, mappingOut, counterOut, relabeledOut)
    ensures !ok ==> !LabelsFit(g)
  {
    var u := keys[i];
    NextKey(g, keys, i);
    var mapping1, counter1 := mapping, counter;
    if u !in mapping {
      mapping1 := mapping[u := counter];
      counter1 := counter + 1;
    }
    MeetNode(t, seen, u, f, mapping, counter, mapping1, counter1);
    ok, mappingOut, counterOut, relabeledOut, seenOut := RelabelList(g, keys, i, t, f, seen + [u], mapping1, counter1, relabeled);
    if !ok {
      Unfit(g, u);
    }
  }

  /** The inner loop of `relabel_component` for key `keys[i]`, which has just been met. */
  method RelabelList(g: Component, keys: seq<int>, i: int, ghost t: seq<int>, ghost f: map<int, int>,
                     ghost seen: seq<int>, mapping: map<int, int>, counter: int, relabeled: seq<seq<int>>)
    returns (ok: bool, mappingOut: map<int, int>, counterOut: int, relabeledOut: seq<seq<int>>,
             ghost seenOut: seq<int>)
    requires Prepared(g, keys, t, f) && 0 <= i < |keys|
    requires seen == Encounter(g, keys[..i]) + [keys[i]]
    requires LabelsSoFar(seen, mapping, counter, f) && keys[i] in mapping
    requires Rows(g, f, relabeled, keys[..i], |g.Keys|)
    ensures ok ==> seenOut == Encounter(g, keys[..i + 1]) && LabelsSoFar(seenOut, mappingOut, counterOut, f)
    ensures ok ==> Rows(g, f, relabeledOut, keys[..i + 1], |g.Keys|)
    ensures !ok ==> keys[i] in g && |g[keys[i]]| > 0 && f[keys[i]] >= |g.Keys|
  {
    var u := keys[i];
    var vs := g[u];
    mappingOut, counterOut, relabeledOut, seenOut := mapping, counter, relabeled, seen;
    assert u !in keys[..i];
    for j := 0 to |vs|
      invariant ListSoFar(g, f, keys, i, j, seenOut, mappingOut, counterOut, relabeledOut)
    {
      ok, mappingOut, counterOut, relabeledOut, seenOut :=
        RelabelEntry(g, keys, i, j, t, f, seenOut, mappingOut, counterOut, relabeledOut);
      if !ok {
        return;
      }
    }
    KeyDone(g, keys, i);
    TakeStep(keys, i);
    TakeAll(vs);
    FinishRow(g, f, relabeledOut, keys[..i], u, |g.Keys|);
    ok := true;
  }

  /**
   * The state of the inner loop of `relabel_component` after the first `j`
   * entries of the list of `u == keys[i]`: those entries are met and
   * labelled, the row of `u` holds their labels, the rows of the keys before
   * `u` are filled and the rest are empty.
   */
  ghost predicate ListSoFar(g: Component, f: map<int, int>, keys: seq<int>, i: int, j: int,
                            seen: seq<int>, mapping: map<int, int>, counter: int, rel: seq<seq<int>>)
    requires Labelled(g, f) && (forall k :: 0 <= k < |keys| ==> keys[k] in g) && 0 <= i < |keys|
  {
    var u, vs := keys[i], g[keys[i]];
    0 <= j <= |vs|
    && seen == Encounter(g, keys[..i]) + [u] + vs[..j]
    && LabelsSoFar(seen, mapping, counter, f) && u in mapping
    && |rel| == |g.Keys|
    && RowsFilled(g, f, rel, keys[..i]) && RowsEmpty(f, rel, keys[..i] + [u])
    && (0 <= f[u] < |g.Keys| ==> rel[f[u]] == MapThrough(f, vs[..j]))
    && (j > 0 ==> f[u] < |g.Keys|)
  }

  /** One pass of the inner loop of `relabel_component`: label entry `j` of the list of `keys[i]` and append it to its row. */
  method RelabelEntry(g: Component, keys: seq<int>, i: int, j: int, ghost t: seq<int>, ghost f: map<int, int>,
                      ghost seen: seq<int>, mapping: map<int, int>, counter: int, relabeled: seq<seq<int>>)
    returns (ok: bool, mappingOut: map<int, int>, counterOut: int, relabeledOut: seq<seq<int>>,
             ghost seenOut: seq<int>)
    requires Prepared(g, keys, t, f) && 0 <= i < |keys| && 0 <= j < |g[keys[i]]|
    requires ListSoFar(g, f, keys, i, j, seen, mapping, counter, relabeled)
    ensures ok ==> ListSoFar(g, f, keys, i, j + 1, seenOut, mappingOut, counterOut, relabeledOut)
    ensures !ok ==> f[keys[i]] >= |g.Keys|
  {
    var u := keys[i];
    var v := g[u][j];
    NextEntry(g, keys, i, j);
    mappingOut, counterOut := mapping, counter;
    if v !in mapping {
      mappingOut := mapping[v := counter];
      counterOut := counter + 1;
    }
    MeetNode(t, seen, v, f, mapping, counter, mappingOut, counterOut);
    seenOut := seen + [v];
    if mappingOut[u] >= |relabeled| {
      return false, mappingOut, counterOut, relabeled, seenOut;
    }
    MapThroughStep(f, g[u], j);
    relabeledOut := relabeled[mappingOut[u] := relabeled[mappingOut[u]] + [mappingOut[v]]];
    PushRow(g, f, relabeled, keys[..i], u, relabeledOut[f[u]], relabeledOut);
    ok := true;
  }

  /** Writing the row of `u` leaves the rows of every other node as they were. */
  lemma PushRow(g: Component, f: map<int, int>, rel: seq<seq<int>>, done: seq<int>, u: int,
                row: seq<int>, relNew: seq<seq<int>>)
    requires Labelled(g, f) && OneToOne(f) && u in f && u !in done && 0 <= f[u] < |rel|
    requires relNew == rel[f[u] := row]
    requires RowsFilled(g, f, rel, done) && RowsEmpty(f, rel, done + [u])
    ensures RowsFilled(g, f, relNew, done) && RowsEmpty(f, relNew, done + [u])
  {
  }

  /** Once the row of `u` holds its whole list, `u` joins the keys done. */
  lemma FinishRow(g: Component, f: map<int, int>, rel: seq<seq<int>>, done: seq<int>, u: int, size: int)
    requires Labelled(g, f) && u in g && |rel| == size
    requires 0 <= f[u] < size ==> rel[f[u]] == MapThrough(f, g[u])
    requires |g[u]| > 0 ==> f[u] < size
    requires RowsFilled(g, f, rel, done) && RowsEmpty(f, rel, done + [u]) && RowsFit(g, f, done, size)
    ensures Rows(g, f, rel, done + [u], size)
  {
  }

  /**
   * In a closed component every label `0..|g|-1` is used: label `a` is the
   * one given to the `a`-th node of the first-seen order.
   */
  lemma ClosedOnto(g: Component)
    requires Closed(g)
    ensures FirstSeenLabels(g).Keys == g.Keys && |SeenOrder(g)| == |g.Keys|
    ensures forall a :: 0 <= a < |g.Keys| ==> SeenOrder(g)[a] in g && FirstSeenLabels(g)[SeenOrder(g)[a]] == a
  {
    ClosedLabels(g);
    var d := SeenOrder(g);
    assert FirstSeenLabels(g) == Labels(d);
    DedupElements(Traversal(g));
    LabelsArePositions(d);
    assert |g.Keys| == |d|;
  }

  /** A closed component's labels are a one-to-one correspondence between its keys and `0..|g|-1`. */
  lemma RelabelBijection(g: Component)
    requires Closed(g)
    ensures FirstSeenLabels(g).Keys == g.Keys
    ensures forall x :: x in g ==> 0 <= FirstSeenLabels(g)[x] < |g.Keys|
    ensures forall x, y :: x in g && y in g && x != y ==> FirstSeenLabels(g)[x] != FirstSeenLabels(g)[y]
    ensures |SeenOrder(g)| == |g.Keys|
    ensures forall a :: 0 <= a < |g.Keys| ==> SeenOrder(g)[a] in g && FirstSeenLabels(g)[SeenOrder(g)[a]] == a
  {
    ClosedLabels(g);
    FirstSeenFacts(g);
    ClosedOnto(g);
  }

  /** Relabelling a closed component always stays within its rows. */
  lemma ClosedFits(g: Component)
    requires Closed(g)
    ensures LabelsFit(g)
  {
    ClosedLabels(g);
  }

  /** A one-to-one relabelling keeps exactly the listed nodes. */
  lemma MapThroughMember(m: map<int, int>, l: seq<int>, v: int)
    requires OneToOne(m) && v in m && forall i :: 0 <= i < |l| ==> l[i] in m
    ensures v in l <==> m[v] in MapThrough(m, l)
  {
    if m[v] in MapThrough(m, l) {
      var i :| 0 <= i < |l| && MapThrough(m, l)[i] == m[v];
      assert m[l[i]] == m[v];
      assert l[i] == v;
      assert v in l;
    }
    if v in l {
      var i :| 0 <= i < |l| && l[i] == v;
      assert MapThrough(m, l)[i] == m[v];
    }
  }

  /**
   * Relabelling a closed component keeps its edges and adds none: `v` is on
   * the list of `u` exactly when `v`'s label is on the row of `u`'s label.
   */
  lemma RelabelKeepsEdges(g: Component, mapping: map<int, int>, rel: Adj)
    requires Closed(g) && |rel| == |g.Keys|
    requires mapping == FirstSeenLabels(g) && Labelled(g, mapping)
    requires forall u :: u in g && 0 <= mapping[u] < |g.Keys| ==> rel[mapping[u]] == MapThrough(mapping, g[u])
    ensures forall u :: u in g ==> 0 <= mapping[u] < |rel|
    ensures forall u, v :: u in g && v in g ==> (v in g[u] <==> mapping[v] in rel[mapping[u]])
  {
    ClosedLabels(g);
    FirstSeenFacts(g);
    forall u, v | u in g && v in g
      ensures v in g[u] <==> mapping[v] in rel[mapping[u]]
    {
      MapThroughMember(mapping, g[u], v);
    }
  }

  /** The nodes flagged in `visited`. */
  function VisitedSet(visited: seq<bool>): (S: set<int>)
    ensures forall v :: v in S <==> 0 <= v < |visited| && visited[v]
  {
    set v | 0 <= v < |visited| && visited[v]
  }

  /**
   * In an undirected graph whose visited nodes form a closed set, a search
   * that may not enter visited nodes reaches exactly what an unrestricted
   * search reaches.
   */
  lemma RestrictReach(g: Adj, visited: seq<bool>, s: int, v: int)
    requires Symmetric(g) && |visited| == |g| && 0 <= s < |g| && !visited[s]
    requires EdgeClosed(g, VisitedSet(visited))
    ensures Reachable(Restrict(g, visited), s, v) <==> Reachable(g, s, v)
  {
    var r := Restrict(g, visited);
    var U := Range(|g|) - VisitedSet(visited);
    assert SubgraphOf(r, g);
    if Reachable(r, s, v) {
      ReachSubgraph(r, g, s, v);
    }
    if Reachable(g, s, v) {
      ComplementClosed(g, VisitedSet(visited));
      assert AgreeOn(g, r, U);
      ReachAgree(g, r, U, s, v);
    }
  }

  /** The component `dfs_helper` collects around `root`: the class of `root` with its lists. */
  ghost predicate ComponentOf(g: Adj, root: int, comp: Component) {
    && 0 <= root < |g|
    && comp.Keys == Class(g, root)
    && forall u :: u in comp ==> 0 <= u < |g| && comp[u] == g[u]
  }

  /** A walk of `g` inside the class, read through the labels, is a walk of the relabelled graph. */
  lemma MapWalk(g: Adj, comp: Component, mapping: map<int, int>, rel: Adj, w: seq<int>) returns (mw: seq<int>)
    requires forall u :: u in comp ==> 0 <= u < |g| && comp[u] == g[u]
    requires Closed(comp) && mapping == FirstSeenLabels(comp) && Labelled(comp, mapping)
    requires |rel| == |comp.Keys| && forall u :: u in comp ==> 0 <= mapping[u] < |rel|
    requires forall u :: u in comp ==> rel[mapping[u]] == MapThrough(mapping, comp[u])
    requires IsWalk(g, w) && forall i :: 0 <= i < |w| ==> w[i] in comp
    ensures IsWalk(rel, mw) && mw[0] == mapping[w[0]] && mw[|mw| - 1] == mapping[w[|w| - 1]]
  {
    mw := seq(|w|, i requires 0 <= i < |w| => mapping[w[i]]);
    forall i | 0 <= i < |mw| - 1
      ensures mw[i + 1] in rel[mw[i]]
    {
      FirstSeenFacts(comp);
      MapThroughMember(mapping, comp[w[i]], w[i + 1]);
    }
  }

  /** `rel` is the closed component `comp` relabelled one-to-one onto `0..|comp|-1` by `mapping`. */
  ghost predicate RelabelledFrom(comp: Component, mapping: map<int, int>, rel: Adj) {
    && Closed(comp)
    && mapping == FirstSeenLabels(comp)
    && Labelled(comp, mapping)
    && mapping.Keys == comp.Keys
    && |SeenOrder(comp)| == |comp.Keys|
    && (forall a :: 0 <= a < |comp.Keys| ==> SeenOrder(comp)[a] in comp && mapping[SeenOrder(comp)[a]] == a)
    && |rel| == |comp.Keys|
    && (forall u :: u in comp ==> 0 <= mapping[u] < |rel|)
    && forall u :: u in comp ==> rel[mapping[u]] == MapThrough(mapping, comp[u])
  }

  /**
   * Relabelling the component of `root` in an undirected graph gives a
   * non-empty, well-formed, connected graph: what the distance code requires
   * of every component.
   */
  lemma RelabelledIsComponent(g: Adj, root: int, comp: Component, mapping: map<int, int>, rel: Adj)
    requires ValidAdj(g) && Symmetric(g) && ComponentOf(g, root, comp)
    requires mapping == FirstSeenLabels(comp) && Labelled(comp, mapping) && |rel| == |comp.Keys|
    requires forall u :: u in comp && 0 <= mapping[u] < |comp.Keys| ==> rel[mapping[u]] == MapThrough(mapping, comp[u])
    ensures RelabelledFrom(comp, mapping, rel)
    ensures Apsp.IsComponent(rel)
  {
    ComponentClosed(g, root, comp);
    RelabelBijection(comp);
    assert RelabelledFrom(comp, mapping, rel);
    ReachSelf(g, root);
    assert root in comp;
    RelabelledValid(comp, mapping, rel);
    RelabelledConnected(g, root, comp, mapping, rel);
  }

  /** Every row of the relabelled graph belongs to a node of the component. */
  lemma LabelOwner(comp: Component, mapping: map<int, int>, rel: Adj, a: int) returns (u: int)
    requires RelabelledFrom(comp, mapping, rel) && 0 <= a < |rel|
    ensures u in comp && mapping[u] == a
  {
    u := SeenOrder(comp)[a];
  }

  lemma RelabelledValid(comp: Component, mapping: map<int, int>, rel: Adj)
    requires RelabelledFrom(comp, mapping, rel)
    ensures ValidAdj(rel)
  {
    forall a, j | 0 <= a < |rel| && 0 <= j < |rel[a]|
      ensures 0 <= rel[a][j] < |rel|
    {
      var u := LabelOwner(comp, mapping, rel, a);
      assert rel[a][j] == mapping[comp[u][j]];
    }
  }

  lemma RelabelledConnected(g: Adj, root: int, comp: Component, mapping: map<int, int>, rel: Adj)
    requires ValidAdj(g) && Symmetric(g) && ComponentOf(g, root, comp)
    requires RelabelledFrom(comp, mapping, rel)
    ensures Connected(rel)
  {
    forall a | 0 <= a < |rel|
      ensures ReachesAll(rel, a)
    {
      var u := LabelOwner(comp, mapping, rel, a);
      forall b | 0 <= b < |rel|
        ensures Reachable(rel, a, b)
      {
        var v := LabelOwner(comp, mapping, rel, b);
        RelabelledReach(g, root, comp, mapping, rel, u, v);
      }
    }
  }

  lemma RelabelledReach(g: Adj, root: int, comp: Component, mapping: map<int, int>, rel: Adj, u: int, v: int)
    requires ValidAdj(g) && Symmetric(g) && ComponentOf(g, root, comp)
    requires RelabelledFrom(comp, mapping, rel)
    requires u in comp && v in comp
    ensures Reachable(rel, mapping[u], mapping[v])
  {
    ClassMembers(g, root, u, v);
    var k: nat :| v in Ball(g, u, k);
    var w := WalkToBallMember(g, u, v, k);
    ClassClosed(g, root);
    forall i | 0 <= i < |w|
      ensures w[i] in comp
    {
      WalkStaysIn(g, Class(g, root), w, i);
    }
    var mw := MapWalk(g, comp, mapping, rel, w);
    WalkInBall(rel, mw);
  }

  /**
   * One pass of `get_components` at an unvisited node `i`: collect what a
   * search from `i` reaches through unvisited nodes, then relabel it.  In an
   * undirected graph whose visited nodes are closed, the part collected is
   * the class of `i` and the relabelled graph is a connected component.
   */
  method CollectComponent(g: Adj, i: int, visited: seq<bool>)
    returns (r: Result<Adj, Fault>, visitedOut: seq<bool>, ghost part: set<int>)
    requires ValidAdj(g) && |visited| == |g| && 0 <= i < |g| && !visited[i]
    ensures |visitedOut| == |g|
    ensures VisitedSet(visitedOut) == VisitedSet(visited) + part && VisitedSet(visited) !! part
    ensures i in part
    ensures r.Success? ==> |r.value| == |part|
    ensures Symmetric(g) && EdgeClosed(g, VisitedSet(visited)) ==>
              part == Class(g, i) && r.Success? && Apsp.IsComponent(r.value)
              && RelabelledPart(g, part, r.value)
              && EdgeClosed(g, VisitedSet(visitedOut))
  {
    var comp;
    visitedOut, comp := DfsHelper(i, visited, map[], g);
    part := VisitedSet(visitedOut) - VisitedSet(visited);
    SearchCollects(g, i, visited, visitedOut, comp);
    var mapping;
    r, mapping := RelabelComponent(comp);
    if Symmetric(g) && EdgeClosed(g, VisitedSet(visited)) {
      SymmetricCollect(g, i, visited, visitedOut, comp, r, mapping);
    }
  }

  /** What `dfs_helper` promises after a search from `i` with nothing collected before. */
  ghost predicate Searched(g: Adj, i: int, visited: seq<bool>, visitedOut: seq<bool>, comp: Component)
    requires |visited| == |g|
  {
    && |visitedOut| == |g|
    && (forall v :: 0 <= v < |g| && visited[v] ==> visitedOut[v])
    && (forall v :: 0 <= v < |g| && !visited[v] ==> (visitedOut[v] <==> Reachable(Restrict(g, visited), i, v)))
    && Collected(g, visited, visitedOut, map[], comp)
  }

  /** The search collects the newly visited nodes, `i` among them. */
  lemma SearchCollects(g: Adj, i: int, visited: seq<bool>, visitedOut: seq<bool>, comp: Component)
    requires |visited| == |g| && 0 <= i < |g| && !visited[i]
    requires Searched(g, i, visited, visitedOut, comp)
    ensures comp.Keys == VisitedSet(visitedOut) - VisitedSet(visited)
    ensures VisitedSet(visitedOut) == VisitedSet(visited) + (VisitedSet(visitedOut) - VisitedSet(visited))
    ensures i in comp
  {
    ReachSelf(Restrict(g, visited), i);
  }

  /** The undirected case of `CollectComponent`. */
  lemma SymmetricCollect(g: Adj, i: int, visited: seq<bool>, visitedOut: seq<bool>, comp: Component,
                         r: Result<Adj, Fault>, mapping: map<int, int>)
    requires ValidAdj(g) && Symmetric(g) && |visited| == |g| && 0 <= i < |g| && !visited[i]
    requires EdgeClosed(g, VisitedSet(visited))
    requires Searched(g, i, visited, visitedOut, comp)
    requires r.Success? <==> LabelsFit(comp)
    requires r.Success? ==> mapping == FirstSeenLabels(comp) && Labelled(comp, mapping)
    requires r.Success? ==> |r.value| == |comp.Keys|
    requires r.Success? ==> forall u :: u in comp && 0 <= mapping[u] < |comp.Keys| ==>
               r.value[mapping[u]] == MapThrough(mapping, comp[u])
    ensures VisitedSet(visitedOut) - VisitedSet(visited) == Class(g, i)
    ensures r.Success? && Apsp.IsComponent(r.value)
    ensures RelabelledPart(g, VisitedSet(visitedOut) - VisitedSet(visited), r.value)
    ensures EdgeClosed(g, VisitedSet(visitedOut))
  {
    SearchIsClass(g, i, visited, visitedOut, comp);
    SearchCollects(g, i, visited, visitedOut, comp);
    ClassClosed(g, i);
    UnionClosed(g, VisitedSet(visited), Class(g, i));
    ComponentClosed(g, i, comp);
    ClosedFits(comp);
    RelabelledIsComponent(g, i, comp, mapping, r.value);
    ComponentIsInduced(g, i, comp);
  }

  /** The part of `g` on the nodes of `part`, each with its own list. */
  ghost function Induced(g: Adj, part: set<int>): Component {
    map u | u in part && 0 <= u < |g| :: g[u]
  }

  /** `rel` is the part `part` of `g`, lists included, relabelled in first-seen order. */
  ghost predicate RelabelledPart(g: Adj, part: set<int>, rel: Adj) {
    RelabelledFrom(Induced(g, part), FirstSeenLabels(Induced(g, part)), rel)
  }

  /** The component collected around `root` is `g` restricted to the class of `root`. */
  lemma ComponentIsInduced(g: Adj, root: int, comp: Component)
    requires ComponentOf(g, root, comp)
    ensures comp == Induced(g, Class(g, root))
  {
    var ind := Induced(g, Class(g, root));
    assert comp.Keys == ind.Keys;
    forall u | u in comp
      ensures comp[u] == ind[u]
    {
    }
  }

  /** A whole class of `g` is closed under its own neighbour lists. */
  lemma ComponentClosed(g: Adj, root: int, comp: Component)
    requires ValidAdj(g) && ComponentOf(g, root, comp)
    ensures Closed(comp)
  {
    ClassClosed(g, root);
  }

  /** In an undirected graph with closed visited nodes, the search from `i` collects the class of `i`. */
  lemma SearchIsClass(g: Adj, i: int, visited: seq<bool>, visitedOut: seq<bool>, comp: Component)
    requires ValidAdj(g) && Symmetric(g) && |visited| == |g| && 0 <= i < |g| && !visited[i]
    requires EdgeClosed(g, VisitedSet(visited))
    requires Searched(g, i, visited, visitedOut, comp)
    ensures VisitedSet(visitedOut) - VisitedSet(visited) == Class(g, i)
    ensures ComponentOf(g, i, comp)
  {
    forall v | 0 <= v < |g| && !visited[v]
      ensures visitedOut[v] <==> Reachable(g, i, v)
    {
      RestrictReach(g, visited, i, v);
    }
    forall v | v in Class(g, i)
      ensures !visited[v]
    {
      ComplementClosed(g, VisitedSet(visited));
      ReachAgreeStart(g, VisitedSet(visited), i, v);
    }
  }

  /** From outside a closed set whose complement is closed, nothing in the set is reachable. */
  lemma ReachAgreeStart(g: Adj, V: set<int>, i: int, v: int)
    requires 0 <= i < |g| && i !in V && EdgeClosed(g, Range(|g|) - V) && Reachable(g, i, v)
    ensures v !in V
  {
    var k: nat :| v in Ball(g, i, k);
    ClosedContainsBalls(g, i, Range(|g|) - V, k);
  }

  /** The union of the parts. */
  ghost function Union(parts: seq<set<int>>): set<int>
    decreases |parts|
  {
    if |parts| == 0 then {} else Union(parts[..|parts| - 1]) + parts[|parts| - 1]
  }

  /** Every part lies within the union. */
  lemma {:induction false} UnionContains(parts: seq<set<int>>, c: int)
    requires 0 <= c < |parts|
    ensures parts[c] <= Union(parts)
    decreases |parts|
  {
    if c < |parts| - 1 {
      UnionContains(parts[..|parts| - 1], c);
    }
  }

  /** Non-empty, pairwise disjoint parts. */
  ghost predicate Disjoint(parts: seq<set<int>>) {
    && (forall c :: 0 <= c < |parts| ==> parts[c] != {})
    && forall c, d :: 0 <= c < d < |parts| ==> parts[c] !! parts[d]
  }

  /** The parts split the nodes `0..n-1`: each node lies in exactly one part. */
  ghost predicate Partition(parts: seq<set<int>>, n: nat) {
    Disjoint(parts) && Union(parts) == Range(n)
  }

  /** Adding a part that avoids the union keeps the parts disjoint. */
  lemma AddPart(parts: seq<set<int>>, p: set<int>)
    requires Disjoint(parts) && p != {} && Union(parts) !! p
    ensures Disjoint(parts + [p]) && Union(parts + [p]) == Union(parts) + p
  {
    assert (parts + [p])[..|parts|] == parts;
    forall c | 0 <= c < |parts|
      ensures parts[c] !! p
    {
      UnionContains(parts, c);
    }
  }

  /** The state of `get_components` after the nodes below `i`. */
  ghost predicate Gathered(g: Adj, i: int, visited: seq<bool>, comps: seq<Adj>, parts: seq<set<int>>, roots: seq<int>) {
    && 0 <= i <= |g|
    && |visited| == |g|
    && VisitedSet(visited) == Union(parts)
    && (forall v :: 0 <= v < i ==> visited[v])
    && Disjoint(parts)
    && |comps| == |parts| == |roots|
    && SizesMatch(comps, parts)
    && (Symmetric(g) ==> EdgeClosed(g, VisitedSet(visited)) && Apsp.ValidComponents(comps))
    && (Symmetric(g) ==> AllClasses(g, parts, roots))
    && (Symmetric(g) ==> AllRelabelled(g, parts, comps))
  }

  /**
   * Within a collected part, `v` is on the list of `u` in `g` exactly when
   * the label of `v` is on the row of the label of `u` in the part's graph.
   */
  lemma PartsKeepEdges(g: Adj, parts: seq<set<int>>, comps: seq<Adj>, c: int, u: int, v: int)
    requires AllRelabelled(g, parts, comps) && 0 <= c < |parts|
    requires u in parts[c] && v in parts[c] && 0 <= u < |g| && 0 <= v < |g|
    ensures var m := FirstSeenLabels(Induced(g, parts[c]));
            u in m && v in m && 0 <= m[u] < |comps[c]| && (v in g[u] <==> m[v] in comps[c][m[u]])
  {
    var comp := Induced(g, parts[c]);
    assert u in comp && v in comp && comp[u] == g[u];
    RelabelKeepsEdges(comp, FirstSeenLabels(comp), comps[c]);
  }

  /** Every collected graph has one node per node of its part. */
  ghost predicate SizesMatch(comps: seq<Adj>, parts: seq<set<int>>) {
    |comps| == |parts| && forall c :: 0 <= c < |parts| ==> |comps[c]| == |parts[c]|
  }

  /** Every part is the class of its root. */
  ghost predicate AllClasses(g: Adj, parts: seq<set<int>>, roots: seq<int>) {
    |parts| == |roots| && forall c :: 0 <= c < |parts| ==> parts[c] == Class(g, roots[c])
  }

  lemma KeepValid(comps: seq<Adj>, rel: Adj)
    requires Apsp.ValidComponents(comps) && Apsp.IsComponent(rel)
    ensures Apsp.ValidComponents(comps + [rel])
  {
    var cs := comps + [rel];
    forall c | 0 <= c < |cs|
      ensures Apsp.IsComponent(cs[c])
    {
      if c < |comps| {
        assert cs[c] == comps[c];
      }
    }
  }

  lemma KeepSizes(comps: seq<Adj>, parts: seq<set<int>>, rel: Adj, part: set<int>)
    requires SizesMatch(comps, parts) && |rel| == |part|
    ensures SizesMatch(comps + [rel], parts + [part])
  {
    var cs, ps := comps + [rel], parts + [part];
    forall c | 0 <= c < |ps|
      ensures |cs[c]| == |ps[c]|
    {
      if c < |parts| {
        assert cs[c] == comps[c] && ps[c] == parts[c];
      }
    }
  }

  lemma KeepClasses(g: Adj, parts: seq<set<int>>, roots: seq<int>, part: set<int>, root: int)
    requires AllClasses(g, parts, roots) && part == Class(g, root)
    ensures AllClasses(g, parts + [part], roots + [root])
  {
    var ps, rs := parts + [part], roots + [root];
    forall c | 0 <= c < |ps|
      ensures ps[c] == Class(g, rs[c])
    {
      if c < |parts| {
        assert ps[c] == parts[c] && rs[c] == roots[c];
      }
    }
  }

  /** Every collected graph is its part of `g` relabelled. */
  ghost predicate AllRelabelled(g: Adj, parts: seq<set<int>>, comps: seq<Adj>) {
    |parts| == |comps| && forall c :: 0 <= c < |parts| ==> RelabelledPart(g, parts[c], comps[c])
  }

  lemma KeepRelabelled(g: Adj, parts: seq<set<int>>, comps: seq<Adj>, part: set<int>, rel: Adj)
    requires AllRelabelled(g, parts, comps) && RelabelledPart(g, part, rel)
    ensures AllRelabelled(g, parts + [part], comps + [rel])
  {
    var ps, cs := parts + [part], comps + [rel];
    forall c | 0 <= c < |ps|
      ensures RelabelledPart(g, ps[c], cs[c])
    {
      if c < |parts| {
        assert ps[c] == parts[c] && cs[c] == comps[c];
      }
    }
  }

  /**
   * `get_components`: for every node not yet visited, in increasing order,
   * collect its part and relabel it.  The parts split the nodes; in an
   * undirected graph each part is the class of its first node, nothing can go
   * out of range, and every relabelled graph is a connected component.
   */
  method GetComponents(g: Adj) returns (r: Result<seq<Adj>, Fault>, ghost parts: seq<set<int>>, ghost roots: seq<int>)
    requires ValidAdj(g)
    ensures r.Success? ==> Partition(parts, |g|)
    ensures r.Success? ==> |r.value| == |parts| && forall c :: 0 <= c < |parts| ==> |r.value[c]| == |parts[c]|
    ensures Symmetric(g) ==> r.Success? && Apsp.ValidComponents(r.value)
    ensures Symmetric(g) ==> AllClasses(g, parts, roots)
    ensures Symmetric(g) ==> AllRelabelled(g, parts, r.value)
  {
    var visited := seq(|g|, _ => false);
    var comps: seq<Adj> := [];
    parts, roots := [], [];
    assert VisitedSet(visited) == {};
    for i := 0 to |g|
      invariant Gathered(g, i, visited, comps, parts, roots)
    {
      var ok;
      ok, visited, comps, parts, roots := GatherAt(g, i, visited, comps, parts, roots);
      if !ok {
        return Failure(OutOfRange), parts, roots;
      }
    }
    assert Union(parts) == Range(|g|);
    r := Success(comps);
  }

  /** One pass of the loop of `get_components`, at node `i`. */
  method GatherAt(g: Adj, i: int, visited: seq<bool>, comps: seq<Adj>, ghost parts: seq<set<int>>, ghost roots: seq<int>)
    returns (ok: bool, visitedOut: seq<bool>, compsOut: seq<Adj>, ghost partsOut: seq<set<int>>, ghost rootsOut: seq<int>)
    requires ValidAdj(g) && i < |g| && Gathered(g, i, visited, comps, parts, roots)
    ensures ok ==> Gathered(g, i + 1, visitedOut, compsOut, partsOut, rootsOut)
    ensures !ok ==> !Symmetric(g)
  {
    visitedOut, compsOut, partsOut, rootsOut := visited, comps, parts, roots;
    ok := true;
    if visited[i] {
      SkipVisited(g, i, visited, comps, parts, roots);
    } else {
      var rc;
      ghost var part;
      rc, visitedOut, part := CollectComponent(g, i, visited);
      if rc.Failure? {
        return false, visitedOut, compsOut, partsOut, rootsOut;
      }
      GatherPart(g, i, visited, comps, parts, roots, visitedOut, rc.value, part);
      compsOut, partsOut, rootsOut := comps + [rc.value], parts + [part], roots + [i];
    }
  }

  /** A node visited by an earlier search adds no part. */
  lemma SkipVisited(g: Adj, i: int, visited: seq<bool>, comps: seq<Adj>, parts: seq<set<int>>, roots: seq<int>)
    requires i < |g| && Gathered(g, i, visited, comps, parts, roots) && visited[i]
    ensures Gathered(g, i + 1, visited, comps, parts, roots)
  {
  }

  /** The part collected at `i` joins the others. */
  lemma GatherPart(g: Adj, i: int, visited: seq<bool>, comps: seq<Adj>, parts: seq<set<int>>, roots: seq<int>,
                   visitedOut: seq<bool>, rel: Adj, part: set<int>)
    requires i < |g| && Gathered(g, i, visited, comps, parts, roots) && !visited[i]
    requires |visitedOut| == |g| && i in part && |rel| == |part|
    requires VisitedSet(visitedOut) == VisitedSet(visited) + part && VisitedSet(visited) !! part
    requires Symmetric(g) ==> part == Class(g, i) && Apsp.IsComponent(rel) && RelabelledPart(g, part, rel)
                              && EdgeClosed(g, VisitedSet(visitedOut))
    ensures Gathered(g, i + 1, visitedOut, comps + [rel], parts + [part], roots + [i])
  {
    AddPart(parts, part);
    KeepSizes(comps, parts, rel, part);
    if Symmetric(g) {
      KeepRelabelled(g, parts, comps, part, rel);
      KeepClasses(g, parts, roots, part, i);
      KeepValid(comps, rel);
    }
    forall v | 0 <= v < i + 1
      ensures visitedOut[v]
    {
      assert v in VisitedSet(visitedOut);
    }
  }
}

=== FILE: cpp_bfs.dfy ===
/**
 * `bfs_distances` of all_pairs_shortest_paths.cpp: hop distances from one
 * node of a connected component given as adjacency lists over local indices.
 *
 * The caller owns three scratch buffers that it reuses across searches; the
 * search clears `visited` and `dist` on `0..num_nodes-1` first, so earlier
 * contents do not matter.  The queue discipline is the one `BfsQueue`
 * describes.
 */
module CppBfs {
  import opened Wrappers
  import opened Reach
  import opened BfsQueue
  import opened SeqUtil

  /** The opening loop: zero `visited` and `dist` on `0..n-1`, keep the rest. */
  method ClearBuffers(visited: seq<int>, dist: seq<int>, n: nat)
    returns (visitedOut: seq<int>, distOut: seq<int>)
    requires n <= |visited| && n <= |dist|
    ensures |visitedOut| == |visited| && |distOut| == |dist|
    ensures forall i :: 0 <= i < n ==> visitedOut[i] == 0 && distOut[i] == 0
    ensures visitedOut[n..] == visited[n..] && distOut[n..] == dist[n..]
  {
    visitedOut, distOut := visited, dist;
    var i := 0;
    while i < n
      invariant 0 <= i <= n
      invariant |visitedOut| == |visited| && |distOut| == |dist|
      invariant forall j :: 0 <= j < i ==> visitedOut[j] == 0 && distOut[j] == 0
      invariant visitedOut[i..] == visited[i..] && distOut[i..] == dist[i..]
    {
      visitedOut, distOut := visitedOut[i := 0], distOut[i := 0];
      i := i + 1;
    }
  }

  /**
   * `bfs_distances(g, starting_node, num_nodes, visited, dist, tracker)`:
   * returns the distance buffer, and the updated buffers.  Where the source
   * would dequeue the slot `tracker[end]` that this search never wrote (only
   * possible when `start` does not reach every node) the model returns `None`.
   */
  method BfsDistances(g: Adj, start: int, n: nat, visited: seq<int>, dist: seq<int>,
                      tracker: seq<int>)
    returns (r: Option<seq<int>>, visitedOut: seq<int>, distOut: seq<int>, trackerOut: seq<int>)
    requires ValidAdj(g) && n == |g| && 0 <= start < n
    requires |visited| >= n && |dist| >= n && |tracker| >= n
    ensures |visitedOut| == |visited| && |distOut| == |dist| && |trackerOut| == |tracker|
    ensures r.Some? <==> ReachesAll(g, start)
    ensures r.Some? ==> r.value == distOut
    ensures r.Some? ==> r.value[..n] == Distances(g, start)
  {
    var pos := 0;
    var end := 1;
    visitedOut, distOut := ClearBuffers(visited, dist, n);
    trackerOut := tracker[pos := start];
    visitedOut := visitedOut[start := 1];
    distOut := distOut[start := 0];
    var numVisited := 1;
    QueueInit(g, start, visitedOut, distOut, trackerOut);
    while pos <= end && numVisited < n
      invariant pos <= end && numVisited == end
      invariant |visitedOut| == |visited| && |distOut| == |dist| && |trackerOut| == |tracker|
      invariant QueueInv(g, start, visitedOut, distOut, trackerOut, pos, end)
      decreases n - pos
    {
      if pos == end {
        QueueExhausted(g, start, visitedOut, distOut, trackerOut, end);
        return None, visitedOut, distOut, trackerOut;
      }
      var last;
      visitedOut, distOut, trackerOut, last := ScanList(g, start, visitedOut, distOut, trackerOut,
                                                        pos, end);
      numVisited, end := numVisited + (last - end), last;
      QueueAdvance(g, start, visitedOut, distOut, trackerOut, pos, end);
      pos := pos + 1;
    }
    QueueComplete(g, start, visitedOut, distOut, trackerOut, pos, end);
    DistancesUnique(g, start, distOut[..n]);
    return Some(distOut), visitedOut, distOut, trackerOut;
  }

  /**
   * The inner `for (auto const &v : g[u])` loop for the dequeued node
   * `u = tracker[done]`: visit and enqueue each neighbour not seen before.
   */
  method ScanList(g: Adj, start: int, visited: seq<int>, dist: seq<int>, tracker: seq<int>,
                  done: int, end: int)
    returns (visitedOut: seq<int>, distOut: seq<int>, trackerOut: seq<int>, endOut: int)
    requires QueueInv(g, start, visited, dist, tracker, done, end) && done < end
    ensures end <= endOut
    ensures QueueInv(g, start, visitedOut, distOut, trackerOut, done, endOut)
    ensures |visitedOut| == |visited| && |distOut| == |dist| && |trackerOut| == |tracker|
    ensures trackerOut[done] == tracker[done]
    ensures forall w :: 0 <= w < |g| && w in g[tracker[done]] ==> visitedOut[w] != 0
  {
    visitedOut, distOut, trackerOut, endOut := visited, dist, tracker, end;
    var i := 0;
    while i < |g[tracker[done]]|
      invariant 0 <= i <= |g[tracker[done]]| && end <= endOut
      invariant |visitedOut| == |visited| && |distOut| == |dist| && |trackerOut| == |tracker|
      invariant trackerOut[done] == tracker[done]
      invariant QueueInv(g, start, visitedOut, distOut, trackerOut, done, endOut)
      invariant forall w :: 0 <= w < |g| && w in g[tracker[done]][..i] ==> visitedOut[w] != 0
    {
      ListedIsNode(g, tracker[done], i);
      ghost var before := visitedOut;
      visitedOut, distOut, trackerOut, endOut := VisitNeighbour(g, start, visitedOut, distOut,
                                                                trackerOut, done, endOut,
                                                                g[tracker[done]][i]);
      ScannedPrefix(g[tracker[done]], i, before, visitedOut, |g|);
      i := i + 1;
    }
    TakeAll(g[tracker[done]]);
  }

  /** Once entry `i` is visited too, the first `i + 1` entries of the list are all visited. */
  lemma ScannedPrefix(row: seq<int>, i: int, before: seq<int>, after: seq<int>, n: int)
    requires 0 <= i < |row| && |before| == |after| && n <= |before|
    requires forall w :: 0 <= w < n && w in row[..i] ==> before[w] != 0
    requires forall v :: 0 <= v < |before| && before[v] != 0 ==> after[v] != 0
    requires 0 <= row[i] < n && after[row[i]] != 0
    ensures forall w :: 0 <= w < n && w in row[..i + 1] ==> after[w] != 0
  {
    assert row[..i + 1] == row[..i] + [row[i]];
  }
}

=== FILE: dict_statistics.dfy ===
/**
 * dict_statistics.py: statistics of a histogram `{value: count}`, read as
 * the multiset it stands for.
 *
 * Keys and counts are integers here, although the source accepts any
 * number as a key.  A Python dict has unique keys, so it is
 * a `map<int, int>`; `median_of_dict` first sorts the items by key, which is
 * `Items`, so insertion order cannot matter.  Python's `//` and `%` by 2 floor,
 * which on a positive divisor agrees with Dafny's Euclidean `/` and `%`.
 * True division returns a `real`.
 */
module DictStatistics {
  import opened Wrappers
  import opened SeqUtil
  import opened Histograms

  /**
   * `EmptyDict` is the `RuntimeError` on an empty dict, `IndexError` the
   * lookup `d_list[i + 1]` past the last item, `ZeroDivision` a mean over
   * counts summing to 0.
   */
  datatype Fault = EmptyDict | IndexError | ZeroDivision

  /** The median of a non-empty sorted list, as `np.median` defines it. */
  function MedianOfSorted(e: seq<int>): real
    requires |e| > 0
  {
    if |e| % 2 == 1 then e[|e| / 2] as real else (e[|e| / 2 - 1] + e[|e| / 2]) as real / 2.0
  }

  /**
   * `median_of_dict(d)`.  `None` is the implicit return when the scan runs off
   * the end, which needs non-positive counts.
   */
  function MedianOfDict(d: map<int, int>): (r: Result<Option<real>, Fault>)
    ensures r == Failure(EmptyDict) <==> |d.Keys| == 0
  {
    ItemsOfMap(d);
    var numValues := Total(Items(d));
    var even := numValues % 2 == 0;
    var target := if even then numValues / 2 else numValues / 2 + 1;
    if |Items(d)| == 0 then Failure(EmptyDict)
    else MedianScan(Items(d), 0, 0, target, even)
  }

  /** The `for i, kv in enumerate(d_list)` loop from item `i` on, with the running `counter`. */
  function MedianScan(dList: seq<(int, int)>, i: int, counter: int, target: int, even: bool)
    : (r: Result<Option<real>, Fault>)
    requires 0 <= i <= |dList|
    ensures r != Failure(EmptyDict)
    decreases |dList| - i
  {
    if i == |dList| then Success(None)
    else if counter + dList[i].1 > target then Success(Some(dList[i].0 as real))
    else if counter + dList[i].1 == target then
      if !even then Success(Some(dList[i].0 as real))
      else if i + 1 < |dList| then Success(Some((dList[i].0 + dList[i + 1].0) as real / 2.0))
      else Failure(IndexError)
    else MedianScan(dList, i + 1, counter + dList[i].1, target, even)
  }

  /**
   * With positive counts the scan returns the median of the observations:
   * the one at `target - 1` of the sorted expansion when odd, the mean of
   * those at `target - 1` and `target` when even.  In particular the even
   * case never reads past the last item.
   */
  lemma {:induction false} ScanFindsTarget(items: seq<(int, int)>, i: int, counter: int, target: int, even: bool)
    requires Positive(items) && 0 <= i <= |items|
    requires counter == Total(items[..i]) && counter < target
    requires target <= Total(items) && (even ==> target < Total(items))
    ensures 0 < target <= |Expand(items)| && (even ==> target < |Expand(items)|)
    ensures MedianScan(items, i, counter, target, even)
         == Success(Some(if even then (Expand(items)[target - 1] + Expand(items)[target]) as real / 2.0
                         else Expand(items)[target - 1] as real))
    decreases |items| - i
  {
    ExpandTotals(items);
    ShortPrefix(items, i);
    TotalPrefix(items, i);
    if counter + items[i].1 > target {
      InsideBlock(items, i, target);
    } else if counter + items[i].1 == target {
      ExpandIndex(items, i, target - 1 - counter);
      if even {
        ShortPrefix(items, i + 1);
        TotalPrefix(items, i + 1);
        ExpandIndex(items, i + 1, 0);
      }
    } else {
      ScanFindsTarget(items, i + 1, counter + items[i].1, target, even);
    }
  }

  /** Positions `target - 1` and `target` both fall inside item `i`'s run of observations. */
  lemma InsideBlock(items: seq<(int, int)>, i: int, target: int)
    requires Positive(items) && 0 <= i < |items|
    requires Total(items[..i]) < target < Total(items[..i]) + items[i].1
    ensures 0 < target < |Expand(items)|
    ensures Expand(items)[target - 1] == items[i].0 == Expand(items)[target]
  {
    ExpandIndex(items, i, target - 1 - Total(items[..i]));
    ExpandIndex(items, i, target - Total(items[..i]));
  }

  /** A prefix whose total falls short of the whole leaves at least one item. */
  lemma ShortPrefix(items: seq<(int, int)>, i: int)
    requires 0 <= i <= |items| && Total(items[..i]) < Total(items)
    ensures i < |items|
  {
    if i == |items| {
      TakeAll(items);
    }
  }

  /**
   * The median of a histogram with positive counts is the median of the
   * sorted list of its observations, the list `np.median` would see.
   */
  lemma MedianIsMedian(d: map<int, int>)
    requires |d.Keys| > 0 && forall k :: k in d ==> d[k] > 0
    ensures |Expand(Items(d))| > 0
    ensures MedianOfDict(d) == Success(Some(MedianOfSorted(Expand(Items(d)))))
  {
    DictScans(d);
    MedianOfItems(Items(d));
  }

  /** A nonempty dictionary with positive counts is scanned from its first item with the median's target. */
  lemma DictScans(d: map<int, int>)
    requires |d.Keys| > 0 && forall k :: k in d ==> d[k] > 0
    ensures Positive(Items(d)) && |Items(d)| > 0
    ensures var n := Total(Items(d));
      MedianOfDict(d) == MedianScan(Items(d), 0, 0, if n % 2 == 0 then n / 2 else n / 2 + 1, n % 2 == 0)
  {
    ItemsOfMap(d);
    ItemsPositive(d);
  }

  /** The scan over positive counts reads the median of the expanded observations. */
  lemma MedianOfItems(items: seq<(int, int)>)
    requires Positive(items) && |items| > 0
    ensures |Expand(items)| > 0
    ensures var n := Total(items);
      MedianScan(items, 0, 0, if n % 2 == 0 then n / 2 else n / 2 + 1, n % 2 == 0)
      == Success(Some(MedianOfSorted(Expand(items))))
  {
    TotalPositive(items);
    ExpandTotals(items);
    var n := Total(items);
    var even := n % 2 == 0;
    var target := if even then n / 2 else n / 2 + 1;
    assert items[..0] == [];
    ScanFindsTarget(items, 0, 0, target, even);
  }

  /** The sorted list the median is read from is sorted and holds exactly the observations. */
  lemma ObservationsSorted(d: map<int, int>, ms: multiset<int>, p: int, q: int)
    requires Counts(d, ms) && 0 <= p <= q < |Expand(Items(d))|
    ensures multiset(Expand(Items(d))) == ms
    ensures Expand(Items(d))[p] <= Expand(Items(d))[q]
  {
    ExpandCounts(d, ms);
    ItemsSorted(d);
    ExpandSorted(Items(d), p, q);
  }

  /** A zero count that lands exactly on an even target reads past the end. */
  lemma ZeroCountReadsPastEnd()
    ensures MedianOfDict(map[0 := 0]) == Failure(IndexError)
  {
    assert map[0 := 0].Keys == {0};
    assert MinKey({0}) == 0;
    assert map[0 := 0] - {0} == map[];
    assert Items(map[0 := 0]) == [(0, 0)];
  }

  /** `max_key_of_dict(d)`: the largest key, the diameter of a distance histogram. */
  function MaxKeyOfDict(d: map<int, int>): (r: Result<int, Fault>)
    ensures r.Failure? <==> |d.Keys| == 0
    ensures r.Failure? ==> r.error == EmptyDict
    ensures r.Success? ==> r.value in d && forall k :: k in d ==> k <= r.value
  {
    ItemsOfMap(d);
    ItemsSorted(d);
    if |Items(d)| == 0 then Failure(EmptyDict)
    else
      assert forall k :: k in d ==> k <= Items(d)[|Items(d)| - 1].0 by {
        forall k | k in d
          ensures k <= Items(d)[|Items(d)| - 1].0
        {
          var i := ItemsComplete(d, k);
        }
      }
      Success(Items(d)[|Items(d)| - 1].0)
  }

  /** `mean_of_dict(d)`: the sum of key times count over the sum of the counts. */
  function MeanOfDict(d: map<int, int>): (r: Result<real, Fault>)
    ensures |d.Keys| == 0 ==> r == Failure(EmptyDict)
  {
    if |d.Keys| == 0 then Failure(EmptyDict)
    else if Total(Items(d)) == 0 then Failure(ZeroDivision)
    else Success(WeightedSum(Items(d)) as real / Total(Items(d)) as real)
  }

  /** With positive counts the mean is the average of the observations. */
  lemma MeanIsAverage(d: map<int, int>)
    requires |d.Keys| > 0 && forall k :: k in d ==> d[k] > 0
    ensures |Expand(Items(d))| > 0
    ensures MeanOfDict(d) == Success(Sum(Expand(Items(d))) as real / |Expand(Items(d))| as real)
  {
    ItemsOfMap(d);
    ItemsPositive(d);
    TotalPositive(Items(d));
    ExpandTotals(Items(d));
  }
}

=== FILE: distance_distribution.dfy ===
/**
 * The aggregation part of `get_distance_distribution` in main.cpp: run
 * `bfs_distances` from every node of every component and histogram the
 * distances.
 *
 * The OpenMP loop over start nodes is modelled as a plain sequential loop
 * with one set of scratch buffers (its critical section only serialises the
 * updates, and addition commutes).  A distance histogram is a map from
 * distance to count.  Progress printing matters only through its
 * `distance_index % print_threshold`, which divides by zero when the
 * threshold is 0; the model reports that as `DivisionByZero`.
 */
module DistanceDistribution {
  import opened Wrappers
  import opened Reach
  import opened SeqUtil
  import opened Apsp
  import opened Histograms
  import DictStatistics
  import CppBfs

  datatype Fault = DivisionByZero

  /** What the function computes: the histogram, and the sum and count of the distances. */
  datatype Summary = Summary(histogram: map<int, int>, sumDistances: int, numDistances: int)

  /** The threshold the source computes, `num_distances / 10`. */
  function ThresholdAsWritten(numDistances: nat): nat {
    numDistances / 10
  }

  /** A threshold that is never 0: `max(num_distances / 10, 1)`. */
  function ThresholdCorrected(numDistances: nat): (t: nat)
    ensures t >= 1 && (numDistances >= 10 ==> t == ThresholdAsWritten(numDistances))
  {
    if numDistances / 10 == 0 then 1 else numDistances / 10
  }

  /** The source's threshold is 0 exactly below ten distances. */
  lemma ThresholdZero(numDistances: nat)
    ensures ThresholdAsWritten(numDistances) == 0 <==> numDistances < 10
  {
  }

  /**
   * The inner `for (auto const &j : tmp)` loop: add every value of `values`
   * to the sum, the index and the histogram.  The progress check divides by
   * `threshold` once per value.
   */
  method RecordAll(hist: map<int, int>, sum: int, index: int, values: seq<int>, threshold: nat,
                   ghost ms: multiset<int>)
    returns (r: Result<(map<int, int>, int, int), Fault>)
    requires Counts(hist, ms)
    ensures r.Failure? <==> threshold == 0 && |values| > 0
    ensures r.Success? ==> Counts(r.value.0, ms + multiset(values))
    ensures r.Success? ==> r.value.1 == sum + Sum(values) && r.value.2 == index + |values|
  {
    var h, s, idx := hist, sum, index;
    for i := 0 to |values|
      invariant Counts(h, ms + multiset(values[..i]))
      invariant s == sum + Sum(values[..i]) && idx == index + i
      invariant i > 0 ==> threshold != 0
    {
      RecordCounts(h, ms + multiset(values[..i]), values[i]);
      TakeStep(values, i);
      SumSnoc(values[..i], values[i]);
      h, s, idx := Record(h, values[i]), s + values[i], idx + 1;
      if threshold == 0 {
        return Failure(DivisionByZero);
      }
    }
    TakeAll(values);
    return Success((h, s, idx));
  }

  /**
   * What `get_distance_distribution` should return for a graph with
   * components `comps`: `{0: 1}` when there are no distances; otherwise the
   * histogram of every same-component ordered pair's distance (a one-node
   * component counting its node's distance 0 to itself), with as many
   * observations as there are such pairs and the sum of their distances.
   */
  ghost predicate Summarises(s: Summary, comps: seq<Adj>)
    requires ValidComponents(comps)
  {
    if SumSquares(comps) == 0 then s == Summary(map[0 := 1], 0, 0)
    else
      && Counts(s.histogram, multiset(Concat(ComponentBlocks(comps))))
      && s.numDistances == SumSquares(comps) == Total(Items(s.histogram))
      && s.sumDistances == Sum(Concat(ComponentBlocks(comps))) == WeightedSum(Items(s.histogram))
  }

  /**
   * `get_distance_distribution` from the components onwards, as written:
   * with `print_threshold = num_distances / 10` the first `%` divides by
   * zero when there are between one and nine distances.
   */
  method DistributionAsWritten(comps: seq<Adj>) returns (r: Result<Summary, Fault>)
    requires ValidComponents(comps)
    ensures r.Failure? <==> 1 <= SumSquares(comps) < 10
    ensures r.Success? ==> Summarises(r.value, comps)
  {
    ThresholdZero(SumSquares(comps));
    r := Distribution(comps, false);
  }

  /** The same with a progress threshold of at least 1: it always succeeds. */
  method DistributionCorrected(comps: seq<Adj>) returns (r: Result<Summary, Fault>)
    requires ValidComponents(comps)
    ensures r.Success? && Summarises(r.value, comps)
  {
    r := Distribution(comps, true);
  }

  /** The single edge has four distances, so the source's threshold is 0. */
  lemma SingleEdgeDividesByZero()
    ensures ValidComponents([[[1], [0]]])
    ensures 1 <= SumSquares([[[1], [0]]]) < 10
    ensures ThresholdAsWritten(SumSquares([[[1], [0]]])) == 0 && ThresholdCorrected(SumSquares([[[1], [0]]])) == 1
  {
    SingleEdge();
  }

  /** The shared body, with the threshold rule chosen by `corrected`. */
  method Distribution(comps: seq<Adj>, corrected: bool) returns (r: Result<Summary, Fault>)
    requires ValidComponents(comps)
    ensures var num := SumSquares(comps);
            r.Failure? <==> 1 <= num && (if corrected then ThresholdCorrected(num) else ThresholdAsWritten(num)) == 0
    ensures r.Success? ==> Summarises(r.value, comps)
  {
    var num := CountDistances(comps);
    RollingAgreesWithApsp(comps);
    if num == 0 {
      return Success(Summary(map[0 := 1], 0, 0));
    }
    var threshold := if corrected then ThresholdCorrected(num) else ThresholdAsWritten(num);
    var res := AggregateComponents(comps, threshold);
    if res.Failure? {
      return Failure(res.error);
    }
    HistogramTotals(res.value.0, Concat(ComponentBlocks(comps)));
    return Success(Summary(res.value.0, res.value.1, num));
  }

  /** The first loop of the source: `num_distances` is the sum of the squared component sizes. */
  method CountDistances(comps: seq<Adj>) returns (num: nat)
    ensures num == SumSquares(comps)
  {
    num := 0;
    for c := 0 to |comps|
      invariant num == SumSquares(comps[..c])
    {
      SquaresStep(comps, c);
      num := num + |comps[c]| * |comps[c]|;
    }
    TakeAll(comps);
  }

  /** The outer loop over components, from an empty histogram. */
  method AggregateComponents(comps: seq<Adj>, threshold: nat) returns (r: Result<(map<int, int>, int), Fault>)
    requires ValidComponents(comps)
    ensures r.Failure? <==> threshold == 0 && |comps| > 0
    ensures r.Success? ==> Counts(r.value.0, multiset(Concat(ComponentBlocks(comps))))
    ensures r.Success? ==> r.value.1 == Sum(Concat(ComponentBlocks(comps)))
  {
    var hist: map<int, int> := map[];
    var sum := 0;
    var index := 0;
    for c := 0 to |comps|
      invariant Counts(hist, multiset(Concat(ComponentBlocks(comps)[..c])))
      invariant sum == Sum(Concat(ComponentBlocks(comps)[..c]))
      invariant c > 0 ==> threshold != 0
    {
      var res := ComponentDistances(comps[c], hist, sum, index, threshold,
                                    multiset(Concat(ComponentBlocks(comps)[..c])));
      if res.Failure? {
        return Failure(res.error);
      }
      BlocksStep(comps, c);
      hist, sum, index := res.value.0, res.value.1, res.value.2;
    }
    BlocksAll(comps);
    return Success((hist, sum));
  }

  /**
   * One component of the outer loop: a component of at most one node adds
   * one observation 0; a larger one runs a search from every local node,
   * passing its `dists` buffer in the `visited` slot and `visiteds` in the
   * `dist` slot as the source does.
   */
  method ComponentDistances(g: Adj, hist: map<int, int>, sum: int, index: int, threshold: nat,
                            ghost ms: multiset<int>)
    returns (r: Result<(map<int, int>, int, int), Fault>)
    requires IsComponent(g) && Counts(hist, ms)
    ensures r.Failure? <==> threshold == 0
    ensures r.Success? ==> Counts(r.value.0, ms + multiset(Concat(AllDistances(g))))
    ensures r.Success? ==> r.value.1 == sum + Sum(Concat(AllDistances(g)))
    ensures r.Success? ==> r.value.2 == index + |Concat(AllDistances(g))|
  {
    if |g| <= 1 {
      LoneComponent(g);
      assert Concat(AllDistances(g)) == [0];
      r := RecordAll(hist, sum, index, [0], threshold, ms);
      return;
    }
    var n := |g|;
    var trackers := seq(n, _ => 0);
    var dists := seq(n, _ => 0);
    var visiteds := seq(n, _ => 0);
    var h, s, idx := hist, sum, index;
    ghost var rows: seq<seq<int>> := [];
    for i := 0 to n
      invariant RowsSoFar(g, rows) && |rows| == i
      invariant |trackers| == n && |dists| == n && |visiteds| == n
      invariant Counts(h, ms + multiset(Concat(rows)))
      invariant s == sum + Sum(Concat(rows)) && idx == index + |Concat(rows)|
      invariant i > 0 ==> threshold != 0
    {
      var tmp;
      tmp, dists, visiteds, trackers := CppBfs.BfsDistances(g, i, n, dists, visiteds, trackers);
      var res := RecordAll(h, s, idx, tmp.value, threshold, ms + multiset(Concat(rows)));
      if res.Failure? {
        return Failure(res.error);
      }
      ExtendRows(g, rows, tmp.value);
      ConcatSnoc(rows, tmp.value);
      SumAppend(Concat(rows), tmp.value);
      h, s, idx := res.value.0, res.value.1, res.value.2;
      rows := rows + [tmp.value];
    }
    RowsComplete(g, rows);
    return Success((h, s, idx));
  }

  lemma SquaresStep(comps: seq<Adj>, c: int)
    requires 0 <= c < |comps|
    ensures SumSquares(comps[..c + 1]) == SumSquares(comps[..c]) + |comps[c]| * |comps[c]|
  {
    assert comps[..c + 1][..c] == comps[..c];
  }

  /** One more component's block adds its entries to the multiset and the sum. */
  lemma BlocksStep(comps: seq<Adj>, c: int)
    requires ValidComponents(comps) && 0 <= c < |comps|
    ensures multiset(Concat(ComponentBlocks(comps)[..c + 1]))
         == multiset(Concat(ComponentBlocks(comps)[..c])) + multiset(Concat(AllDistances(comps[c])))
    ensures Sum(Concat(ComponentBlocks(comps)[..c + 1]))
         == Sum(Concat(ComponentBlocks(comps)[..c])) + Sum(Concat(AllDistances(comps[c])))
  {
    TakeStep(ComponentBlocks(comps), c);
    ConcatSnoc(ComponentBlocks(comps)[..c], Concat(AllDistances(comps[c])));
    SumAppend(Concat(ComponentBlocks(comps)[..c]), Concat(AllDistances(comps[c])));
  }

  lemma BlocksAll(comps: seq<Adj>)
    requires ValidComponents(comps)
    ensures ComponentBlocks(comps)[..|comps|] == ComponentBlocks(comps)
  {
  }

  /**
   * A histogram of `values` has as many observations as `values` has entries
   * and its key-times-count sum is their sum: what the source's
   * `sum_distances / num_distances` relies on.
   */
  lemma HistogramTotals(hist: map<int, int>, values: seq<int>)
    requires Counts(hist, multiset(values))
    ensures Positive(Items(hist))
    ensures Total(Items(hist)) == |values| && WeightedSum(Items(hist)) == Sum(values)
  {
    ItemsOfMap(hist);
    ExpandCounts(hist, multiset(values));
    ExpandTotals(Items(hist));
    SumPermutation(Expand(Items(hist)), values);
  }

  /**
   * The mean geodesic distance the source prints, `sum_distances /
   * num_distances`, is what `mean_of_dict` computes from the histogram.
   */
  lemma MeanGeodesicDistance(s: Summary, comps: seq<Adj>)
    requires ValidComponents(comps) && Summarises(s, comps) && SumSquares(comps) > 0
    ensures DictStatistics.MeanOfDict(s.histogram)
         == Success(s.sumDistances as real / s.numDistances as real)
  {
    assert Concat(ComponentBlocks(comps))[0] in multiset(Concat(ComponentBlocks(comps)));
  }
}

=== FILE: edge_swap.dfy ===
/**
 * The stub-labelled double-edge swap on a simple undirected graph that is
 * kept alongside an indexed list of its edges. Two distinct list positions
 * are drawn; their edges {u,v} and {x,y} (the second in a drawn orientation)
 * become {u,x} and {v,y} unless that would create a repeated edge or a loop.
 * Every accepted swap keeps each node's degree.
 *
 * The graph is a set of unordered edges; the list holds the ordered pairs
 * the graph library reported, which the swap overwrites in place.
 */
module EdgeSwap {
  import opened Wrappers

  /** An unordered edge, stored with its smaller end first: a `frozenset` of its ends. */
  datatype UEdge = UEdge(lo: int, hi: int)

  /** The unordered edge joining `a` and `b`. */
  function E(a: int, b: int): (e: UEdge)
    ensures e.lo <= e.hi
    ensures (e.lo == a && e.hi == b) || (e.lo == b && e.hi == a)
  {
    if a <= b then UEdge(a, b) else UEdge(b, a)
  }

  /** Two unordered edges are equal exactly when they join the same ends. */
  lemma SameEdge(a: int, b: int, c: int, d: int)
    ensures E(a, b) == E(c, d) <==> (a == c && b == d) || (a == d && b == c)
  {
  }

  /** A graph as its set of edges. */
  type Graph = set<UEdge>

  /** The errors the swap code can raise. */
  datatype Fault = ValueError | KeyError | NetworkXError

  /**
   * One swap's randomness: `np.random.randint(m)`, `np.random.randint(m - 1)`
   * and whether `np.random.rand() < 0.5` keeps the second edge's orientation.
   */
  datatype SwapDraw = SwapDraw(first: int, second: int, keep: bool)

  /** The draws lie where `randint` puts them. */
  predicate DrawFits(m: int, d: SwapDraw) {
    m >= 2 ==> 0 <= d.first < m && 0 <= d.second < m - 1
  }

  /**
   * The two edge positions: the first draw, and the second draw unless it
   * collides with the first, in which case the last position. `randint`
   * with an upper bound of 0 raises ValueError, so fewer than two edges fail.
   */
  function Indices(m: int, d: SwapDraw): (r: Result<(int, int), Fault>)
    requires DrawFits(m, d)
    ensures r.Failure? <==> m < 2
    ensures r.Failure? ==> r.error == ValueError
    ensures r.Success? ==> 0 <= r.value.0 < m && 0 <= r.value.1 < m && r.value.0 != r.value.1
  {
    if m < 2 then Failure(ValueError)
    else Success((d.first, if d.first == d.second then m - 1 else d.second))
  }

  /** Every ordered pair of distinct positions comes from some draw. */
  lemma IndicesOnto(m: int, p1: int, p2: int, keep: bool) returns (d: SwapDraw)
    requires 0 <= p1 < m && 0 <= p2 < m && p1 != p2
    ensures DrawFits(m, d) && d.keep == keep && Indices(m, d) == Success((p1, p2))
  {
    d := SwapDraw(p1, if p2 == m - 1 then p1 else p2, keep);
  }

  /** ... and from only one: distinct draws give distinct position pairs. */
  lemma IndicesInjective(m: int, d: SwapDraw, d': SwapDraw)
    requires m >= 2 && DrawFits(m, d) && DrawFits(m, d') && Indices(m, d) == Indices(m, d')
    ensures d.first == d'.first && d.second == d'.second
  {
  }

  /** The four nodes a swap looks at: `u, v` from the first edge, `x, y` from the second. */
  datatype Quad = Quad(u: int, v: int, x: int, y: int)

  /** The nodes of positions `p1` and `p2`, the second flipped unless `keep`. */
  function Proposal(edges: seq<(int, int)>, p1: int, p2: int, keep: bool): (q: Quad)
    requires 0 <= p1 < |edges| && 0 <= p2 < |edges|
    ensures (q.u, q.v) == edges[p1]
    ensures E(q.x, q.y) == E(edges[p2].0, edges[p2].1)
  {
    var (u, v) := edges[p1];
    if keep then Quad(u, v, edges[p2].0, edges[p2].1) else Quad(u, v, edges[p2].1, edges[p2].0)
  }

  /** The new edges share a node with an old one, so a loop could appear. */
  predicate Shares(q: Quad) {
    q.u == q.x || q.u == q.y || q.v == q.x || q.v == q.y
  }

  /** The rejection rules: a new edge already exists, both old edges are loops, or a node is shared. */
  predicate Rejected(g: Graph, q: Quad) {
    E(q.u, q.x) in g || E(q.v, q.y) in g || (q.u == q.v && q.x == q.y) || Shares(q)
  }

  /** The graph after removing {u,v} and {x,y} and adding {u,x} and {v,y}. */
  function Rewired(g: Graph, q: Quad): Graph {
    g - {E(q.u, q.v), E(q.x, q.y)} + {E(q.u, q.x), E(q.v, q.y)}
  }

  /** The list after writing (u,x) at `p1` and (v,y) at `p2`. */
  function Relisted(edges: seq<(int, int)>, p1: int, p2: int, q: Quad): (r: seq<(int, int)>)
    requires 0 <= p1 < |edges| && 0 <= p2 < |edges|
    ensures |r| == |edges|
  {
    edges[p1 := (q.u, q.x)][p2 := (q.v, q.y)]
  }

  /** The sampler's graph and its edge list. */
  datatype State = State(g: Graph, edges: seq<(int, int)>)

  /**
   * `_swap` of the configuration-model sampler: draw two positions and an
   * orientation, and unless a rule rejects it, rewire the graph and the
   * list. A rejected swap changes nothing.
   */
  function Swap(s: State, d: SwapDraw): (r: Result<State, Fault>)
    requires DrawFits(|s.edges|, d)
    ensures r.Failure? <==> |s.edges| < 2
    ensures r.Success? ==> |r.value.edges| == |s.edges|
    ensures r.Success? && r.value.g == s.g ==> r.value.edges == s.edges
  {
    var ix := Indices(|s.edges|, d);
    if ix.Failure? then Failure(ix.error)
    else
      var (p1, p2) := ix.value;
      var q := Proposal(s.edges, p1, p2, d.keep);
      if Rejected(s.g, q) then Success(s)
      else
        assert E(q.u, q.x) !in s.g && E(q.u, q.x) in Rewired(s.g, q);
        Success(State(Rewired(s.g, q), Relisted(s.edges, p1, p2, q)))
  }

  /*
   * The list mirrors the graph
   */

  /** The unordered edge at position `i`. */
  function Key(edges: seq<(int, int)>, i: int): UEdge
    requires 0 <= i < |edges|
  {
    E(edges[i].0, edges[i].1)
  }

  /** The list holds every edge of the graph exactly once, and nothing else. */
  ghost predicate Mirror(g: Graph, edges: seq<(int, int)>) {
    (forall i :: 0 <= i < |edges| ==> Key(edges, i) in g)
    && (forall e :: e in g ==> exists i :: 0 <= i < |edges| && Key(edges, i) == e)
    && (forall i, j :: 0 <= i < |edges| && 0 <= j < |edges| && i != j ==> Key(edges, i) != Key(edges, j))
  }

  /** An accepted swap keeps the list a faithful, duplicate-free copy of the graph. */
  lemma SwapKeepsMirror(s: State, d: SwapDraw)
    requires DrawFits(|s.edges|, d) && Mirror(s.g, s.edges) && Swap(s, d).Success?
    ensures Mirror(Swap(s, d).value.g, Swap(s, d).value.edges)
  {
    var (p1, p2) := Indices(|s.edges|, d).value;
    var q := Proposal(s.edges, p1, p2, d.keep);
    if !Rejected(s.g, q) {
      MirrorRewired(s.g, s.edges, p1, p2, q);
    }
  }

  lemma MirrorRewired(g: Graph, edges: seq<(int, int)>, p1: int, p2: int, q: Quad)
    requires Mirror(g, edges) && 0 <= p1 < |edges| && 0 <= p2 < |edges| && p1 != p2
    requires Key(edges, p1) == E(q.u, q.v) && Key(edges, p2) == E(q.x, q.y) && !Rejected(g, q)
    ensures Mirror(Rewired(g, q), Relisted(edges, p1, p2, q))
  {
    RewiredSlots(g, edges, p1, p2, q);
    RewiredCovered(g, edges, p1, p2, q);
    RewiredDistinct(g, edges, p1, p2, q);
  }

  /** Positions other than `p1` and `p2` keep their edge. */
  lemma Untouched(edges: seq<(int, int)>, p1: int, p2: int, q: Quad, i: int)
    requires 0 <= p1 < |edges| && 0 <= p2 < |edges| && p1 != p2 && 0 <= i < |edges|
    ensures Key(Relisted(edges, p1, p2, q), p1) == E(q.u, q.x)
    ensures Key(Relisted(edges, p1, p2, q), p2) == E(q.v, q.y)
    ensures i != p1 && i != p2 ==> Key(Relisted(edges, p1, p2, q), i) == Key(edges, i)
  {
  }

  lemma RewiredSlots(g: Graph, edges: seq<(int, int)>, p1: int, p2: int, q: Quad)
    requires Mirror(g, edges) && 0 <= p1 < |edges| && 0 <= p2 < |edges| && p1 != p2
    requires Key(edges, p1) == E(q.u, q.v) && Key(edges, p2) == E(q.x, q.y) && !Rejected(g, q)
    ensures forall i :: 0 <= i < |edges| ==> Key(Relisted(edges, p1, p2, q), i) in Rewired(g, q)
  {
    forall i | 0 <= i < |edges|
      ensures Key(Relisted(edges, p1, p2, q), i) in Rewired(g, q)
    {
      Untouched(edges, p1, p2, q, i);
      if i != p1 && i != p2 {
        assert Key(edges, i) != Key(edges, p1) && Key(edges, i) != Key(edges, p2);
      }
    }
  }

  lemma RewiredCovered(g: Graph, edges: seq<(int, int)>, p1: int, p2: int, q: Quad)
    requires Mirror(g, edges) && 0 <= p1 < |edges| && 0 <= p2 < |edges| && p1 != p2
    requires Key(edges, p1) == E(q.u, q.v) && Key(edges, p2) == E(q.x, q.y) && !Rejected(g, q)
    ensures forall e :: e in Rewired(g, q) ==>
      exists i :: 0 <= i < |edges| && Key(Relisted(edges, p1, p2, q), i) == e
  {
    forall e | e in Rewired(g, q)
      ensures exists i :: 0 <= i < |edges| && Key(Relisted(edges, p1, p2, q), i) == e
    {
      Untouched(edges, p1, p2, q, p1);
      if e != E(q.u, q.x) && e != E(q.v, q.y) {
        var i :| 0 <= i < |edges| && Key(edges, i) == e;
        Untouched(edges, p1, p2, q, i);
      }
    }
  }

  lemma RewiredDistinct(g: Graph, edges: seq<(int, int)>, p1: int, p2: int, q: Quad)
    requires Mirror(g, edges) && 0 <= p1 < |edges| && 0 <= p2 < |edges| && p1 != p2
    requires Key(edges, p1) == E(q.u, q.v) && Key(edges, p2) == E(q.x, q.y) && !Rejected(g, q)
    ensures forall i, j :: 0 <= i < |edges| && 0 <= j < |edges| && i != j ==>
      Key(Relisted(edges, p1, p2, q), i) != Key(Relisted(edges, p1, p2, q), j)
  {
    assert E(q.u, q.x) != E(q.v, q.y);
    forall i, j | 0 <= i < |edges| && 0 <= j < |edges| && i != j
      ensures Key(Relisted(edges, p1, p2, q), i) != Key(Relisted(edges, p1, p2, q), j)
    {
      Untouched(edges, p1, p2, q, i);
      Untouched(edges, p1, p2, q, j);
    }
  }

  /*
   * Degrees
   */

  /** How many ends of the pair `e` are the node `n`: a loop counts twice. */
  function Ends(n: int, e: (int, int)): nat {
    (if e.0 == n then 1 else 0) + (if e.1 == n then 1 else 0)
  }

  /** Pairs that are the same unordered edge have the same ends. */
  lemma SameEnds(e: (int, int), f: (int, int), n: int)
    requires E(e.0, e.1) == E(f.0, f.1)
    ensures Ends(n, e) == Ends(n, f)
  {
  }

  /** The degree of `n` in the edge list. */
  function Degree(edges: seq<(int, int)>, n: int): nat
    decreases |edges|
  {
    if |edges| == 0 then 0 else Degree(edges[..|edges| - 1], n) + Ends(n, edges[|edges| - 1])
  }

  /** Overwriting one position trades that pair's ends for the new pair's. */
  lemma {:induction false} DegreeUpdate(edges: seq<(int, int)>, i: int, e: (int, int), n: int)
    requires 0 <= i < |edges|
    ensures Degree(edges[i := e], n) == Degree(edges, n) - Ends(n, edges[i]) + Ends(n, e)
    decreases |edges|
  {
    var last := |edges| - 1;
    if i == last {
      assert edges[i := e][..last] == edges[..last];
    } else {
      assert edges[i := e][..last] == edges[..last][i := e];
      DegreeUpdate(edges[..last], i, e, n);
    }
  }

  /** Every swap, accepted or not, leaves every node's degree as it was. */
  lemma SwapKeepsDegrees(s: State, d: SwapDraw, n: int)
    requires DrawFits(|s.edges|, d) && Swap(s, d).Success?
    ensures Degree(Swap(s, d).value.edges, n) == Degree(s.edges, n)
  {
    var (p1, p2) := Indices(|s.edges|, d).value;
    var q := Proposal(s.edges, p1, p2, d.keep);
    if !Rejected(s.g, q) {
      RelistedDegree(s.edges, p1, p2, q, n);
    }
  }

  lemma RelistedDegree(edges: seq<(int, int)>, p1: int, p2: int, q: Quad, n: int)
    requires 0 <= p1 < |edges| && 0 <= p2 < |edges| && p1 != p2
    requires Key(edges, p1) == E(q.u, q.v) && Key(edges, p2) == E(q.x, q.y)
    ensures Degree(Relisted(edges, p1, p2, q), n) == Degree(edges, n)
  {
    SameEnds(edges[p1], (q.u, q.v), n);
    SameEnds(edges[p2], (q.x, q.y), n);
    var mid := edges[p1 := (q.u, q.x)];
    DegreeUpdate(edges, p1, (q.u, q.x), n);
    DegreeUpdate(mid, p2, (q.v, q.y), n);
  }

  /*
   * Reversibility
   */

  /** The graph has no loops: every swap then touches four distinct nodes. */
  predicate Loopless(g: Graph) {
    forall e :: e in g ==> e.lo != e.hi
  }

  /**
   * An accepted swap can be undone by one more swap: the draw that picks the
   * same two positions and keeps the orientation restores the graph, the
   * first pair, and the second pair up to its orientation. So the chain
   * can step back to every graph it leaves.
   */
  lemma SwapReversible(s: State, d: SwapDraw) returns (back: SwapDraw)
    requires DrawFits(|s.edges|, d) && Mirror(s.g, s.edges) && Loopless(s.g)
    requires Swap(s, d).Success? && Swap(s, d).value.g != s.g
    ensures DrawFits(|s.edges|, back) && Swap(Swap(s, d).value, back).Success?
    ensures Swap(Swap(s, d).value, back).value.g == s.g
    ensures forall i :: 0 <= i < |s.edges| ==> Key(Swap(Swap(s, d).value, back).value.edges, i) == Key(s.edges, i)
    ensures d.keep ==> Swap(Swap(s, d).value, back).value.edges == s.edges
  {
    var m := |s.edges|;
    var (p1, p2) := Indices(m, d).value;
    var q := Proposal(s.edges, p1, p2, d.keep);
    var t := Swap(s, d).value;
    assert !Rejected(s.g, q) && t == State(Rewired(s.g, q), Relisted(s.edges, p1, p2, q));
    back := IndicesOnto(m, p1, p2, true);
    var q' := Proposal(t.edges, p1, p2, true);
    assert q' == Quad(q.u, q.x, q.v, q.y);
    assert Key(s.edges, p1) == E(q.u, q.v) && Key(s.edges, p2) == E(q.x, q.y);
    assert E(q.u, q.v) in s.g && E(q.x, q.y) in s.g;
    assert q.u != q.v && q.x != q.y;
    assert !Rejected(t.g, q');
    RewireBack(s.g, q);
    assert Swap(t, back).value.edges == s.edges[p2 := (q.x, q.y)];
  }

  lemma RewireBack(g: Graph, q: Quad)
    requires E(q.u, q.v) in g && E(q.x, q.y) in g && E(q.u, q.x) !in g && E(q.v, q.y) !in g
    requires q.u != q.v && q.x != q.y && !Shares(q)
    ensures Rewired(Rewired(g, q), Quad(q.u, q.x, q.v, q.y)) == g
  {
  }

  /*
   * A run of swaps
   */

  /** `get_new_sample` of the configuration-model sampler: one `_swap` per draw. */
  function RunSwaps(s: State, draws: seq<SwapDraw>): (r: Result<State, Fault>)
    requires forall k :: 0 <= k < |draws| ==> DrawFits(|s.edges|, draws[k])
    ensures r.Success? ==> |r.value.edges| == |s.edges|
    ensures |draws| > 0 ==> (r.Failure? <==> |s.edges| < 2)
    decreases |draws|
  {
    if |draws| == 0 then Success(s)
    else
      var next := Swap(s, draws[0]);
      if next.Failure? then next
      else RunSwaps(next.value, draws[1..])
  }

  /** However many swaps run, every node keeps its degree and the list keeps mirroring the graph. */
  lemma {:induction false} RunKeepsDegreesAndMirror(s: State, draws: seq<SwapDraw>, n: int)
    requires forall k :: 0 <= k < |draws| ==> DrawFits(|s.edges|, draws[k])
    requires Mirror(s.g, s.edges) && RunSwaps(s, draws).Success?
    ensures Degree(RunSwaps(s, draws).value.edges, n) == Degree(s.edges, n)
    ensures Mirror(RunSwaps(s, draws).value.g, RunSwaps(s, draws).value.edges)
    decreases |draws|
  {
    if |draws| > 0 {
      var next := Swap(s, draws[0]).value;
      SwapKeepsDegrees(s, draws[0], n);
      SwapKeepsMirror(s, draws[0]);
      assert forall k :: 0 <= k < |draws[1..]| ==> draws[1..][k] == draws[k + 1];
      RunKeepsDegreesAndMirror(next, draws[1..], n);
    }
  }
}

=== FILE: edgelist.dfy ===
/**
 * `read_edgelist`: build an undirected adjacency map (a `std::map` from node
 * label to neighbour vector) from a header line holding the node count and
 * a list of label pairs. Pairs are shifted from 1-indexed labels when asked,
 * self-loops are dropped, each edge is recorded in both directions at most
 * once, and unless the header says -1 every label below the count becomes a
 * node, with an empty list if no edge touched it.
 *
 * The file is given already split: the header as the integer its digits
 * spell, and the pairs in the order `infile >> a >> b` reads them.
 */
module EdgeList {
  import opened Wrappers
  import opened Reach

  /** A `std::map<int, std::vector<int>>`. */
  type AdjMap = map<int, seq<int>>

  /** `std::stoul` throws `std::out_of_range` when the magnitude exceeds `ULONG_MAX`. */
  datatype Fault = OutOfRange

  const ULongModulus: int := 0x1_0000_0000_0000_0000
  const LongLimit: int := 0x8000_0000_0000_0000

  /**
   * `long num_nodes = std::stoul(header)`: the numeral is read modulo 2^64
   * (a leading minus negates in unsigned arithmetic) and the unsigned result
   * is stored in a signed 64-bit `long`.
   */
  function NumNodes(header: int): (r: Result<int, Fault>)
    ensures r.Failure? <==> header <= -ULongModulus || ULongModulus <= header
    ensures r.Success? ==> -LongLimit <= r.value < LongLimit && (r.value - header) % ULongModulus == 0
  {
    if header <= -ULongModulus || ULongModulus <= header then Failure(OutOfRange)
    else
      var u := header % ULongModulus;
      Success(if u >= LongLimit then u - ULongModulus else u)
  }

  /** The header "-1" survives the unsigned round trip as -1, the "no count" marker. */
  lemma MinusOneIsNoCount()
    ensures NumNodes(-1) == Success(-1)
  {
  }

  /** A count that fits a `long` is read as itself. */
  lemma SmallCountKept(header: int)
    requires 0 <= header < LongLimit
    ensures NumNodes(header) == Success(header)
  {
  }

  /** The label used for a label read from the file. */
  function Label(x: int, zeroIndexed: int): (y: int)
    ensures zeroIndexed != 0 ==> y == x
    ensures zeroIndexed == 0 ==> y + 1 == x
  {
    if zeroIndexed == 0 then x - 1 else x
  }

  /** `g[a]` as `operator[]` reads it: an absent key has the empty vector. */
  function Neighbours(g: AdjMap, a: int): seq<int> {
    if a in g then g[a] else []
  }

  /** Push `b` onto `a`'s vector unless `std::find` sees it there already. */
  function Link(g: AdjMap, a: int, b: int): (h: AdjMap)
    ensures h.Keys == g.Keys + {a}
  {
    var l := Neighbours(g, a);
    g[a := if b in l then l else l + [b]]
  }

  /** One non-loop pair: `a` learns `b`, then `b` learns `a`. */
  function AddEdge(g: AdjMap, a: int, b: int): AdjMap {
    Link(Link(g, a, b), b, a)
  }

  /** The map the read loop has built after the given pairs. */
  function ReadPairs(pairs: seq<(int, int)>, zeroIndexed: int): AdjMap
    decreases |pairs|
  {
    if |pairs| == 0 then map[]
    else
      var g := ReadPairs(pairs[..|pairs| - 1], zeroIndexed);
      var a := Label(pairs[|pairs| - 1].0, zeroIndexed);
      var b := Label(pairs[|pairs| - 1].1, zeroIndexed);
      if a == b then g else AddEdge(g, a, b)
  }

  /** The numbers `0 <= i < n`, or none when `n` is not positive. */
  function Upto(n: int): (r: set<int>)
    ensures forall i :: i in r <==> 0 <= i < n
  {
    if n <= 0 then {} else Range(n)
  }

  /** The fill loop: every label below `n` that is not a key gets an empty vector. */
  function FillSingletons(g: AdjMap, n: int): (h: AdjMap)
    ensures h.Keys == g.Keys + Upto(n)
    ensures forall a :: a in g ==> h[a] == g[a]
    ensures forall a :: a in h && a !in g ==> h[a] == []
  {
    map a | a in g.Keys + Upto(n) :: if a in g then g[a] else []
  }

  /*
   * The graph the pairs describe, independently of how the map is built
   */

  /** Some non-loop pair, after the shift, joins `a` and `b` in either order. */
  ghost predicate Edge(pairs: seq<(int, int)>, zeroIndexed: int, a: int, b: int) {
    exists k :: 0 <= k < |pairs| && EdgeAt(pairs, zeroIndexed, k, a, b)
  }

  ghost predicate EdgeAt(pairs: seq<(int, int)>, zeroIndexed: int, k: int, a: int, b: int)
    requires 0 <= k < |pairs|
  {
    var x := Label(pairs[k].0, zeroIndexed);
    var y := Label(pairs[k].1, zeroIndexed);
    x != y && ((x == a && y == b) || (x == b && y == a))
  }

  /** The labels that occur, after the shift, in a non-loop pair. */
  ghost predicate Endpoint(pairs: seq<(int, int)>, zeroIndexed: int, a: int) {
    exists k :: 0 <= k < |pairs| && EndAt(pairs, zeroIndexed, k, a)
  }

  ghost predicate EndAt(pairs: seq<(int, int)>, zeroIndexed: int, k: int, a: int)
    requires 0 <= k < |pairs|
  {
    var x := Label(pairs[k].0, zeroIndexed);
    var y := Label(pairs[k].1, zeroIndexed);
    x != y && (a == x || a == y)
  }

  /** No value occurs twice. */
  predicate NoDuplicates(s: seq<int>) {
    forall i, j :: 0 <= i < j < |s| ==> s[i] != s[j]
  }

  /** Every neighbour vector is free of duplicates. */
  predicate Simple(g: AdjMap) {
    forall a :: a in g ==> NoDuplicates(g[a])
  }

  /** The map holds exactly the edges of `pairs`, on exactly their endpoints. */
  ghost predicate Describes(g: AdjMap, pairs: seq<(int, int)>, zeroIndexed: int) {
    (forall a :: a in g <==> Endpoint(pairs, zeroIndexed, a))
    && (forall a, b :: a in g && b in g[a] <==> Edge(pairs, zeroIndexed, a, b))
    && Simple(g)
  }

  /** Linking keeps vectors duplicate-free and adds exactly one neighbour. */
  lemma LinkFacts(g: AdjMap, a: int, b: int)
    requires Simple(g)
    ensures Simple(Link(g, a, b))
    ensures forall x, y :: x in Link(g, a, b) && y in Link(g, a, b)[x] <==> (x in g && y in g[x]) || (x == a && y == b)
  {
    var l := Neighbours(g, a);
    var h := Link(g, a, b);
    if b !in l {
      assert h[a] == l + [b];
      assert NoDuplicates(l + [b]);
    }
  }

  /** Adding a non-loop pair adds its two endpoints and its edge in both directions. */
  lemma AddEdgeFacts(g: AdjMap, a: int, b: int)
    requires Simple(g)
    ensures Simple(AddEdge(g, a, b))
    ensures AddEdge(g, a, b).Keys == g.Keys + {a, b}
    ensures forall x, y :: x in AddEdge(g, a, b) && y in AddEdge(g, a, b)[x] <==>
      (x in g && y in g[x]) || (x == a && y == b) || (x == b && y == a)
  {
    LinkFacts(g, a, b);
    LinkFacts(Link(g, a, b), b, a);
  }

  /** The map built by the read loop holds exactly the edges and endpoints of the pairs. */
  lemma {:induction false} ReadPairsDescribes(pairs: seq<(int, int)>, zeroIndexed: int)
    ensures Describes(ReadPairs(pairs, zeroIndexed), pairs, zeroIndexed)
    decreases |pairs|
  {
    if |pairs| > 0 {
      var front := pairs[..|pairs| - 1];
      ReadPairsDescribes(front, zeroIndexed);
      EdgesExtend(pairs, zeroIndexed);
      EndsExtend(pairs, zeroIndexed);
      var last := |pairs| - 1;
      var a := Label(pairs[last].0, zeroIndexed);
      var b := Label(pairs[last].1, zeroIndexed);
      if a == b {
        SkipLoop(pairs, zeroIndexed, ReadPairs(front, zeroIndexed));
      } else {
        TakeEdge(pairs, zeroIndexed, ReadPairs(front, zeroIndexed), a, b);
      }
    }
  }

  /** A self-loop pair adds no edge and no endpoint. */
  lemma SkipLoop(pairs: seq<(int, int)>, zeroIndexed: int, g: AdjMap)
    requires |pairs| > 0 && Describes(g, pairs[..|pairs| - 1], zeroIndexed)
    requires Label(pairs[|pairs| - 1].0, zeroIndexed) == Label(pairs[|pairs| - 1].1, zeroIndexed)
    requires forall a, b :: Edge(pairs, zeroIndexed, a, b) <==>
      Edge(pairs[..|pairs| - 1], zeroIndexed, a, b) || EdgeAt(pairs, zeroIndexed, |pairs| - 1, a, b)
    requires forall a :: Endpoint(pairs, zeroIndexed, a) <==>
      Endpoint(pairs[..|pairs| - 1], zeroIndexed, a) || EndAt(pairs, zeroIndexed, |pairs| - 1, a)
    ensures Describes(g, pairs, zeroIndexed)
  {
  }

  /** A non-loop pair adds its edge in both directions and both endpoints. */
  lemma TakeEdge(pairs: seq<(int, int)>, zeroIndexed: int, g: AdjMap, a: int, b: int)
    requires |pairs| > 0 && Describes(g, pairs[..|pairs| - 1], zeroIndexed)
    requires a == Label(pairs[|pairs| - 1].0, zeroIndexed) && b == Label(pairs[|pairs| - 1].1, zeroIndexed) && a != b
    requires forall a, b :: Edge(pairs, zeroIndexed, a, b) <==>
      Edge(pairs[..|pairs| - 1], zeroIndexed, a, b) || EdgeAt(pairs, zeroIndexed, |pairs| - 1, a, b)
    requires forall a :: Endpoint(pairs, zeroIndexed, a) <==>
      Endpoint(pairs[..|pairs| - 1], zeroIndexed, a) || EndAt(pairs, zeroIndexed, |pairs| - 1, a)
    ensures Describes(AddEdge(g, a, b), pairs, zeroIndexed)
  {
    AddEdgeFacts(g, a, b);
  }

  /** The edges of a pair list are those of its front and of its last pair. */
  lemma EdgesExtend(pairs: seq<(int, int)>, zeroIndexed: int)
    requires |pairs| > 0
    ensures forall a, b :: Edge(pairs, zeroIndexed, a, b) <==>
      Edge(pairs[..|pairs| - 1], zeroIndexed, a, b) || EdgeAt(pairs, zeroIndexed, |pairs| - 1, a, b)
  {
    var front := pairs[..|pairs| - 1];
    forall a, b | Edge(pairs, zeroIndexed, a, b) && !EdgeAt(pairs, zeroIndexed, |pairs| - 1, a, b)
      ensures Edge(front, zeroIndexed, a, b)
    {
      var k :| 0 <= k < |pairs| && EdgeAt(pairs, zeroIndexed, k, a, b);
      assert front[k] == pairs[k];
      assert EdgeAt(front, zeroIndexed, k, a, b);
    }
    forall a, b | Edge(front, zeroIndexed, a, b)
      ensures Edge(pairs, zeroIndexed, a, b)
    {
      var k :| 0 <= k < |front| && EdgeAt(front, zeroIndexed, k, a, b);
      assert front[k] == pairs[k];
      assert EdgeAt(pairs, zeroIndexed, k, a, b);
    }
  }

  /** The endpoints of a pair list are those of its front and of its last pair. */
  lemma EndsExtend(pairs: seq<(int, int)>, zeroIndexed: int)
    requires |pairs| > 0
    ensures forall a :: Endpoint(pairs, zeroIndexed, a) <==>
      Endpoint(pairs[..|pairs| - 1], zeroIndexed, a) || EndAt(pairs, zeroIndexed, |pairs| - 1, a)
  {
    var front := pairs[..|pairs| - 1];
    forall a | Endpoint(pairs, zeroIndexed, a) && !EndAt(pairs, zeroIndexed, |pairs| - 1, a)
      ensures Endpoint(front, zeroIndexed, a)
    {
      var k :| 0 <= k < |pairs| && EndAt(pairs, zeroIndexed, k, a);
      assert front[k] == pairs[k];
      assert EndAt(front, zeroIndexed, k, a);
    }
    forall a | Endpoint(front, zeroIndexed, a)
      ensures Endpoint(pairs, zeroIndexed, a)
    {
      var k :| 0 <= k < |front| && EndAt(front, zeroIndexed, k, a);
      assert front[k] == pairs[k];
      assert EndAt(pairs, zeroIndexed, k, a);
    }
  }

  /**
   * `read_edgelist(filename, zero_indexed)`. The header is parsed first, so
   * a count out of `stoul`'s range fails before any pair is read. With the
   * count -1 the map holds exactly the endpoints of the non-loop pairs;
   * otherwise every label below the count is a node as well, and the labels
   * the fill adds have no neighbours.
   */
  function ReadEdgelist(header: int, zeroIndexed: int, pairs: seq<(int, int)>): (r: Result<AdjMap, Fault>)
    ensures r.Failure? <==> NumNodes(header).Failure?
    ensures r.Success? ==> forall a, b :: a in r.value && b in r.value[a] <==> Edge(pairs, zeroIndexed, a, b)
    ensures r.Success? ==> Simple(r.value)
    ensures r.Success? ==> forall a :: a in r.value ==> a !in r.value[a]
    ensures r.Success? && NumNodes(header).value == -1 ==>
      forall a :: a in r.value <==> Endpoint(pairs, zeroIndexed, a)
    ensures r.Success? && NumNodes(header).value != -1 ==>
      forall a :: a in r.value <==> Endpoint(pairs, zeroIndexed, a) || 0 <= a < NumNodes(header).value
  {
    var n := NumNodes(header);
    if n.Failure? then Failure(n.error)
    else
      var g := ReadPairs(pairs, zeroIndexed);
      ReadPairsDescribes(pairs, zeroIndexed);
      if n.value == -1 then Success(g) else Success(FillSingletons(g, n.value))
  }

  /** Every neighbour relation is mutual: the adjacency is undirected. */
  lemma ReadEdgelistSymmetric(header: int, zeroIndexed: int, pairs: seq<(int, int)>, a: int, b: int)
    requires ReadEdgelist(header, zeroIndexed, pairs).Success?
    requires a in ReadEdgelist(header, zeroIndexed, pairs).value
    requires b in ReadEdgelist(header, zeroIndexed, pairs).value[a]
    ensures b in ReadEdgelist(header, zeroIndexed, pairs).value
    ensures a in ReadEdgelist(header, zeroIndexed, pairs).value[b]
  {
    var g := ReadEdgelist(header, zeroIndexed, pairs).value;
    assert Edge(pairs, zeroIndexed, a, b);
    var k :| 0 <= k < |pairs| && EdgeAt(pairs, zeroIndexed, k, a, b);
    assert EdgeAt(pairs, zeroIndexed, k, b, a);
    assert Edge(pairs, zeroIndexed, b, a);
    assert b in g && a in g[b];
  }

  /**
   * With a count, the fill leaves every list the edge loop built untouched
   * and gives the labels it adds empty lists.
   */
  lemma FillKeepsEdges(header: int, zeroIndexed: int, pairs: seq<(int, int)>, a: int)
    requires ReadEdgelist(header, zeroIndexed, pairs).Success?
    requires NumNodes(header).value != -1
    requires a in ReadEdgelist(header, zeroIndexed, pairs).value
    ensures a in ReadPairs(pairs, zeroIndexed) ==>
      ReadEdgelist(header, zeroIndexed, pairs).value[a] == ReadPairs(pairs, zeroIndexed)[a]
    ensures a !in ReadPairs(pairs, zeroIndexed) ==> ReadEdgelist(header, zeroIndexed, pairs).value[a] == []
  {
  }

  /** The same pair given twice, or in the other order, adds nothing. */
  lemma RepeatAddsNothing(pairs: seq<(int, int)>, zeroIndexed: int, k: int)
    requires 0 <= k < |pairs|
    ensures ReadPairs(pairs + [pairs[k]], zeroIndexed) == ReadPairs(pairs, zeroIndexed)
    ensures ReadPairs(pairs + [(pairs[k].1, pairs[k].0)], zeroIndexed) == ReadPairs(pairs, zeroIndexed)
  {
    var g := ReadPairs(pairs, zeroIndexed);
    ReadPairsDescribes(pairs, zeroIndexed);
    var p := pairs + [pairs[k]];
    var q := pairs + [(pairs[k].1, pairs[k].0)];
    assert p[..|p| - 1] == pairs && q[..|q| - 1] == pairs;
    var a := Label(pairs[k].0, zeroIndexed);
    var b := Label(pairs[k].1, zeroIndexed);
    if a != b {
      assert EdgeAt(pairs, zeroIndexed, k, a, b) && EdgeAt(pairs, zeroIndexed, k, b, a);
      assert EndAt(pairs, zeroIndexed, k, a) && EndAt(pairs, zeroIndexed, k, b);
      assert b in g[a] && a in g[b];
      assert Link(g, a, b) == g;
      assert Link(g, b, a) == g;
    }
  }
}

=== FILE: histograms.dfy ===
/**
 * Histograms: maps from a value to how many times it was observed, as
 * `get_distance_distribution` in main.cpp builds them and the functions of
 * dict_statistics.py read them.  A histogram stands for the multiset in
 * which each key occurs as often as its count says; `Items` lists it in
 * increasing key order, as `sorted(d.items())` and a C++ `std::map` do.
 */
module Histograms {
  import opened SeqUtil

  /** `hist` counts exactly the elements of `ms`: a key per distinct element, with its multiplicity. */
  ghost predicate Counts(hist: map<int, int>, ms: multiset<int>) {
    forall k :: (k in hist <==> k in ms) && (k in hist ==> hist[k] == ms[k])
  }

  /** One more observation `j`: a new key starts at 1, an existing one is incremented. */
  function Record(hist: map<int, int>, j: int): (h: map<int, int>)
    ensures j in h && h.Keys == hist.Keys + {j}
    ensures forall k :: k in hist && k != j ==> h[k] == hist[k]
  {
    if j !in hist then hist[j := 1] else hist[j := hist[j] + 1]
  }

  /** Recording `j` adds one `j` to the multiset the histogram counts. */
  lemma RecordCounts(hist: map<int, int>, ms: multiset<int>, j: int)
    requires Counts(hist, ms)
    ensures Counts(Record(hist, j), ms + multiset{j})
  {
  }

  /** The key-count pairs of `hist` in strictly increasing key order. */
  function Items(hist: map<int, int>): (items: seq<(int, int)>)
    decreases |hist.Keys|
  {
    if hist.Keys == {} then []
    else
      var k := MinKey(hist.Keys);
      assert (hist - {k}).Keys < hist.Keys;
      [(k, hist[k])] + Items(hist - {k})
  }

  /** Each listed pair is a key of `hist` with its count. */
  lemma {:induction false} ItemsOfMap(hist: map<int, int>)
    ensures |Items(hist)| == |hist.Keys|
    ensures forall i :: 0 <= i < |Items(hist)| ==> Items(hist)[i].0 in hist && hist[Items(hist)[i].0] == Items(hist)[i].1
    decreases |hist.Keys|
  {
    if hist.Keys != {} {
      var k := MinKey(hist.Keys);
      assert (hist - {k}).Keys < hist.Keys;
      ItemsOfMap(hist - {k});
    }
  }

  /** The keys are listed in strictly increasing order. */
  lemma {:induction false} ItemsSorted(hist: map<int, int>)
    ensures forall i, j :: 0 <= i < j < |Items(hist)| ==> Items(hist)[i].0 < Items(hist)[j].0
    decreases |hist.Keys|
  {
    if hist.Keys != {} {
      var k := MinKey(hist.Keys);
      assert (hist - {k}).Keys < hist.Keys;
      ItemsSorted(hist - {k});
      ItemsOfMap(hist - {k});
    }
  }

  /** Every key of `hist` is listed. */
  lemma {:induction false} ItemsComplete(hist: map<int, int>, k: int) returns (i: int)
    requires k in hist
    ensures 0 <= i < |Items(hist)| && Items(hist)[i].0 == k
    decreases |hist.Keys|
  {
    var m := MinKey(hist.Keys);
    assert (hist - {m}).Keys < hist.Keys;
    if k == m {
      i := 0;
    } else {
      var j := ItemsComplete(hist - {m}, k);
      i := j + 1;
    }
  }

  /** A histogram whose counts are all positive lists positive counts. */
  lemma ItemsPositive(hist: map<int, int>)
    requires forall k :: k in hist ==> hist[k] > 0
    ensures Positive(Items(hist))
  {
    ItemsOfMap(hist);
  }

  /** Prefix totals grow by one count at a time. */
  lemma {:induction false} TotalPrefix(items: seq<(int, int)>, i: int)
    requires 0 <= i < |items|
    ensures Total(items[..i + 1]) == Total(items[..i]) + items[i].1
  {
    if i > 0 {
      assert items[..i + 1][1..] == items[1..][..i];
      assert items[..i][1..] == items[1..][..i - 1];
      TotalPrefix(items[1..], i - 1);
    }
  }

  /** Positive counts have a positive total. */
  lemma {:induction false} TotalPositive(items: seq<(int, int)>)
    requires Positive(items)
    ensures Total(items) >= |items|
  {
    if |items| > 0 {
      TotalPositive(items[1..]);
    }
  }

  /** Every count is positive: what a histogram built by `Record` looks like. */
  predicate Positive(items: seq<(int, int)>) {
    forall i :: 0 <= i < |items| ==> items[i].1 > 0
  }

  /** The number of observations, the sum of the counts. */
  function Total(items: seq<(int, int)>): int {
    if |items| == 0 then 0 else items[0].1 + Total(items[1..])
  }

  /** The sum of the observations, the sum of key times count. */
  function WeightedSum(items: seq<(int, int)>): int {
    if |items| == 0 then 0 else items[0].0 * items[0].1 + WeightedSum(items[1..])
  }

  /** `n` copies of `k`. */
  function Repeat(k: int, n: nat): (s: seq<int>)
    ensures |s| == n && forall i :: 0 <= i < n ==> s[i] == k
  {
    seq(n, _ => k)
  }

  /** The observations themselves: each key repeated as often as its count, in item order. */
  function Expand(items: seq<(int, int)>): seq<int> {
    if |items| == 0 then []
    else Repeat(items[0].0, if items[0].1 < 0 then 0 else items[0].1) + Expand(items[1..])
  }

  /** Expanding positive counts gives `Total` observations summing to `WeightedSum`. */
  lemma {:induction false} ExpandTotals(items: seq<(int, int)>)
    requires Positive(items)
    ensures |Expand(items)| == Total(items) && Sum(Expand(items)) == WeightedSum(items)
  {
    if |items| > 0 {
      ExpandTotals(items[1..]);
      SumAppend(Repeat(items[0].0, items[0].1), Expand(items[1..]));
      SumRepeat(items[0].0, items[0].1);
    }
  }

  lemma {:induction false} SumRepeat(k: int, n: nat)
    ensures Sum(Repeat(k, n)) == k * n
  {
    if n > 0 {
      assert Repeat(k, n)[..n - 1] == Repeat(k, n - 1);
      SumRepeat(k, n - 1);
    }
  }

  /** The multiset a histogram stands for is the multiset of its expansion. */
  lemma {:induction false} ExpandCounts(hist: map<int, int>, ms: multiset<int>)
    requires Counts(hist, ms)
    ensures multiset(Expand(Items(hist))) == ms
    decreases |hist.Keys|
  {
    if hist.Keys == {} {
      assert forall k :: k !in ms;
    } else {
      var k := MinKey(hist.Keys);
      var rest := hist - {k};
      assert rest.Keys < hist.Keys;
      assert Counts(rest, ms[k := 0]);
      ExpandCounts(rest, ms[k := 0]);
      ExpandHead(hist);
      MultisetRepeat(k, hist[k]);
      assert ms == multiset{}[k := hist[k]] + ms[k := 0];
    }
  }

  /** Unfolding `Expand(Items(hist))` once. */
  lemma ExpandHead(hist: map<int, int>)
    requires hist.Keys != {} && hist[MinKey(hist.Keys)] >= 0
    ensures Expand(Items(hist))
         == Repeat(MinKey(hist.Keys), hist[MinKey(hist.Keys)]) + Expand(Items(hist - {MinKey(hist.Keys)}))
  {
    assert Items(hist)[1..] == Items(hist - {MinKey(hist.Keys)});
  }

  lemma {:induction false} MultisetRepeat(k: int, n: nat)
    ensures multiset(Repeat(k, n)) == multiset{}[k := n]
  {
    if n > 0 {
      assert Repeat(k, n) == Repeat(k, n - 1) + [k];
      MultisetRepeat(k, n - 1);
    }
  }

  /**
   * Observation `t` of item `i` sits at position `Total(items[..i]) + t` of
   * the expansion.
   */
  lemma {:induction false} ExpandIndex(items: seq<(int, int)>, i: int, t: int)
    requires Positive(items) && 0 <= i < |items| && 0 <= t < items[i].1
    ensures 0 <= Total(items[..i]) + t < |Expand(items)|
    ensures Expand(items)[Total(items[..i]) + t] == items[i].0
  {
    ExpandTotals(items);
    if i > 0 {
      assert items[..i][1..] == items[1..][..i - 1];
      ExpandIndex(items[1..], i - 1, t);
      ExpandTotals(items[1..]);
    }
  }

  /** The observations of a histogram, listed by `Expand(Items(...))`, are in non-decreasing order. */
  lemma ExpandSorted(items: seq<(int, int)>, p: int, q: int)
    requires forall i, j :: 0 <= i < j < |items| ==> items[i].0 < items[j].0
    requires 0 <= p <= q < |Expand(items)|
    ensures Expand(items)[p] <= Expand(items)[q]
    decreases |items|
  {
    var n := if items[0].1 < 0 then 0 else items[0].1;
    ExpandHeads(items[1..], items[0].0);
    if q >= n && p >= n {
      ExpandSorted(items[1..], p - n, q - n);
    }
  }

  /** Every observation of items whose keys all exceed `k` exceeds `k`. */
  lemma ExpandHeads(items: seq<(int, int)>, k: int)
    requires forall i :: 0 <= i < |items| ==> k < items[i].0
    ensures forall p :: 0 <= p < |Expand(items)| ==> k < Expand(items)[p]
  {
  }
}

=== FILE: pathsample.dfy ===
/**
 * The component-weighted pair sampler: pick a connected component with
 * probability proportional to the square of its size, draw two of its
 * vertices with replacement, and record their hop distance; repeated in two
 * balanced batches until the batch means agree to within a threshold.
 *
 * Randomness enters as explicit draws. A `Draw` names the component chosen
 * by the weighted choice and the two positions picked inside it; the model
 * does not describe how those draws are distributed.
 */
module PathSample {
  import opened Wrappers
  import opened Reach
  import opened SeqUtil
  import Bidirectional

  /** The Python exceptions the sampler can raise. */
  datatype Fault = ZeroDivision | TypeError

  /*
   * Component probabilities
   */

  /** The sum of a sequence of reals, peeled from the back like `Sum`. */
  function RealSum(s: seq<real>): real
    decreases |s|
  {
    if |s| == 0 then 0.0 else RealSum(s[..|s| - 1]) + s[|s| - 1]
  }

  /** The square of each component's size. */
  function SquaredSizes(comps: seq<seq<int>>): (w: seq<int>)
    ensures |w| == |comps|
  {
    seq(|comps|, c requires 0 <= c < |comps| => |comps[c]| * |comps[c]|)
  }

  /** Every entry of `w` divided by `t`. */
  function Scaled(w: seq<int>, t: real): (p: seq<real>)
    requires t != 0.0
    ensures |p| == |w|
  {
    seq(|w|, i requires 0 <= i < |w| => w[i] as real / t)
  }

  /**
   * The probabilities `_component_probability_generator_igraph` computes:
   * each squared size over the sum of squared sizes. Python divides by that
   * sum only when there is at least one component, so an empty component
   * list gives an empty list and a list of empty components divides by zero.
   */
  function ComponentProbabilities(comps: seq<seq<int>>): (r: Result<seq<real>, Fault>)
    ensures r.Failure? <==> |comps| > 0 && forall c :: 0 <= c < |comps| ==> comps[c] == []
    ensures r.Failure? ==> r.error == ZeroDivision
    ensures r.Success? ==> |r.value| == |comps|
    ensures r.Success? ==> forall c :: 0 <= c < |comps| ==> 0.0 <= r.value[c] <= 1.0
    ensures r.Success? ==> forall c :: 0 <= c < |comps| && comps[c] != [] ==> r.value[c] > 0.0
  {
    var w := SquaredSizes(comps);
    SquaresNonNegative(comps);
    SumZeroIffAllZero(w);
    EmptyIffZero(comps);
    if |comps| > 0 && Sum(w) == 0 then Failure(ZeroDivision)
    else if |comps| == 0 then Success([])
    else
      EntriesBelowSum(w);
      assert forall c :: 0 <= c < |comps| && comps[c] != [] ==> w[c] > 0 by {
        forall c | 0 <= c < |comps| && comps[c] != []
          ensures w[c] > 0
        {
          MulNonNegative(|comps[c]|, |comps[c]|);
          PositiveSquare(|comps[c]|);
        }
      }
      var p := Scaled(w, Sum(w) as real);
      ProbabilityBounds(w, Sum(w), p);
      Success(p)
  }

  /** A component has squared size zero exactly when it is empty. */
  lemma EmptyIffZero(comps: seq<seq<int>>)
    ensures forall c :: 0 <= c < |comps| ==> (SquaredSizes(comps)[c] == 0 <==> comps[c] == [])
  {
    forall c | 0 <= c < |comps|
      ensures SquaredSizes(comps)[c] == 0 <==> comps[c] == []
    {
      if comps[c] != [] {
        PositiveSquare(|comps[c]|);
      }
    }
  }

  lemma PositiveSquare(n: int)
    requires n > 0
    ensures n * n > 0
  {
  }

  lemma SquaresNonNegative(comps: seq<seq<int>>)
    ensures forall c :: 0 <= c < |comps| ==> SquaredSizes(comps)[c] >= 0
  {
    forall c | 0 <= c < |comps|
      ensures SquaredSizes(comps)[c] >= 0
    {
      MulNonNegative(|comps[c]|, |comps[c]|);
    }
  }

  /** Each scaled entry lies in the unit interval, and positive entries stay positive. */
  lemma ProbabilityBounds(w: seq<int>, total: int, p: seq<real>)
    requires total > 0 && p == Scaled(w, total as real)
    requires forall i :: 0 <= i < |w| ==> 0 <= w[i] <= total
    ensures forall i :: 0 <= i < |w| ==> 0.0 <= p[i] <= 1.0
    ensures forall i :: 0 <= i < |w| && w[i] > 0 ==> p[i] > 0.0
  {
    forall i | 0 <= i < |w|
      ensures 0.0 <= p[i] <= 1.0 && (w[i] > 0 ==> p[i] > 0.0)
    {
      UnitRatio(w[i] as real, total as real);
    }
  }

  lemma UnitRatio(a: real, t: real)
    requires t > 0.0 && 0.0 <= a <= t
    ensures 0.0 <= a / t <= 1.0
    ensures a > 0.0 ==> a / t > 0.0
  {
  }

  /** A sum of non-negative entries is zero exactly when every entry is. */
  lemma {:induction false} SumZeroIffAllZero(w: seq<int>)
    requires forall i :: 0 <= i < |w| ==> w[i] >= 0
    ensures Sum(w) == 0 <==> forall i :: 0 <= i < |w| ==> w[i] == 0
    decreases |w|
  {
    if |w| > 0 {
      var front := w[..|w| - 1];
      SumZeroIffAllZero(front);
      SumNonNegative(front);
      if Sum(w) == 0 {
        forall i | 0 <= i < |w|
          ensures w[i] == 0
        {
          if i < |w| - 1 {
            assert w[i] == front[i];
          }
        }
      }
    }
  }

  /** No non-negative entry exceeds the sum. */
  lemma {:induction false} EntriesBelowSum(w: seq<int>)
    requires forall i :: 0 <= i < |w| ==> w[i] >= 0
    ensures forall i :: 0 <= i < |w| ==> w[i] <= Sum(w)
    decreases |w|
  {
    if |w| > 0 {
      var front := w[..|w| - 1];
      EntriesBelowSum(front);
      SumNonNegative(front);
      forall i | 0 <= i < |w| - 1
        ensures w[i] <= Sum(w)
      {
        assert w[i] == front[i];
      }
    }
  }

  /** Dividing every entry by `t` divides the sum by `t`. */
  lemma {:induction false} ScaledSum(w: seq<int>, t: real)
    requires t != 0.0
    ensures RealSum(Scaled(w, t)) * t == Sum(w) as real
    decreases |w|
  {
    if |w| > 0 {
      var front := w[..|w| - 1];
      ScaledSum(front, t);
      assert Scaled(w, t)[..|w| - 1] == Scaled(front, t);
      Distribute(RealSum(Scaled(front, t)), w[|w| - 1] as real / t, t);
    }
  }

  lemma Distribute(a: real, b: real, t: real)
    ensures (a + b) * t == a * t + b * t
  {
  }

  /** On success over a non-empty list, each probability is a squared size over their positive total. */
  lemma ProbabilitiesAreScaled(comps: seq<seq<int>>) returns (w: seq<int>, t: real)
    requires ComponentProbabilities(comps).Success? && |comps| > 0
    ensures w == SquaredSizes(comps) && t == Sum(w) as real && t > 0.0
    ensures ComponentProbabilities(comps).value == Scaled(w, t)
  {
    w := SquaredSizes(comps);
    SquaresNonNegative(comps);
    SumZeroIffAllZero(w);
    SumNonNegative(w);
    t := Sum(w) as real;
  }

  /** The probabilities of a non-empty component list add up to one. */
  lemma ProbabilitiesSumToOne(comps: seq<seq<int>>)
    requires ComponentProbabilities(comps).Success? && |comps| > 0
    ensures RealSum(ComponentProbabilities(comps).value) == 1.0
  {
    var w, t := ProbabilitiesAreScaled(comps);
    ScaledSum(w, t);
    Cancel(RealSum(Scaled(w, t)), t);
  }

  lemma Cancel(x: real, t: real)
    requires t > 0.0 && x * t == t
    ensures x == 1.0
  {
  }

  /** `p[b] : p[c]` is the ratio of the squared sizes of components `b` and `c`. */
  predicate InProportion(p: seq<real>, comps: seq<seq<int>>, b: int, c: int)
    requires 0 <= b < |p| && 0 <= c < |p| && |p| == |comps|
  {
    p[b] * (|comps[c]| * |comps[c]|) as real == p[c] * (|comps[b]| * |comps[b]|) as real
  }

  /** Component `b` is as much likelier than `c` as its squared size is larger. */
  lemma ProbabilitiesProportional(comps: seq<seq<int>>, b: int, c: int)
    requires ComponentProbabilities(comps).Success?
    requires 0 <= b < |comps| && 0 <= c < |comps|
    ensures InProportion(ComponentProbabilities(comps).value, comps, b, c)
  {
    var w, t := ProbabilitiesAreScaled(comps);
    assert w[b] == |comps[b]| * |comps[b]| && w[c] == |comps[c]| * |comps[c]|;
    ProportionalAt(ComponentProbabilities(comps).value, comps, b, c, t);
  }

  /** Entries that are squared sizes over one common total are in proportion. */
  lemma ProportionalAt(p: seq<real>, comps: seq<seq<int>>, b: int, c: int, t: real)
    requires 0 <= b < |comps| && 0 <= c < |comps| && |p| == |comps| && t != 0.0
    requires p[b] == (|comps[b]| * |comps[b]|) as real / t
    requires p[c] == (|comps[c]| * |comps[c]|) as real / t
    ensures InProportion(p, comps, b, c)
  {
    CrossMultiply(p[b], p[c], (|comps[b]| * |comps[b]|) as real, (|comps[c]| * |comps[c]|) as real, t);
  }

  lemma CrossMultiply(pb: real, pc: real, x: real, y: real, t: real)
    requires t != 0.0 && pb == x / t && pc == y / t
    ensures pb * y == pc * x
  {
    assert (x / t) * y == (x * y) / t;
    assert (y / t) * x == (y * x) / t;
  }

  /** A connected graph, one non-empty component, gets probability list `[1]`. */
  lemma SingleComponentIsCertain(comps: seq<seq<int>>)
    requires |comps| == 1 && comps[0] != []
    ensures ComponentProbabilities(comps) == Success([1.0])
  {
    var p := ComponentProbabilities(comps);
    ProbabilitiesSumToOne(comps);
    assert p.value[..0] == [];
    assert p.value == [p.value[0]];
  }

  /** A larger component never gets the smaller probability. */
  lemma LargerIsLikelier(comps: seq<seq<int>>, b: int, c: int)
    requires ComponentProbabilities(comps).Success?
    requires 0 <= b < |comps| && 0 <= c < |comps| && |comps[b]| >= |comps[c]|
    ensures ComponentProbabilities(comps).value[b] >= ComponentProbabilities(comps).value[c]
  {
    var w := SquaredSizes(comps);
    SquaresNonNegative(comps);
    SumZeroIffAllZero(w);
    SumNonNegative(w);
    SquareMono(|comps[c]|, |comps[b]|);
    RatioMono(w[c] as real, w[b] as real, Sum(w) as real);
  }

  lemma SquareMono(a: nat, b: nat)
    requires a <= b
    ensures a * a <= b * b
  {
    MulNonNegative(b - a, a);
    MulNonNegative(b - a, b);
  }

  lemma RatioMono(x: real, y: real, t: real)
    requires t > 0.0 && x <= y
    ensures x / t <= y / t
  {
  }

  /*
   * The no-rejection sampler
   */

  /** One iteration's randomness: the chosen component and two positions in it. */
  datatype Draw = Draw(component: int, first: int, second: int)

  /** The draw names an existing component and two of its positions. */
  predicate Fits(comps: seq<seq<int>>, d: Draw) {
    0 <= d.component < |comps| && 0 <= d.first < |comps[d.component]| && 0 <= d.second < |comps[d.component]|
  }

  /** The two vertices a draw picks. */
  function Endpoints(comps: seq<seq<int>>, d: Draw): (int, int)
    requires Fits(comps, d)
  {
    (comps[d.component][d.first], comps[d.component][d.second])
  }

  /**
   * What the graph library promises of `g.components()`: vertex lists of
   * vertices of `g`, where any two members of one list reach each other.
   */
  ghost predicate Clustering(g: Adj, comps: seq<seq<int>>) {
    (forall c, i :: 0 <= c < |comps| && 0 <= i < |comps[c]| ==> 0 <= comps[c][i] < |g|)
    && (forall c, i, j :: 0 <= c < |comps| && 0 <= i < |comps[c]| && 0 <= j < |comps[c]|
          ==> Reachable(g, comps[c][i], comps[c][j]))
  }

  /** The number of iterations of `range(n)`. */
  function Count(n: int): (k: nat)
    ensures n >= 0 ==> k == n
    ensures n < 0 ==> k == 0
  {
    if n < 0 then 0 else n
  }

  /**
   * The recorded sample `x` answers draw `d`: a repeated vertex gives 0,
   * and in an undirected graph the sample is the hop distance of the pair.
   */
  ghost predicate Answers(g: Adj, comps: seq<seq<int>>, d: Draw, x: Option<int>) {
    Fits(comps, d)
    && (Endpoints(comps, d).0 == Endpoints(comps, d).1 ==> x == Some(0))
    && (Symmetric(g) ==> x.Some? && IsDist(g, Endpoints(comps, d).0, Endpoints(comps, d).1, x.value))
  }

  /** The samples `xs` answer the leading draws, one each. */
  ghost predicate AnswersAll(g: Adj, comps: seq<seq<int>>, draws: seq<Draw>, xs: seq<Option<int>>) {
    |xs| <= |draws| && forall k :: 0 <= k < |xs| ==> Answers(g, comps, draws[k], xs[k])
  }

  /**
   * `sampler_no_rejection_igraph`: `None` for a graph with fewer than two
   * vertices, otherwise one distance per iteration, each measured between
   * the two vertices that iteration's draw picks.
   */
  method SamplerNoRejection(g: Adj, comps: seq<seq<int>>, numSamples: int, draws: seq<Draw>)
    returns (r: Option<seq<Option<int>>>)
    requires ValidAdj(g) && Clustering(g, comps)
    requires |g| >= 2 ==> Count(numSamples) <= |draws| && forall k :: 0 <= k < |draws| ==> Fits(comps, draws[k])
    ensures r.None? <==> |g| <= 1
    ensures r.Some? ==> |r.value| == Count(numSamples) && AnswersAll(g, comps, draws, r.value)
  {
    if |g| == 0 || |g| == 1 {
      return None;
    }
    var tracker: seq<Option<int>> := [];
    for x := 0 to Count(numSamples)
      invariant |tracker| == x && AnswersAll(g, comps, draws, tracker)
    {
      var d := draws[x];
      var (i, j) := Endpoints(comps, d);
      var distance := Bidirectional.BidirectionalDistance(g, i, j);
      assert Reachable(g, comps[d.component][d.first], comps[d.component][d.second]);
      assert Answers(g, comps, d, distance);
      AnswersAppend(g, comps, draws, tracker, distance);
      tracker := tracker + [distance];
    }
    return Some(tracker);
  }

  lemma AnswersAppend(g: Adj, comps: seq<seq<int>>, draws: seq<Draw>, xs: seq<Option<int>>, x: Option<int>)
    requires AnswersAll(g, comps, draws, xs) && |xs| < |draws| && Answers(g, comps, draws[|xs|], x)
    ensures AnswersAll(g, comps, draws, xs + [x])
  {
    var ys := xs + [x];
    forall k | 0 <= k < |ys|
      ensures Answers(g, comps, draws[k], ys[k])
    {
      if k < |xs| {
        assert ys[k] == xs[k];
      }
    }
  }

  /** In an undirected graph every sample is a finite distance. */
  lemma SamplesAreFinite(g: Adj, comps: seq<seq<int>>, draws: seq<Draw>, xs: seq<Option<int>>, k: int)
    requires Symmetric(g) && AnswersAll(g, comps, draws, xs) && 0 <= k < |xs|
    ensures xs[k].Some? && xs[k].value >= 0
  {
    assert Answers(g, comps, draws[k], xs[k]);
  }

  /*
   * The threshold sampler
   */

  /** `int(batch_size / 2)`: Python's float division, truncated toward zero. */
  function HalfBatch(batchSize: int): (h: int)
    ensures batchSize >= 0 ==> 0 <= 2 * h <= batchSize < 2 * h + 2
    ensures batchSize < 0 ==> 2 * h - 2 < batchSize <= 2 * h <= 0
  {
    if batchSize >= 0 then batchSize / 2 else -((-batchSize) / 2)
  }

  /** The values of a list with no `None` in it. */
  function Values(s: seq<Option<int>>): (v: seq<int>)
    requires forall i :: 0 <= i < |s| ==> s[i].Some?
    ensures |v| == |s| && forall i :: 0 <= i < |s| ==> s[i] == Some(v[i])
  {
    seq(|s|, i requires 0 <= i < |s| => s[i].value)
  }

  /**
   * `np.mean`: a `None` in the list raises TypeError, an empty list gives
   * NaN (here `None`), and otherwise the sum over the length.
   */
  function Mean(s: seq<Option<int>>): (r: Result<Option<real>, Fault>)
    ensures r.Failure? <==> exists i :: 0 <= i < |s| && s[i].None?
    ensures r.Failure? ==> r.error == TypeError
    ensures r.Success? ==> (r.value.None? <==> |s| == 0)
    ensures r.Success? && r.value.Some? ==> r.value.value * |s| as real == Sum(Values(s)) as real
  {
    if exists i :: 0 <= i < |s| && s[i].None? then Failure(TypeError)
    else if |s| == 0 then Success(None)
    else Success(Some(Sum(Values(s)) as real / |s| as real))
  }

  function Abs(x: real): (a: real)
    ensures a >= 0.0 && (a == x || a == -x)
  {
    if x < 0.0 then -x else x
  }

  /**
   * The stopping test `np.abs(np.mean(s1) - np.mean(s2)) < threshold`. A
   * NaN mean compares false, so an empty batch never stops the loop.
   */
  function Decide(s1: seq<Option<int>>, s2: seq<Option<int>>, threshold: real): (r: Result<bool, Fault>)
    ensures r.Failure? <==> Mean(s1).Failure? || Mean(s2).Failure?
    ensures r.Success? && r.value ==> |s1| > 0 && |s2| > 0
  {
    var m1 := Mean(s1);
    if m1.Failure? then Failure(m1.error)
    else
      var m2 := Mean(s2);
      if m2.Failure? then Failure(m2.error)
      else Success(m1.value.Some? && m2.value.Some? && Abs(m1.value.value - m2.value.value) < threshold)
  }

  /** The stopping test does not care which batch is which. */
  lemma DecideSymmetric(s1: seq<Option<int>>, s2: seq<Option<int>>, threshold: real)
    requires Mean(s1).Success? && Mean(s2).Success?
    ensures Decide(s1, s2, threshold) == Decide(s2, s1, threshold)
  {
  }

  /** Two non-empty batches of equal mean stop any positive threshold. */
  lemma DecideSameMean(s1: seq<Option<int>>, s2: seq<Option<int>>, threshold: real)
    requires threshold > 0.0 && |s1| > 0 && |s2| > 0
    requires Mean(s1).Success? && Mean(s2).Success? && Mean(s1) == Mean(s2)
    ensures Decide(s1, s2, threshold) == Success(true)
  {
  }

  /** The randomness of one loop round: one draw list per batch. */
  datatype Round = Round(first: seq<Draw>, second: seq<Draw>)

  /** The draws of one round's first or second batch. */
  function Batch(round: Round, first: bool): seq<Draw> {
    if first then round.first else round.second
  }

  /**
   * Sample `i` of a list grown by `h` samples per round is the answer to
   * draw `i % h` of round `i / h`'s first (or second) batch.
   */
  ghost predicate FromRounds(g: Adj, comps: seq<seq<int>>, rounds: seq<Round>, s: seq<Option<int>>, h: nat, first: bool) {
    forall i :: 0 <= i < |s| ==> AnswersDraw(g, comps, rounds, h, first, i, s[i])
  }

  /** Sample `x`, recorded at position `i`, answers draw `i % h` of round `i / h`. */
  ghost predicate AnswersDraw(g: Adj, comps: seq<seq<int>>, rounds: seq<Round>, h: nat, first: bool, i: nat, x: Option<int>) {
    0 < h && i / h < |rounds| && i % h < |Batch(rounds[i / h], first)|
    && Answers(g, comps, Batch(rounds[i / h], first)[i % h], x)
  }

  /** What one round needs when the graph is large enough to sample. */
  predicate Supplies(comps: seq<seq<int>>, half: int, round: Round) {
    Count(half) <= |round.first| && Count(half) <= |round.second|
    && (forall k :: 0 <= k < |round.first| ==> Fits(comps, round.first[k]))
    && (forall k :: 0 <= k < |round.second| ==> Fits(comps, round.second[k]))
  }

  /**
   * The state of `threshold_sampler_igraph` when it stops: both batches,
   * the batch sizes at which the stopping test failed, and whether it then
   * passed. The returned list is `s1 + s2`.
   */
  datatype Progress = Progress(s1: seq<Option<int>>, s2: seq<Option<int>>, rejected: seq<nat>, converged: bool)

  /** Every listed checkpoint `j` sits after round `j + 1` and failed the stopping test. */
  ghost predicate RejectedAt(s1: seq<Option<int>>, s2: seq<Option<int>>, rejected: seq<nat>, h: nat, threshold: real) {
    forall j :: 0 <= j < |rejected| ==>
      rejected[j] == (j + 1) * h && rejected[j] <= |s1| && rejected[j] <= |s2|
      && Decide(s1[..rejected[j]], s2[..rejected[j]], threshold) == Success(false)
  }

  /**
   * `threshold_sampler_igraph`, run for as many rounds as `rounds` supplies
   * (the source loops until the test passes). Each round adds one batch of
   * `half_batch` samples to each list; the loop stops at the first round
   * whose test passes. On a graph with fewer than two vertices the first
   * `extend` receives `None` and raises TypeError.
   */
  method ThresholdSampler(g: Adj, comps: seq<seq<int>>, threshold: real, batchSize: int, rounds: seq<Round>)
    returns (r: Result<Progress, Fault>)
    requires ValidAdj(g) && Clustering(g, comps)
    requires |g| >= 2 ==> forall k :: 0 <= k < |rounds| ==> Supplies(comps, HalfBatch(batchSize), rounds[k])
    ensures |g| <= 1 && |rounds| > 0 ==> r == Failure(TypeError)
    ensures Symmetric(g) && |g| >= 2 ==> r.Success?
    ensures r.Success? ==> |r.value.s1| == |r.value.s2| == (|r.value.rejected| + if r.value.converged then 1 else 0) * Count(HalfBatch(batchSize))
    ensures r.Success? ==> RejectedAt(r.value.s1, r.value.s2, r.value.rejected, Count(HalfBatch(batchSize)), threshold)
    ensures r.Success? && r.value.converged ==> Decide(r.value.s1, r.value.s2, threshold) == Success(true)
    ensures r.Success? && !r.value.converged ==> |r.value.rejected| == |rounds|
    ensures r.Success? ==> FromRounds(g, comps, rounds, r.value.s1, Count(HalfBatch(batchSize)), true)
    ensures r.Success? ==> FromRounds(g, comps, rounds, r.value.s2, Count(HalfBatch(batchSize)), false)
  {
    var half := HalfBatch(batchSize);
    var h := Count(half);
    var s1: seq<Option<int>> := [];
    var s2: seq<Option<int>> := [];
    var rejected: seq<nat> := [];
    for k := 0 to |rounds|
      invariant |g| <= 1 ==> k == 0
      invariant Sampled(g, comps, rounds, s1, s2, rejected, k, h, threshold)
    {
      var ok, a, b := SampleRound(g, comps, half, rounds[k]);
      if !ok {
        return Failure(TypeError);
      }
      ghost var s1Before, s2Before := s1, s2;
      s1, s2 := s1 + a, s2 + b;
      AddRound(g, comps, rounds, s1Before, s2Before, a, b, rejected, k, h, threshold);
      var met := Decide(s1, s2, threshold);
      if met.Failure? {
        return Failure(met.error);
      }
      if met.value {
        return Success(Progress(s1, s2, rejected, true));
      }
      Checkpoint(g, comps, rounds, s1, s2, rejected, h, threshold, k);
      rejected := rejected + [k * h + h];
    }
    return Success(Progress(s1, s2, rejected, false));
  }

  /** One round's two calls of `sampler_no_rejection_igraph`; they fail exactly on a graph with fewer than two vertices. */
  method SampleRound(g: Adj, comps: seq<seq<int>>, half: int, round: Round)
    returns (ok: bool, a: seq<Option<int>>, b: seq<Option<int>>)
    requires ValidAdj(g) && Clustering(g, comps) && (|g| >= 2 ==> Supplies(comps, half, round))
    ensures ok <==> |g| >= 2
    ensures ok ==> |a| == Count(half) && |b| == Count(half)
    ensures ok && Symmetric(g) ==> (forall i :: 0 <= i < |a| ==> a[i].Some?) && (forall i :: 0 <= i < |b| ==> b[i].Some?)
    ensures ok ==> AnswersAll(g, comps, round.first, a) && AnswersAll(g, comps, round.second, b)
  {
    var x := SamplerNoRejection(g, comps, half, round.first);
    if x.None? {
      return false, [], [];
    }
    var y := SamplerNoRejection(g, comps, half, round.second);
    a, b := x.value, y.value;
    if Symmetric(g) {
      AllSome(g, comps, round.first, a);
      AllSome(g, comps, round.second, b);
    }
    ok := true;
  }

  /** The state of the sampling loop after `k` rejected rounds of `h` samples per list. */
  ghost predicate Sampled(g: Adj, comps: seq<seq<int>>, rounds: seq<Round>, s1: seq<Option<int>>, s2: seq<Option<int>>,
                          rejected: seq<nat>, k: int, h: nat, threshold: real) {
    && 0 <= k && |rejected| == k && |s1| == k * h && |s2| == k * h
    && RejectedAt(s1, s2, rejected, h, threshold)
    && (Symmetric(g) ==> (forall i :: 0 <= i < |s1| ==> s1[i].Some?) && (forall i :: 0 <= i < |s2| ==> s2[i].Some?))
    && FromRounds(g, comps, rounds, s1, h, true) && FromRounds(g, comps, rounds, s2, h, false)
  }

  /** Appending one round's batches keeps the earlier verdicts and, on an undirected graph, finiteness. */
  lemma AddRound(g: Adj, comps: seq<seq<int>>, rounds: seq<Round>, s1: seq<Option<int>>, s2: seq<Option<int>>,
                 a: seq<Option<int>>, b: seq<Option<int>>, rejected: seq<nat>, k: int, h: nat, threshold: real)
    requires Sampled(g, comps, rounds, s1, s2, rejected, k, h, threshold) && |a| == h && |b| == h
    requires Symmetric(g) ==> (forall i :: 0 <= i < |a| ==> a[i].Some?) && (forall i :: 0 <= i < |b| ==> b[i].Some?)
    requires k < |rounds| && AnswersAll(g, comps, rounds[k].first, a) && AnswersAll(g, comps, rounds[k].second, b)
    ensures |rejected| == k && |s1 + a| == (k + 1) * h && |s2 + b| == (k + 1) * h
    ensures RejectedAt(s1 + a, s2 + b, rejected, h, threshold)
    ensures Symmetric(g) ==> (forall i :: 0 <= i < |s1 + a| ==> (s1 + a)[i].Some?) && (forall i :: 0 <= i < |s2 + b| ==> (s2 + b)[i].Some?)
    ensures FromRounds(g, comps, rounds, s1 + a, h, true) && FromRounds(g, comps, rounds, s2 + b, h, false)
  {
    Grow(s1, a, h, k);
    Grow(s2, b, h, k);
    KeepRejected(s1, a, s2, b, rejected, h, threshold);
    if Symmetric(g) {
      Joined(s1, a);
      Joined(s2, b);
    }
    KeepAnswers(g, comps, rounds, s1, a, k, h, true);
    KeepAnswers(g, comps, rounds, s2, b, k, h, false);
  }

  /** The samples of round `k` take positions `k * h ..` of the list, in draw order. */
  lemma KeepAnswers(g: Adj, comps: seq<seq<int>>, rounds: seq<Round>, s: seq<Option<int>>, a: seq<Option<int>>,
                    k: nat, h: nat, first: bool)
    requires FromRounds(g, comps, rounds, s, h, first) && |s| == k * h && |a| == h
    requires k < |rounds| && AnswersAll(g, comps, Batch(rounds[k], first), a)
    ensures FromRounds(g, comps, rounds, s + a, h, first)
  {
    var t := s + a;
    forall i | 0 <= i < |t|
      ensures AnswersDraw(g, comps, rounds, h, first, i, t[i])
    {
      if i < |s| {
        assert t[i] == s[i];
      } else {
        var j := i - |s|;
        DivideBlock(k, h, j);
        assert t[i] == a[j];
      }
    }
  }

  /** Position `j` of block `k` of width `h`. */
  lemma DivideBlock(k: nat, h: nat, j: nat)
    requires j < h
    ensures (k * h + j) / h == k && (k * h + j) % h == j
  {
    var x := k * h + j;
    var q, r := x / h, x % h;
    assert x == q * h + r && 0 <= r < h;
    assert (q - k) * h == j - r by {
      assert q * h - k * h == (q - k) * h;
    }
    if q > k {
      MulAtLeast(q - k, h);
    } else if q < k {
      MulAtLeast(k - q, h);
    }
  }

  lemma MulAtLeast(a: int, h: nat)
    requires a >= 1
    ensures a * h >= h
  {
    assert a * h == (a - 1) * h + h;
    MulNonNegative(a - 1, h);
  }

  lemma Grow(s: seq<Option<int>>, a: seq<Option<int>>, h: nat, k: nat)
    requires |s| == k * h && |a| == h
    ensures |s + a| == (k + 1) * h
  {
  }

  /** Appending a batch leaves the earlier prefixes, and so their verdicts, alone. */
  lemma KeepRejected(s1: seq<Option<int>>, a: seq<Option<int>>, s2: seq<Option<int>>, b: seq<Option<int>>,
                     rejected: seq<nat>, h: nat, threshold: real)
    requires RejectedAt(s1, s2, rejected, h, threshold)
    ensures RejectedAt(s1 + a, s2 + b, rejected, h, threshold)
  {
    forall j | 0 <= j < |rejected|
      ensures (s1 + a)[..rejected[j]] == s1[..rejected[j]] && (s2 + b)[..rejected[j]] == s2[..rejected[j]]
    {
    }
  }

  /** The checkpoint after the round just finished, which failed the test. */
  lemma Checkpoint(g: Adj, comps: seq<seq<int>>, rounds: seq<Round>, s1: seq<Option<int>>, s2: seq<Option<int>>,
                   rejected: seq<nat>, h: nat, threshold: real, k: nat)
    requires RejectedAt(s1, s2, rejected, h, threshold) && |rejected| == k
    requires FromRounds(g, comps, rounds, s1, h, true) && FromRounds(g, comps, rounds, s2, h, false)
    requires |s1| == (k + 1) * h && |s2| == (k + 1) * h && Decide(s1, s2, threshold) == Success(false)
    requires Symmetric(g) ==> (forall i :: 0 <= i < |s1| ==> s1[i].Some?) && (forall i :: 0 <= i < |s2| ==> s2[i].Some?)
    ensures Sampled(g, comps, rounds, s1, s2, rejected + [k * h + h], k + 1, h, threshold)
  {
    assert s1[..|s1|] == s1 && s2[..|s2|] == s2;
  }

  lemma AllSome(g: Adj, comps: seq<seq<int>>, draws: seq<Draw>, xs: seq<Option<int>>)
    requires Symmetric(g) && AnswersAll(g, comps, draws, xs)
    ensures forall i :: 0 <= i < |xs| ==> xs[i].Some?
  {
    forall i | 0 <= i < |xs|
      ensures xs[i].Some?
    {
      SamplesAreFinite(g, comps, draws, xs, i);
    }
  }

  lemma Joined(s: seq<Option<int>>, a: seq<Option<int>>)
    requires forall i :: 0 <= i < |s| ==> s[i].Some?
    requires forall i :: 0 <= i < |a| ==> a[i].Some?
    ensures forall i :: 0 <= i < |s + a| ==> (s + a)[i].Some?
  {
  }
}

=== FILE: reach.dfy ===
/**
 * Hop-distance semantics for unweighted graphs given as adjacency lists over
 * local node indices 0..|g|-1.
 *
 * `Ball(g, s, k)` is the set of nodes reachable from `s` in at most `k` hops
 * (following the lists `g[u]`), and `IsDist(g, s, v, d)` says `d` is the least
 * such `k` for `v`.  Every BFS in the model is proved against these
 * definitions, and `ShortestWalk` ties them to walks, so "true shortest-path
 * distance" has one meaning throughout.
 */
module Reach {

  /** Adjacency lists: `g[u]` lists the neighbours of local node `u`. */
  type Adj = seq<seq<int>>

  /** Every listed neighbour is a node of the graph. */
  predicate ValidAdj(g: Adj) {
    forall u, j :: 0 <= u < |g| && 0 <= j < |g[u]| ==> 0 <= g[u][j] < |g|
  }

  /** Undirected: `v` is listed at `u` exactly when `u` is listed at `v`. */
  predicate Symmetric(g: Adj) {
    forall u, v {:trigger v in g[u]} :: 0 <= u < |g| && 0 <= v < |g| && v in g[u] ==> u in g[v]
  }

  /** No node lists itself: the graph has no self-loops. */
  predicate Loopless(g: Adj) {
    forall u :: 0 <= u < |g| ==> u !in g[u]
  }

  /** The node indices 0..n-1 as a set. */
  function Range(n: nat): (r: set<int>)
    ensures forall v :: v in r <==> 0 <= v < n
  {
    if n == 0 then {} else Range(n - 1) + {n - 1}
  }

  /** Nodes one hop away from some node of `S`. */
  ghost function Succ(g: Adj, S: set<int>): set<int> {
    set u, j | u in S && 0 <= u < |g| && 0 <= j < |g[u]| && 0 <= g[u][j] < |g| :: g[u][j]
  }

  /** A successor names the member of `S` it hangs off. */
  lemma SuccWitness(g: Adj, S: set<int>, v: int) returns (u: int)
    requires v in Succ(g, S)
    ensures u in S && 0 <= u < |g| && v in g[u] && 0 <= v < |g|
  {
    var u', j :| u' in S && 0 <= u' < |g| && 0 <= j < |g[u']| && 0 <= g[u'][j] < |g| && g[u'][j] == v;
    u := u';
  }

  /** Nodes reachable from `s` in at most `k` hops. */
  ghost function Ball(g: Adj, s: int, k: nat): set<int>
    decreases k
  {
    if k == 0 then {s} else Ball(g, s, k - 1) + Succ(g, Ball(g, s, k - 1))
  }

  /** `d` is the hop distance from `s` to `v`. */
  ghost predicate IsDist(g: Adj, s: int, v: int, d: int) {
    d >= 0 && v in Ball(g, s, d) && (d == 0 || v !in Ball(g, s, d - 1))
  }

  ghost predicate Reachable(g: Adj, s: int, v: int) {
    exists k: nat :: v in Ball(g, s, k)
  }

  /** Every node of `g` is reachable from `s`. */
  ghost predicate ReachesAll(g: Adj, s: int) {
    forall v :: 0 <= v < |g| ==> Reachable(g, s, v)
  }

  /** Every node reaches every node: `g` is one connected component. */
  ghost predicate Connected(g: Adj) {
    forall s :: 0 <= s < |g| ==> ReachesAll(g, s)
  }

  /** A walk: consecutive nodes are joined by a listed edge. */
  ghost predicate IsWalk(g: Adj, w: seq<int>) {
    |w| >= 1 &&
    (forall i :: 0 <= i < |w| ==> 0 <= w[i] < |g|) &&
    (forall i :: 0 <= i < |w| - 1 ==> w[i + 1] in g[w[i]])
  }

  // ---------------------------------------------------------------------
  // Basic facts about balls
  // ---------------------------------------------------------------------

  lemma {:induction false} RangeSize(n: nat)
    ensures |Range(n)| == n
  {
    if n > 0 {
      RangeSize(n - 1);
    }
  }

  /** A set of node indices below `n` has at most `n` elements. */
  lemma SubsetOfRangeSize(S: set<int>, n: nat)
    requires forall v :: v in S ==> 0 <= v < n
    ensures |S| <= n
  {
    assert S <= Range(n);
    RangeSize(n);
    SubsetSize(S, Range(n));
  }

  lemma SubsetSize<T>(A: set<T>, B: set<T>)
    requires A <= B
    ensures |A| <= |B|
  {
    assert B == A + (B - A);
  }

  lemma SuccMember(g: Adj, S: set<int>, u: int, v: int)
    requires u in S && 0 <= u < |g| && v in g[u] && 0 <= v < |g|
    ensures v in Succ(g, S)
  {
    var j :| 0 <= j < |g[u]| && g[u][j] == v;
  }

  /** One more hop adds the successors of the ball. */
  lemma BallUnfold(g: Adj, s: int, k: nat)
    ensures Ball(g, s, k + 1) == Ball(g, s, k) + Succ(g, Ball(g, s, k))
  {
  }

  lemma BallStep(g: Adj, s: int, k: nat, u: int, v: int)
    requires u in Ball(g, s, k) && 0 <= u < |g| && v in g[u] && 0 <= v < |g|
    ensures v in Ball(g, s, k + 1)
  {
    SuccMember(g, Ball(g, s, k), u, v);
  }

  lemma {:induction false} BallMono(g: Adj, s: int, j: nat, k: nat)
    requires j <= k
    ensures Ball(g, s, j) <= Ball(g, s, k)
    decreases k - j
  {
    if j < k {
      BallMono(g, s, j, k - 1);
    }
  }

  lemma {:induction false} BallInRange(g: Adj, s: int, k: nat)
    requires 0 <= s < |g|
    ensures forall v :: v in Ball(g, s, k) ==> 0 <= v < |g|
  {
    if k > 0 {
      BallInRange(g, s, k - 1);
    }
  }

  /** A reached node at hop distance `d` is not within `k < d` hops. */
  lemma IsDistLeast(g: Adj, s: int, v: int, d: int, k: nat)
    requires IsDist(g, s, v, d) && v in Ball(g, s, k)
    ensures d <= k
  {
    if k < d {
      BallMono(g, s, k, d - 1);
    }
  }

  /** Hop distances are unique, so `IsDist` determines its value. */
  lemma IsDistUnique(g: Adj, s: int, v: int, d1: int, d2: int)
    requires IsDist(g, s, v, d1) && IsDist(g, s, v, d2)
    ensures d1 == d2
  {
    IsDistLeast(g, s, v, d1, d2);
    IsDistLeast(g, s, v, d2, d1);
  }

  /** A node within `k` hops has a hop distance, and it is at most `k`. */
  lemma LeastLevel(g: Adj, s: int, v: int, k: nat) returns (d: nat)
    requires v in Ball(g, s, k)
    ensures d <= k && IsDist(g, s, v, d)
  {
    if k == 0 || v !in Ball(g, s, k - 1) {
      d := k;
    } else {
      d := LeastLevel(g, s, v, k - 1);
    }
  }

  lemma StartIsDistZero(g: Adj, s: int)
    ensures IsDist(g, s, s, 0)
  {
  }

  /** A set that holds `s` and every successor of its members holds every ball. */
  lemma {:induction false} ClosedContainsBalls(g: Adj, s: int, S: set<int>, k: nat)
    requires s in S
    requires forall u, v :: u in S && 0 <= u < |g| && v in g[u] && 0 <= v < |g| ==> v in S
    ensures Ball(g, s, k) <= S
  {
    if k > 0 {
      ClosedContainsBalls(g, s, S, k - 1);
    }
  }

  /** Hops compose: `p` within `j` of `x` and `y` within `k` of `p`. */
  lemma {:induction false} BallCompose(g: Adj, x: int, p: int, y: int, j: nat, k: nat)
    requires p in Ball(g, x, j) && y in Ball(g, p, k)
    ensures y in Ball(g, x, j + k)
    decreases k
  {
    if k == 0 {
      assert y == p;
      BallRadius(g, x, y, j, j + k);
    } else {
      var q := LastHop(g, p, y, k);
      BallCompose(g, x, p, q, j, k - 1);
      OneMoreHop(g, x, q, y, j + (k - 1), j + k);
    }
  }

  /** A node within `k > 0` hops is within `k - 1` hops of the start, or next to a node `u` that is. */
  lemma LastHop(g: Adj, s: int, v: int, k: nat) returns (u: int)
    requires k > 0 && v in Ball(g, s, k)
    ensures u in Ball(g, s, k - 1) && Hop(g, u, v)
  {
    var B := Ball(g, s, k - 1);
    assert Ball(g, s, k) == B + Succ(g, B);
    u := v;
    if v !in B {
      u := SuccWitness(g, B, v);
    }
  }

  /** `v` is `u` or a neighbour of it: at most one hop apart. */
  ghost predicate Hop(g: Adj, u: int, v: int) {
    u == v || (0 <= u < |g| && v in g[u] && 0 <= v < |g|)
  }

  /** At most one hop past a node within `a` hops is within `b == a + 1` hops. */
  lemma OneMoreHop(g: Adj, s: int, u: int, v: int, a: nat, b: nat)
    requires u in Ball(g, s, a) && Hop(g, u, v) && b == a + 1
    ensures v in Ball(g, s, b)
  {
    if u == v {
      BallMono(g, s, a, b);
    } else {
      BallStep(g, s, a, u, v);
    }
  }

  /** Membership in a ball depends only on the value of its radius. */
  lemma BallRadius(g: Adj, s: int, v: int, a: nat, b: int)
    requires a == b
    ensures b >= 0 && (v in Ball(g, s, a) <==> v in Ball(g, s, b))
  {
  }

  /** A walk of `j + k` hops passes a node `j` hops in. */
  lemma BallSplit(g: Adj, x: int, y: int, j: nat, k: nat) returns (p: int)
    requires y in Ball(g, x, j + k)
    ensures p in Ball(g, x, j) && y in Ball(g, p, k)
    decreases k
  {
    if k == 0 {
      p := y;
      BallRadius(g, x, y, j + k, j);
    } else {
      var q := LastHop(g, x, y, j + k);
      BallRadius(g, x, q, j + k - 1, j + (k - 1));
      p := BallSplit(g, x, q, j, k - 1);
      OneMoreHop(g, p, q, y, k - 1, k);
    }
  }

  lemma IsDistSymmetric(g: Adj, x: int, y: int, d: int)
    requires Symmetric(g) && 0 <= x < |g| && 0 <= y < |g|
    requires IsDist(g, x, y, d)
    ensures IsDist(g, y, x, d)
  {
    BallSymmetric(g, x, y, d);
    if d > 0 && x in Ball(g, y, d - 1) {
      BallSymmetric(g, y, x, d - 1);
    }
  }

  // ---------------------------------------------------------------------
  // Balls are exactly what walks reach
  // ---------------------------------------------------------------------

  lemma {:induction false} WalkInBall(g: Adj, w: seq<int>)
    requires IsWalk(g, w)
    ensures w[|w| - 1] in Ball(g, w[0], |w| - 1)
    decreases |w|
  {
    if |w| > 1 {
      var w' := w[..|w| - 1];
      assert IsWalk(g, w');
      WalkInBall(g, w');
      BallStep(g, w[0], |w| - 2, w[|w| - 2], w[|w| - 1]);
    }
  }

  lemma WalkToBallMember(g: Adj, s: int, v: int, k: nat) returns (w: seq<int>)
    requires 0 <= s < |g| && v in Ball(g, s, k)
    ensures IsWalk(g, w) && w[0] == s && w[|w| - 1] == v && |w| <= k + 1
    decreases k
  {
    if k == 0 {
      w := [s];
    } else if v in Ball(g, s, k - 1) {
      w := WalkToBallMember(g, s, v, k - 1);
    } else {
      var q := SuccWitness(g, Ball(g, s, k - 1), v);
      var w' := WalkToBallMember(g, s, q, k - 1);
      w := w' + [v];
    }
  }

  /** On an undirected graph a walk read backwards is a walk. */
  lemma ReverseWalk(g: Adj, w: seq<int>) returns (r: seq<int>)
    requires Symmetric(g) && IsWalk(g, w)
    ensures IsWalk(g, r) && |r| == |w| && r[0] == w[|w| - 1] && r[|r| - 1] == w[0]
  {
    r := seq(|w|, i requires 0 <= i < |w| => w[|w| - 1 - i]);
    forall i | 0 <= i < |r| - 1
      ensures r[i + 1] in g[r[i]]
    {
      assert w[|w| - 1 - i] in g[w[|w| - 2 - i]];
    }
  }

  /** On an undirected graph, hop balls are symmetric. */
  lemma BallSymmetric(g: Adj, x: int, y: int, k: nat)
    requires Symmetric(g) && 0 <= x < |g|
    requires y in Ball(g, x, k)
    ensures x in Ball(g, y, k)
  {
    var w := WalkToBallMember(g, x, y, k);
    WalkBack(g, w);
    BallMono(g, y, |w| - 1, k);
  }

  /** On an undirected graph a walk's start is within its length of its end. */
  lemma WalkBack(g: Adj, w: seq<int>)
    requires Symmetric(g) && IsWalk(g, w)
    ensures w[0] in Ball(g, w[|w| - 1], |w| - 1)
  {
    var r := ReverseWalk(g, w);
    WalkInBall(g, r);
  }

  /**
   * The hop distance is the length of a shortest walk: some walk from `s`
   * to `v` has exactly `d` edges, and none has fewer.
   */
  lemma ShortestWalk(g: Adj, s: int, v: int, d: int) returns (w: seq<int>)
    requires 0 <= s < |g| && IsDist(g, s, v, d)
    ensures IsWalk(g, w) && w[0] == s && w[|w| - 1] == v && |w| == d + 1
    ensures forall w' :: IsWalk(g, w') && w'[0] == s && w'[|w'| - 1] == v ==> |w'| - 1 >= d
  {
    w := WalkToBallMember(g, s, v, d);
    WalkInBall(g, w);
    IsDistLeast(g, s, v, d, |w| - 1);
    forall w' | IsWalk(g, w') && w'[0] == s && w'[|w'| - 1] == v
      ensures |w'| - 1 >= d
    {
      WalkInBall(g, w');
      IsDistLeast(g, s, v, d, |w'| - 1);
    }
  }

  // ---------------------------------------------------------------------
  // Distance as a value
  // ---------------------------------------------------------------------

  /** The hop distance from `s` to a reachable `v`. */
  ghost function Dist(g: Adj, s: int, v: int): (d: nat)
    requires Reachable(g, s, v)
    ensures IsDist(g, s, v, d)
  {
    ReachableHasDist(g, s, v);
    var e: nat :| IsDist(g, s, v, e);
    e
  }

  lemma ReachableHasDist(g: Adj, s: int, v: int)
    requires Reachable(g, s, v)
    ensures exists d: nat :: IsDist(g, s, v, d)
  {
    var k: nat :| v in Ball(g, s, k);
    var d := LeastLevel(g, s, v, k);
  }

  /** The distance vector from `s`: entry `v` is the hop distance to `v`. */
  ghost function Distances(g: Adj, s: int): (r: seq<int>)
    requires ReachesAll(g, s)
    ensures |r| == |g|
    ensures forall v :: 0 <= v < |g| ==> IsDist(g, s, v, r[v])
  {
    seq(|g|, v requires 0 <= v < |g| => Dist(g, s, v))
  }

  /** A vector satisfying `IsDist` at every node is the distance vector. */
  lemma DistancesUnique(g: Adj, s: int, r: seq<int>)
    requires |r| == |g|
    requires forall v :: 0 <= v < |g| ==> IsDist(g, s, v, r[v])
    ensures ReachesAll(g, s) && r == Distances(g, s)
  {
    forall v | 0 <= v < |g|
      ensures Reachable(g, s, v)
    {
      assert v in Ball(g, s, r[v]);
    }
    forall v | 0 <= v < |g|
      ensures r[v] == Distances(g, s)[v]
    {
      IsDistUnique(g, s, v, r[v], Distances(g, s)[v]);
    }
  }
}

=== FILE: semisparse.dfy ===
/**
 * The "semisparse" all-pairs shortest-path kernel of semisparse.py.
 *
 * A connected component with local node indices 0..n-1 is stored as an
 * n x maxDegree table whose row `u` lists `u`'s neighbours followed by `-1`
 * padding; a one-node component is stored as the one-element array `[0]`.
 * One BFS per start node fills either a flat n*n distance vector
 * (`ApspDriver`) or a running total (`RollingSumDriver`), and the two
 * whole-graph entry points combine the components.
 *
 * The split of a graph into connected components (networkx's
 * `connected_components`, `subgraph` and `to_scipy_sparse_matrix`) is an
 * input here: a graph is the sequence of its components, each given as
 * adjacency lists over its own local indices.
 */
module Semisparse {
  import opened Wrappers
  import opened Reach
  import opened BfsQueue
  import opened SeqUtil
  import opened Apsp

  /** How a call can go wrong. */
  datatype Fault =
    | UnwrittenSlot  // the BFS dequeued `tracker[end]`, a slot this search never wrote
    | EmptyGraph     // `max` over the degrees of a graph without nodes

  /** The value that ends a row of the table. */
  const Sentinel: int := -1

  /** The matrix `_to_semisparse_matrix` returns. */
  datatype Table =
    | Padded(rows: seq<seq<int>>)  // one row per node, padded with `Sentinel`
    | Lone                         // the one-node component's array `[0]`

  // ---------------------------------------------------------------------
  // Encoding and decoding rows
  // ---------------------------------------------------------------------

  /** The position of the first sentinel in `row`, or `|row|` if there is none. */
  function FirstSentinel(row: seq<int>): (k: nat)
    ensures k <= |row|
    ensures forall j :: 0 <= j < k ==> row[j] != Sentinel
    ensures k < |row| ==> row[k] == Sentinel
    decreases |row|
  {
    if |row| == 0 || row[0] == Sentinel then 0 else 1 + FirstSentinel(row[1..])
  }

  /** `FirstSentinel` is the least sentinel position: any position with its defining property is it. */
  lemma {:induction false} FirstSentinelIs(row: seq<int>, k: nat)
    requires k <= |row|
    requires forall j :: 0 <= j < k ==> row[j] != Sentinel
    requires k < |row| ==> row[k] == Sentinel
    ensures FirstSentinel(row) == k
    decreases |row|
  {
    if k > 0 {
      FirstSentinelIs(row[1..], k - 1);
    }
  }

  /** An entry before the first sentinel is a neighbour the BFS reads. */
  lemma NeighbourAt(row: seq<int>, i: int)
    requires 0 <= i < FirstSentinel(row)
    ensures Neighbours(row)[i] == row[i] && row[i] in Neighbours(row)
  {
  }

  /** The neighbours the BFS reads from a row: the entries before the first sentinel. */
  function Neighbours(row: seq<int>): seq<int> {
    row[..FirstSentinel(row)]
  }

  /** The graph a table encodes, as the BFS sees it. */
  function Graph(t: Table): Adj {
    match t
    case Lone => [[]]
    case Padded(rows) => seq(|rows|, u requires 0 <= u < |rows| => Neighbours(rows[u]))
  }

  /** `row` followed by sentinels up to `width` entries (`np.pad` with `-1`). */
  function Pad(row: seq<int>, width: nat): (r: seq<int>)
    requires |row| <= width
    ensures |r| == width
  {
    row + seq(width - |row|, _ => Sentinel)
  }

  /** A table for `n` nodes of the given width whose entries are node indices or sentinels. */
  predicate WellFormed(t: Table, n: nat, maxDegree: nat) {
    match t
    case Lone => n == 1
    case Padded(rows) =>
      && |rows| == n
      && (forall u :: 0 <= u < n ==> |rows[u]| == maxDegree)
      && (forall u, j :: 0 <= u < n && 0 <= j < |rows[u]| ==> Sentinel <= rows[u][j] < n)
  }

  /** `_to_semisparse_matrix`: one padded row per node, or `[0]` for a single node. */
  function ToSemisparse(adj: Adj, maxDegree: nat): (t: Table)
    requires |adj| >= 1
    requires forall u :: 0 <= u < |adj| ==> |adj[u]| <= maxDegree
  {
    if |adj| == 1 then Lone
    else Padded(seq(|adj|, u requires 0 <= u < |adj| => Pad(adj[u], maxDegree)))
  }

  /** Padding a row of node indices and reading it back gives the row. */
  lemma PadNeighbours(row: seq<int>, width: nat)
    requires |row| <= width
    requires forall j :: 0 <= j < |row| ==> row[j] >= 0
    ensures Neighbours(Pad(row, width)) == row
  {
    var r := Pad(row, width);
    FirstSentinelIs(r, |row|);
    assert r[..|row|] == row;
  }

  /** Encoding a simple graph as a table and decoding it gives the graph back. */
  lemma DecodeEncode(adj: Adj, maxDegree: nat)
    requires |adj| >= 1 && ValidAdj(adj) && Loopless(adj)
    requires forall u :: 0 <= u < |adj| ==> |adj[u]| <= maxDegree
    ensures WellFormed(ToSemisparse(adj, maxDegree), |adj|, maxDegree)
    ensures Graph(ToSemisparse(adj, maxDegree)) == adj
  {
    if |adj| == 1 {
      HeadIn(adj[0]);
      assert |adj[0]| == 0;
    } else {
      var rows := ToSemisparse(adj, maxDegree).rows;
      forall u | 0 <= u < |adj|
        ensures Neighbours(rows[u]) == adj[u]
      {
        PadNeighbours(adj[u], maxDegree);
      }
      forall u, j | 0 <= u < |adj| && 0 <= j < |rows[u]|
        ensures Sentinel <= rows[u][j] < |adj|
      {
        if j < |adj[u]| {
          assert rows[u][j] == adj[u][j];
        }
      }
    }
  }

  /** A well-formed table decodes to a graph on its `n` nodes. */
  lemma GraphOfWellFormed(t: Table, n: nat, maxDegree: nat)
    requires WellFormed(t, n, maxDegree)
    ensures |Graph(t)| == n && ValidAdj(Graph(t))
  {
    var g := Graph(t);
    if t.Padded? {
      forall u, j | 0 <= u < |g| && 0 <= j < |g[u]|
        ensures 0 <= g[u][j] < |g|
      {
        assert g[u][j] == t.rows[u][j];
      }
    }
  }

  /** `max(G.degree)`: the largest neighbour-list length, an error on a graph without nodes. */
  function MaxDegree(adj: Adj): (r: Result<nat, Fault>)
    ensures r.Failure? <==> |adj| == 0
    ensures r.Failure? ==> r.error == EmptyGraph
    ensures r.Success? ==> forall u :: 0 <= u < |adj| ==> |adj[u]| <= r.value
    ensures r.Success? ==> exists u :: 0 <= u < |adj| && |adj[u]| == r.value
    decreases |adj|
  {
    if |adj| == 0 then Failure(EmptyGraph)
    else if |adj| == 1 then Success(|adj[0]|)
    else
      var rest := MaxDegree(adj[..|adj| - 1]).value;
      assert forall u :: 0 <= u < |adj| - 1 ==> adj[..|adj| - 1][u] == adj[u];
      if rest < |adj[|adj| - 1]| then Success(|adj[|adj| - 1]|) else Success(rest)
  }

  // ---------------------------------------------------------------------
  // The BFS kernel
  // ---------------------------------------------------------------------

  /**
   * `_bfs_distances`: hop distances from `start` to every node of the table.
   * `visited` and `dist` are fresh zero buffers; `tracker` is the caller's
   * queue buffer, returned with this search's writes.  On a graph where
   * `start` does not reach every node the source's loop dequeues the slot
   * `tracker[end]` that this search never wrote; the model reports that as
   * `UnwrittenSlot`.
   */
  method BfsDistances(t: Table, start: int, n: nat, maxDegree: nat, tracker: seq<int>)
    returns (r: Result<seq<int>, Fault>, trackerOut: seq<int>)
    requires WellFormed(t, n, maxDegree)
    requires 0 <= start < n && |tracker| >= n
    ensures |trackerOut| == |tracker|
    ensures r.Success? <==> ReachesAll(Graph(t), start)
    ensures r.Failure? ==> r.error == UnwrittenSlot
    ensures r.Success? ==> |r.value| == n
    ensures r.Success? ==> forall v :: 0 <= v < n ==> IsDist(Graph(t), start, v, r.value[v])
    ensures r.Success? ==> r.value == Distances(Graph(t), start)
  {
    ghost var g := Graph(t);
    GraphOfWellFormed(t, n, maxDegree);
    var pos := 0;
    var end := 1;
    var visited := seq(n, _ => 0);
    var dist := seq(n, _ => 0);
    trackerOut := tracker[pos := start];
    visited := visited[start := 1];
    var numVisited := 1;
    QueueInit(g, start, visited, dist, trackerOut);
    while pos <= end && numVisited < n
      invariant pos <= end && numVisited == end && |trackerOut| == |tracker|
      invariant |visited| == n && |dist| == n
      invariant QueueInv(g, start, visited, dist, trackerOut, pos, end)
      decreases n - pos
    {
      if pos == end {
        QueueExhausted(g, start, visited, dist, trackerOut, end);
        return Failure(UnwrittenSlot), trackerOut;
      }
      var node := trackerOut[pos];
      pos := pos + 1;
      var last;
      visited, dist, trackerOut, last := ScanRow(g, start, t.rows[node], maxDegree, visited, dist,
                                                 trackerOut, pos - 1, end);
      numVisited, end := numVisited + (last - end), last;
      QueueAdvance(g, start, visited, dist, trackerOut, pos - 1, end);
    }
    QueueComplete(g, start, visited, dist, trackerOut, pos, end);
    DistancesUnique(g, start, dist);
    return Success(dist), trackerOut;
  }

  /**
   * The inner loop of `_bfs_distances`: scan the row of the dequeued node
   * `tracker[done]` up to the first sentinel or the table's width, visiting
   * and enqueueing every neighbour not seen before.  The queue then ends at
   * `endOut`.
   */
  method ScanRow(ghost g: Adj, start: int, row: seq<int>, maxDegree: nat, visited: seq<int>,
                 dist: seq<int>, tracker: seq<int>, done: int, end: int)
    returns (visitedOut: seq<int>, distOut: seq<int>, trackerOut: seq<int>, endOut: int)
    requires QueueInv(g, start, visited, dist, tracker, done, end) && done < end
    requires |row| == maxDegree && g[tracker[done]] == Neighbours(row)
    ensures end <= endOut
    ensures QueueInv(g, start, visitedOut, distOut, trackerOut, done, endOut)
    ensures |visitedOut| == |visited| && |distOut| == |dist| && |trackerOut| == |tracker|
    ensures trackerOut[done] == tracker[done]
    ensures forall w :: 0 <= w < |g| && w in g[tracker[done]] ==> visitedOut[w] != 0
  {
    visitedOut, distOut, trackerOut, endOut := visited, dist, tracker, end;
    var i := 0;
    while i < maxDegree && row[i] != Sentinel
      invariant 0 <= i <= FirstSentinel(row) && end <= endOut
      invariant |visitedOut| == |visited| && |distOut| == |dist| && |trackerOut| == |tracker|
      invariant trackerOut[done] == tracker[done]
      invariant QueueInv(g, start, visitedOut, distOut, trackerOut, done, endOut)
      invariant forall w :: 0 <= w < |g| && w in row[..i] ==> visitedOut[w] != 0
      decreases maxDegree - i
    {
      var before := visitedOut;
      visitedOut, distOut, trackerOut, endOut := ScanStep(g, start, row, i, visitedOut, distOut,
                                                          trackerOut, done, endOut);
      SeenGrows(g, row, i, before, visitedOut);
      i := i + 1;
    }
    FirstSentinelIs(row, i);
    assert g[tracker[done]] == row[..i];
  }

  /** Once entry `i` is visited too, every node in the row up to and including it is visited. */
  lemma SeenGrows(g: Adj, row: seq<int>, i: int, before: seq<int>, after: seq<int>)
    requires 0 <= i < |row| && |before| >= |g| && |after| == |before|
    requires forall w :: 0 <= w < |g| && w in row[..i] ==> before[w] != 0
    requires forall v :: 0 <= v < |before| && before[v] != 0 ==> after[v] != 0
    requires 0 <= row[i] < |g| && after[row[i]] != 0
    ensures forall w :: 0 <= w < |g| && w in row[..i + 1] ==> after[w] != 0
  {
    TakeStep(row, i);
  }

  /**
   * One pass of the inner loop: the `i`-th entry of the row is a neighbour,
   * enqueued if it was not visited yet.
   */
  method ScanStep(ghost g: Adj, start: int, row: seq<int>, i: int, visited: seq<int>,
                  dist: seq<int>, tracker: seq<int>, done: int, end: int)
    returns (visitedOut: seq<int>, distOut: seq<int>, trackerOut: seq<int>, endOut: int)
    requires QueueInv(g, start, visited, dist, tracker, done, end) && done < end
    requires 0 <= i < FirstSentinel(row) && g[tracker[done]] == Neighbours(row)
    ensures end <= endOut
    ensures QueueInv(g, start, visitedOut, distOut, trackerOut, done, endOut)
    ensures |visitedOut| == |visited| && |distOut| == |dist| && |trackerOut| == |tracker|
    ensures trackerOut[done] == tracker[done]
    ensures 0 <= row[i] < |g| && visitedOut[row[i]] != 0
    ensures forall v :: 0 <= v < |visited| && visited[v] != 0 ==> visitedOut[v] != 0
  {
    NeighbourAt(row, i);
    ListedIsNode(g, tracker[done], i);
    visitedOut, distOut, trackerOut, endOut := VisitNeighbour(g, start, visited, dist, tracker,
                                                              done, end, row[i]);
  }

  // ---------------------------------------------------------------------
  // One component: the drivers and the preprocessor
  // ---------------------------------------------------------------------

  /**
   * `_all_pairs_shortest_paths_driver`: one BFS per node, the vector from
   * node `i` filling block `[i * n, i * n + n)` of the result.  The shared
   * `tracker` buffer is threaded through the searches.
   */
  method ApspDriver(t: Table, n: nat, maxDegree: nat, tracker: seq<int>)
    returns (r: Result<seq<int>, Fault>)
    requires WellFormed(t, n, maxDegree) && |tracker| >= n
    ensures r.Success? <==> Connected(Graph(t))
    ensures r.Failure? ==> r.error == UnwrittenSlot
    ensures r.Success? ==> r.value == Concat(AllDistances(Graph(t)))
  {
    ghost var g := Graph(t);
    GraphOfWellFormed(t, n, maxDegree);
    var results := [];
    ghost var rows := [];
    var buffer := tracker;
    var i := 0;
    while i < n
      invariant 0 <= i <= n && |buffer| == |tracker|
      invariant |rows| == i && results == Concat(rows)
      invariant RowsSoFar(g, rows)
    {
      var d;
      d, buffer := BfsDistances(t, i, n, maxDegree, buffer);
      if d.Failure? {
        NotConnected(g, i);
        return Failure(d.error);
      }
      ExtendRows(g, rows, d.value);
      ConcatSnoc(rows, d.value);
      rows, results := rows + [d.value], results + d.value;
      i := i + 1;
    }
    RowsComplete(g, rows);
    return Success(results);
  }

  /**
   * `_all_pairs_shortest_paths_rolling_sum_driver`: the same searches, keeping
   * only the running total of the distances.
   */
  method RollingSumDriver(t: Table, n: nat, maxDegree: nat, tracker: seq<int>)
    returns (r: Result<int, Fault>)
    requires WellFormed(t, n, maxDegree) && |tracker| >= n
    ensures r.Success? <==> Connected(Graph(t))
    ensures r.Failure? ==> r.error == UnwrittenSlot
    ensures r.Success? ==> r.value == SumOfSums(AllDistances(Graph(t)))
  {
    ghost var g := Graph(t);
    GraphOfWellFormed(t, n, maxDegree);
    var total := 0;
    ghost var rows := [];
    var buffer := tracker;
    var i := 0;
    while i < n
      invariant 0 <= i <= n && |buffer| == |tracker|
      invariant |rows| == i && total == SumOfSums(rows)
      invariant RowsSoFar(g, rows)
    {
      var d;
      d, buffer := BfsDistances(t, i, n, maxDegree, buffer);
      if d.Failure? {
        NotConnected(g, i);
        return Failure(d.error);
      }
      ExtendRows(g, rows, d.value);
      ConcatSnoc(rows, d.value);
      rows, total := rows + [d.value], total + Sum(d.value);
      i := i + 1;
    }
    RowsComplete(g, rows);
    return Success(total);
  }

  /**
   * `_all_pairs_shortest_paths_preprocessor` with `rolling_sum=False`: build
   * the table of width `max(G.degree)` and a tracker of `-1`s, then run the
   * driver.  `max` fails on a graph without nodes.
   */
  method Preprocess(adj: Adj) returns (r: Result<seq<int>, Fault>)
    requires ValidAdj(adj) && Loopless(adj)
    ensures |adj| == 0 ==> r == Failure(EmptyGraph)
    ensures |adj| >= 1 ==> (r.Success? <==> Connected(adj))
    ensures r.Success? ==> r.value == Concat(AllDistances(adj))
  {
    var maxDegree := MaxDegree(adj);
    if maxDegree.Failure? {
      return Failure(maxDegree.error);
    }
    var tracker := seq(|adj|, _ => -1);
    var t := ToSemisparse(adj, maxDegree.value);
    DecodeEncode(adj, maxDegree.value);
    r := ApspDriver(t, |adj|, maxDegree.value, tracker);
  }

  /** `_all_pairs_shortest_paths_preprocessor` with `rolling_sum=True`. */
  method PreprocessRollingSum(adj: Adj) returns (r: Result<int, Fault>)
    requires ValidAdj(adj) && Loopless(adj)
    ensures |adj| == 0 ==> r == Failure(EmptyGraph)
    ensures |adj| >= 1 ==> (r.Success? <==> Connected(adj))
    ensures r.Success? ==> r.value == SumOfSums(AllDistances(adj))
  {
    var maxDegree := MaxDegree(adj);
    if maxDegree.Failure? {
      return Failure(maxDegree.error);
    }
    var tracker := seq(|adj|, _ => -1);
    var t := ToSemisparse(adj, maxDegree.value);
    DecodeEncode(adj, maxDegree.value);
    r := RollingSumDriver(t, |adj|, maxDegree.value, tracker);
  }

  // ---------------------------------------------------------------------
  // The whole graph: its connected components
  // ---------------------------------------------------------------------

  /**
   * `all_pairs_shortest_paths`: nothing for at most one node; otherwise the
   * components' distance matrices, flattened and laid end to end.
   */
  method AllPairsShortestPaths(comps: seq<Adj>) returns (r: seq<int>)
    requires ValidComponents(comps) && forall c :: 0 <= c < |comps| ==> Loopless(comps[c])
    ensures NodeCount(comps) <= 1 ==> r == []
    ensures NodeCount(comps) >= 2 ==> r == Concat(ComponentBlocks(comps))
  {
    if NodeCount(comps) <= 1 {
      return [];
    }
    if |comps| == 1 {
      var res := Preprocess(comps[0]);
      ConcatSnoc([], Concat(AllDistances(comps[0])));
      assert ComponentBlocks(comps) == [] + [Concat(AllDistances(comps[0]))];
      return res.value;
    }
    var results: seq<seq<int>> := [];
    for c := 0 to |comps|
      invariant results == ComponentBlocks(comps)[..c]
    {
      var res := Preprocess(comps[c]);
      results := results + [res.value];
    }
    assert results == ComponentBlocks(comps);
    return Concat(results);
  }

  /**
   * `all_pairs_shortest_paths_rolling_sum`: `(1, 0)` for at most one node;
   * otherwise the number of same-component ordered pairs and the sum of
   * their distances, a one-node component counting one pair at distance 0.
   */
  method AllPairsShortestPathsRollingSum(comps: seq<Adj>) returns (count: int, sum: int)
    requires ValidComponents(comps) && forall c :: 0 <= c < |comps| ==> Loopless(comps[c])
    ensures NodeCount(comps) <= 1 ==> count == 1 && sum == 0
    ensures NodeCount(comps) >= 2 ==> count == SumSquares(comps) && sum == Sum(ComponentSums(comps))
  {
    if NodeCount(comps) <= 1 {
      return 1, 0;
    }
    if |comps| == 1 {
      var res := PreprocessRollingSum(comps[0]);
      SingleComponentTotals(comps);
      return |comps[0]| * |comps[0]|, res.value;
    }
    count, sum := 0, 0;
    for c := 0 to |comps|
      invariant count == SumSquares(comps[..c]) && sum == Sum(ComponentSums(comps)[..c])
    {
      RollingStep(comps, c);
      if |comps[c]| == 1 {
        LoneComponent(comps[c]);
        count := count + 1;
      } else {
        var res := PreprocessRollingSum(comps[c]);
        count, sum := count + |comps[c]| * |comps[c]|, sum + res.value;
      }
    }
    assert comps[..|comps|] == comps;
    assert ComponentSums(comps)[..|comps|] == ComponentSums(comps);
  }

  /** With one component, the totals are that component's own. */
  lemma SingleComponentTotals(comps: seq<Adj>)
    requires ValidComponents(comps) && |comps| == 1
    ensures SumSquares(comps) == |comps[0]| * |comps[0]|
    ensures Sum(ComponentSums(comps)) == SumOfSums(AllDistances(comps[0]))
  {
    SumSnoc([], SumOfSums(AllDistances(comps[0])));
    assert ComponentSums(comps) == [] + [SumOfSums(AllDistances(comps[0]))];
    assert comps[..0] == [];
  }

  /** Taking in component `c` adds its squared size to the pair count and its total distance to the sum. */
  lemma RollingStep(comps: seq<Adj>, c: int)
    requires ValidComponents(comps) && 0 <= c < |comps|
    ensures SumSquares(comps[..c + 1]) == SumSquares(comps[..c]) + |comps[c]| * |comps[c]|
    ensures |comps[c]| == 1 ==> SumSquares(comps[..c + 1]) == SumSquares(comps[..c]) + 1
    ensures Sum(ComponentSums(comps)[..c + 1]) == Sum(ComponentSums(comps)[..c]) + SumOfSums(AllDistances(comps[c]))
  {
    SquaresStep(comps, c);
    SumSnoc(ComponentSums(comps)[..c], ComponentSums(comps)[c]);
    TakeStep(ComponentSums(comps), c);
  }

  lemma SquaresStep(comps: seq<Adj>, c: int)
    requires 0 <= c < |comps|
    ensures SumSquares(comps[..c + 1]) == SumSquares(comps[..c]) + |comps[c]| * |comps[c]|
    ensures |comps[c]| == 1 ==> SumSquares(comps[..c + 1]) == SumSquares(comps[..c]) + 1
  {
    var front, n := comps[..c + 1], |comps[c]|;
    assert front[..c] == comps[..c] && |front| == c + 1 && |front[c]| == n;
    assert SumSquares(front) == SumSquares(front[..c]) + n * n;
    if n == 1 {
      assert n * n == 1;
    }
  }
}

=== FILE: seq_util.dfy ===
/**
 * Sums and concatenations of integer sequences, defined by peeling off the
 * last element so that they follow loops that append.
 */
module SeqUtil {

  /** The sum of the entries of `s`. */
  function Sum(s: seq<int>): int
    decreases |s|
  {
    if |s| == 0 then 0 else Sum(s[..|s| - 1]) + s[|s| - 1]
  }

  /** The blocks of `rows` laid end to end. */
  function Concat(rows: seq<seq<int>>): seq<int>
    decreases |rows|
  {
    if |rows| == 0 then [] else Concat(rows[..|rows| - 1]) + rows[|rows| - 1]
  }

  /** The sum of the sums of the blocks. */
  function SumOfSums(rows: seq<seq<int>>): int
    decreases |rows|
  {
    if |rows| == 0 then 0 else SumOfSums(rows[..|rows| - 1]) + Sum(rows[|rows| - 1])
  }

  /** Every block of `rows` has length `w`. */
  predicate Uniform(rows: seq<seq<int>>, w: nat) {
    forall i :: 0 <= i < |rows| ==> |rows[i]| == w
  }

  /** Taking one more element appends it. */
  lemma TakeStep<T>(s: seq<T>, i: int)
    requires 0 <= i < |s|
    ensures s[..i + 1] == s[..i] + [s[i]]
  {
  }

  /** Dropping a prefix of the first part of a concatenation. */
  lemma DropConcat<T>(a: seq<T>, b: seq<T>, k: int)
    requires 0 <= k <= |a|
    ensures (a + b)[k..] == a[k..] + b
  {
  }

  /** Taking every element gives the sequence back. */
  lemma TakeAll<T>(s: seq<T>)
    ensures s[..|s|] == s
  {
  }

  /** A non-empty sequence contains its first element. */
  lemma HeadIn<T>(s: seq<T>)
    ensures |s| > 0 ==> s[0] in s
  {
  }

  /** Summing distributes over concatenation. */
  lemma {:induction false} SumAppend(a: seq<int>, b: seq<int>)
    ensures Sum(a + b) == Sum(a) + Sum(b)
    decreases |b|
  {
    if |b| == 0 {
      assert a + b == a;
    } else {
      var b' := b[..|b| - 1];
      assert (a + b)[..|a + b| - 1] == a + b';
      SumAppend(a, b');
    }
  }

  /** Entries that are all non-negative have a non-negative sum. */
  lemma {:induction false} SumNonNegative(s: seq<int>)
    requires forall i :: 0 <= i < |s| ==> s[i] >= 0
    ensures Sum(s) >= 0
    decreases |s|
  {
    if |s| > 0 {
      SumNonNegative(s[..|s| - 1]);
    }
  }

  /** `w`-long blocks concatenate to `|rows| * w` entries. */
  lemma {:induction false} ConcatLength(rows: seq<seq<int>>, w: nat)
    requires Uniform(rows, w)
    ensures |Concat(rows)| == |rows| * w
    decreases |rows|
  {
    if |rows| > 0 {
      ConcatLength(rows[..|rows| - 1], w);
    }
  }

  /** Entry `v` of block `i` sits at index `i * w + v` of the concatenation. */
  lemma {:induction false} ConcatIndex(rows: seq<seq<int>>, w: nat, i: nat, v: nat)
    requires Uniform(rows, w) && i < |rows| && v < w
    ensures i * w + v < |Concat(rows)| && Concat(rows)[i * w + v] == rows[i][v]
    decreases |rows|
  {
    var last := |rows| - 1;
    ConcatLength(rows[..last], w);
    ConcatLength(rows, w);
    assert Concat(rows) == Concat(rows[..last]) + rows[last];
    if i < last {
      ConcatIndex(rows[..last], w, i, v);
      BlockBefore(i, last, w);
      assert rows[..last][i] == rows[i];
    }
  }

  /** A whole block `i` fits before block `j > i`. */
  lemma {:induction false} BlockBefore(i: nat, j: nat, w: nat)
    requires i < j
    ensures i * w + w <= j * w
    decreases j - i
  {
    assert (i + 1) * w == i * w + w;
    if i + 1 < j {
      BlockBefore(i + 1, j, w);
    }
  }

  /** Summing a concatenation sums the block sums. */
  lemma {:induction false} SumConcat(rows: seq<seq<int>>)
    ensures Sum(Concat(rows)) == SumOfSums(rows)
    decreases |rows|
  {
    if |rows| > 0 {
      var last := |rows| - 1;
      SumConcat(rows[..last]);
      SumAppend(Concat(rows[..last]), rows[last]);
    }
  }

  /** Appending a block appends its entries. */
  lemma ConcatSnoc(rows: seq<seq<int>>, b: seq<int>)
    ensures Concat(rows + [b]) == Concat(rows) + b
    ensures SumOfSums(rows + [b]) == SumOfSums(rows) + Sum(b)
  {
    assert (rows + [b])[..|rows|] == rows;
  }

  /** Appending an entry adds it to the sum. */
  lemma SumSnoc(s: seq<int>, x: int)
    ensures Sum(s + [x]) == Sum(s) + x
  {
    assert (s + [x])[..|s|] == s;
  }

  /** Concatenation distributes over joining the lists of blocks. */
  lemma {:induction false} ConcatAppend(a: seq<seq<int>>, b: seq<seq<int>>)
    ensures Concat(a + b) == Concat(a) + Concat(b)
    decreases |b|
  {
    if |b| == 0 {
      assert a + b == a;
    } else {
      var b', last := b[..|b| - 1], b[|b| - 1];
      assert (a + b)[..|a + b| - 1] == a + b' && (a + b)[|a + b| - 1] == last;
      ConcatAppend(a, b');
      calc {
        Concat(a + b);
        Concat(a + b') + last;
        Concat(a) + Concat(b') + last;
        Concat(a) + (Concat(b') + last);
        Concat(a) + Concat(b);
      }
    }
  }

  /** Entry `k` of block `c` sits after the blocks before `c`. */
  lemma ConcatAt(rows: seq<seq<int>>, c: int, k: int)
    requires 0 <= c < |rows| && 0 <= k < |rows[c]|
    ensures |Concat(rows[..c])| + k < |Concat(rows)|
    ensures Concat(rows)[|Concat(rows[..c])| + k] == rows[c][k]
  {
    assert rows == rows[..c] + [rows[c]] + rows[c + 1..];
    ConcatAppend(rows[..c] + [rows[c]], rows[c + 1..]);
    ConcatSnoc(rows[..c], rows[c]);
  }

  /** A product of non-negative factors is non-negative. */
  lemma MulNonNegative(a: int, b: int)
    requires a >= 0 && b >= 0
    ensures a * b >= 0
  {
  }

  /** Reordering the entries does not change the sum. */
  lemma {:induction false} SumPermutation(a: seq<int>, b: seq<int>)
    requires multiset(a) == multiset(b)
    ensures Sum(a) == Sum(b)
    decreases |a|
  {
    if |a| == 0 {
      assert |b| == |multiset(b)| == 0;
    } else {
      assert a[|a| - 1] in multiset(b);
      var j :| 0 <= j < |b| && b[j] == a[|a| - 1];
      RemoveAt(a, |a| - 1);
      RemoveAt(b, j);
      SumPermutation(a[..|a| - 1] + a[|a|..], b[..j] + b[j + 1..]);
    }
  }

  /** Dropping entry `j` removes it from the multiset and from the sum. */
  lemma RemoveAt(b: seq<int>, j: int)
    requires 0 <= j < |b|
    ensures multiset(b[..j] + b[j + 1..]) == multiset(b) - multiset{b[j]}
    ensures Sum(b) == Sum(b[..j] + b[j + 1..]) + b[j]
  {
    Split(b, j);
    RemoveMiddle(b[..j], b[j], b[j + 1..]);
  }

  lemma Split(b: seq<int>, j: int)
    requires 0 <= j < |b|
    ensures b == b[..j] + [b[j]] + b[j + 1..]
  {
  }

  lemma RemoveMiddle(p: seq<int>, x: int, q: seq<int>)
    ensures multiset(p + q) == multiset(p + [x] + q) - multiset{x}
    ensures Sum(p + [x] + q) == Sum(p + q) + x
  {
    SumAppend(p + [x], q);
    SumAppend(p, q);
    SumSnoc(p, x);
    assert multiset(p + [x] + q) == multiset(p) + multiset{x} + multiset(q);
  }

  /** A non-empty finite set of integers has a least element. */
  lemma {:induction false} MinExists(keys: set<int>)
    requires keys != {}
    ensures exists k :: k in keys && forall j :: j in keys ==> k <= j
    decreases |keys|
  {
    assert exists x :: x in keys by {
      if forall x :: x !in keys {
        assert false;
      }
    }
    var x :| x in keys;
    if keys != {x} {
      MinExists(keys - {x});
      var m :| m in keys - {x} && forall j :: j in keys - {x} ==> m <= j;
      var least := if x < m then x else m;
      forall j | j in keys
        ensures least <= j
      {
        if j != x {
          assert j in keys - {x};
        }
      }
      assert least in keys;
    }
  }

  /** The least element of a non-empty finite set. */
  function MinKey(keys: set<int>): (k: int)
    requires keys != {}
    ensures k in keys && forall j :: j in keys ==> k <= j
  {
    MinExists(keys);
    var k :| k in keys && forall j :: j in keys ==> k <= j;
    k
  }

  /** The elements of `keys` in increasing order, as a `std::map` visits its keys. */
  function SortedSet(keys: set<int>): (s: seq<int>)
    decreases |keys|
  {
    if keys == {} then []
    else
      assert keys - {MinKey(keys)} < keys;
      [MinKey(keys)] + SortedSet(keys - {MinKey(keys)})
  }

  /** `SortedSet` lists each element exactly once, in strictly increasing order. */
  lemma {:induction false} SortedSetLists(keys: set<int>)
    ensures |SortedSet(keys)| == |keys|
    ensures forall k :: k in SortedSet(keys) <==> k in keys
    ensures forall i, j :: 0 <= i < j < |SortedSet(keys)| ==> SortedSet(keys)[i] < SortedSet(keys)[j]
    decreases |keys|
  {
    if keys != {} {
      assert keys - {MinKey(keys)} < keys;
      SortedSetLists(keys - {MinKey(keys)});
    }
  }
}

=== FILE: step_stub.dfy ===
/**
 * The adjacency-matrix version of the double-edge swap (`MCMC_step_stub`)
 * and the chain object that applies an accepted step to its graph
 * (`MCMC_class.step_and_get_graph`). Both MCMC source files carry the same
 * two definitions.
 *
 * The matrix counts each edge once in both of its cells and a loop twice
 * on the diagonal, which is how the chain object builds it from the graph.
 */
module StepStub {
  import opened Wrappers
  import opened SeqUtil
  import opened EdgeSwap
  import TrackedSwap

  /** An n-by-n integer matrix as a sequence of rows. */
  type Matrix = seq<seq<int>>

  predicate Square(a: Matrix, n: nat) {
    |a| == n && forall i :: 0 <= i < n ==> |a[i]| == n
  }

  predicate SymmetricMatrix(a: Matrix)
    requires Square(a, |a|)
  {
    forall i, j :: 0 <= i < |a| && 0 <= j < |a| ==> a[i][j] == a[j][i]
  }

  /** The sum of row `r`: the degree of node `r`. */
  function RowSum(a: Matrix, r: int): int
    requires 0 <= r < |a|
  {
    Sum(a[r])
  }

  /** `A[i, j] += delta`. */
  function Bump(a: Matrix, i: int, j: int, delta: int): (b: Matrix)
    requires Square(a, |a|) && 0 <= i < |a| && 0 <= j < |a|
    ensures Square(b, |a|)
  {
    a[i := a[i][j := a[i][j] + delta]]
  }

  /** `A[i, j] += delta; A[j, i] += delta`. */
  function BumpPair(a: Matrix, i: int, j: int, delta: int): (b: Matrix)
    requires Square(a, |a|) && 0 <= i < |a| && 0 <= j < |a|
    ensures Square(b, |a|)
  {
    Bump(Bump(a, i, j, delta), j, i, delta)
  }

  /** The eight updates of an accepted step, in source order. */
  function Rewire(a: Matrix, q: Quad): (b: Matrix)
    requires Square(a, |a|) && InRange(q, |a|)
    ensures Square(b, |a|)
  {
    BumpPair(BumpPair(BumpPair(BumpPair(a, q.u, q.v, -1), q.x, q.y, -1), q.u, q.x, 1), q.v, q.y, 1)
  }

  predicate InRange(q: Quad, n: int) {
    0 <= q.u < n && 0 <= q.v < n && 0 <= q.x < n && 0 <= q.y < n
  }

  /** Every listed node is a row of the matrix, as the source's docstring demands. */
  predicate Labelled(edges: seq<(int, int)>, n: int) {
    forall i :: 0 <= i < |edges| ==> 0 <= edges[i].0 < n && 0 <= edges[i].1 < n
  }

  /** What a step leaves behind: its verdict, the matrix, the edge list and `swaps`. */
  datatype Step = Step(accepted: bool, a: Matrix, edges: seq<(int, int)>, swaps: seq<int>)

  /** The step's rejection rules, each switched on by its flag. */
  predicate StubRejects(a: Matrix, q: Quad, allowLoops: bool, allowMulti: bool)
    requires Square(a, |a|) && InRange(q, |a|)
  {
    (!allowMulti && (a[q.u][q.x] >= 1 || a[q.v][q.y] >= 1))
    || (!allowMulti && q.u == q.v && q.x == q.y)
    || (!allowLoops && Shares(q))
  }

  /**
   * `MCMC_step_stub`: draw two positions and an orientation; unless the
   * rules reject it, move one unit of weight from cells {u,v} and {x,y} to
   * {u,x} and {v,y}, overwrite the two list positions and record the four
   * nodes in `swaps`. A rejection returns False and touches nothing.
   */
  function StepStub(a: Matrix, edges: seq<(int, int)>, swaps: seq<int>, allowLoops: bool, allowMulti: bool,
                    d: SwapDraw): (r: Result<Step, Fault>)
    requires Square(a, |a|) && Labelled(edges, |a|) && |swaps| == 4 && DrawFits(|edges|, d)
    ensures r.Failure? <==> |edges| < 2
    ensures r.Success? && !r.value.accepted ==> r.value.a == a && r.value.edges == edges && r.value.swaps == swaps
    ensures r.Success? ==> Square(r.value.a, |a|) && Labelled(r.value.edges, |a|) && |r.value.swaps| == 4
  {
    var ix := Indices(|edges|, d);
    if ix.Failure? then Failure(ix.error)
    else
      var (p1, p2) := ix.value;
      var q := Proposal(edges, p1, p2, d.keep);
      if StubRejects(a, q, allowLoops, allowMulti) then Success(Step(false, a, edges, swaps))
      else Success(Step(true, Rewire(a, q), Relisted(edges, p1, p2, q), [q.u, q.v, q.x, q.y]))
  }

  /*
   * What an accepted step keeps
   */

  /** Overwriting one entry trades it for the new value in the sum. */
  lemma {:induction false} SumUpdate(s: seq<int>, j: int, v: int)
    requires 0 <= j < |s|
    ensures Sum(s[j := v]) == Sum(s) - s[j] + v
    decreases |s|
  {
    var last := |s| - 1;
    if j == last {
      assert s[j := v][..last] == s[..last];
    } else {
      assert s[j := v][..last] == s[..last][j := v];
      SumUpdate(s[..last], j, v);
    }
  }

  lemma BumpRowSum(a: Matrix, i: int, j: int, delta: int, r: int)
    requires Square(a, |a|) && 0 <= i < |a| && 0 <= j < |a| && 0 <= r < |a|
    ensures RowSum(Bump(a, i, j, delta), r) == RowSum(a, r) + (if r == i then delta else 0)
  {
    if r == i {
      SumUpdate(a[i], j, a[i][j] + delta);
    }
  }

  lemma BumpPairRowSum(a: Matrix, i: int, j: int, delta: int, r: int)
    requires Square(a, |a|) && 0 <= i < |a| && 0 <= j < |a| && 0 <= r < |a|
    ensures RowSum(BumpPair(a, i, j, delta), r)
         == RowSum(a, r) + (if r == i then delta else 0) + (if r == j then delta else 0)
  {
    BumpRowSum(a, i, j, delta, r);
    BumpRowSum(Bump(a, i, j, delta), j, i, delta, r);
  }

  /** The eight updates leave every row sum, so every degree, as it was. */
  lemma RewireRowSums(a: Matrix, q: Quad, r: int)
    requires Square(a, |a|) && InRange(q, |a|) && 0 <= r < |a|
    ensures RowSum(Rewire(a, q), r) == RowSum(a, r)
  {
    var a1 := BumpPair(a, q.u, q.v, -1);
    var a2 := BumpPair(a1, q.x, q.y, -1);
    var a3 := BumpPair(a2, q.u, q.x, 1);
    BumpPairRowSum(a, q.u, q.v, -1, r);
    BumpPairRowSum(a1, q.x, q.y, -1, r);
    BumpPairRowSum(a2, q.u, q.x, 1, r);
    BumpPairRowSum(a3, q.v, q.y, 1, r);
  }

  /** How many of the two updates of `BumpPair(_, a, b, _)` land on cell (i, j). */
  function Hits(i: int, j: int, a: int, b: int): nat {
    (if i == a && j == b then 1 else 0) + (if i == b && j == a then 1 else 0)
  }

  lemma BumpPairCell(m: Matrix, a: int, b: int, delta: int, i: int, j: int)
    requires Square(m, |m|) && 0 <= a < |m| && 0 <= b < |m| && 0 <= i < |m| && 0 <= j < |m|
    ensures BumpPair(m, a, b, delta)[i][j] == m[i][j] + delta * Hits(i, j, a, b)
  {
  }

  /** Each cell of the rewired matrix moves by the updates that land on it. */
  lemma RewireCell(m: Matrix, q: Quad, i: int, j: int)
    requires Square(m, |m|) && InRange(q, |m|) && 0 <= i < |m| && 0 <= j < |m|
    ensures Rewire(m, q)[i][j]
         == m[i][j] - Hits(i, j, q.u, q.v) - Hits(i, j, q.x, q.y) + Hits(i, j, q.u, q.x) + Hits(i, j, q.v, q.y)
  {
    var m1 := BumpPair(m, q.u, q.v, -1);
    var m2 := BumpPair(m1, q.x, q.y, -1);
    var m3 := BumpPair(m2, q.u, q.x, 1);
    BumpPairCell(m, q.u, q.v, -1, i, j);
    BumpPairCell(m1, q.x, q.y, -1, i, j);
    BumpPairCell(m2, q.u, q.x, 1, i, j);
    BumpPairCell(m3, q.v, q.y, 1, i, j);
  }

  /** The updates come in transposed pairs, so a symmetric matrix stays symmetric. */
  lemma RewireSymmetric(m: Matrix, q: Quad)
    requires Square(m, |m|) && InRange(q, |m|) && SymmetricMatrix(m)
    ensures SymmetricMatrix(Rewire(m, q))
  {
    forall i, j | 0 <= i < |m| && 0 <= j < |m|
      ensures Rewire(m, q)[i][j] == Rewire(m, q)[j][i]
    {
      RewireCell(m, q, i, j);
      RewireCell(m, q, j, i);
    }
  }

  /** An accepted step keeps the matrix symmetric and every row sum unchanged. */
  lemma StepKeepsMatrix(a: Matrix, edges: seq<(int, int)>, swaps: seq<int>, allowLoops: bool, allowMulti: bool,
                        d: SwapDraw, r: int)
    requires Square(a, |a|) && Labelled(edges, |a|) && |swaps| == 4 && DrawFits(|edges|, d)
    requires StepStub(a, edges, swaps, allowLoops, allowMulti, d).Success? && 0 <= r < |a|
    ensures SymmetricMatrix(a) ==> SymmetricMatrix(StepStub(a, edges, swaps, allowLoops, allowMulti, d).value.a)
    ensures RowSum(StepStub(a, edges, swaps, allowLoops, allowMulti, d).value.a, r) == RowSum(a, r)
  {
    var (p1, p2) := Indices(|edges|, d).value;
    var q := Proposal(edges, p1, p2, d.keep);
    if !StubRejects(a, q, allowLoops, allowMulti) {
      RewireRowSums(a, q, r);
      if SymmetricMatrix(a) {
        RewireSymmetric(a, q);
      }
    }
  }

  /**
   * An accepted step records the four nodes it rewired: the two drawn
   * positions now hold the edges (swaps[0], swaps[2]) and (swaps[1], swaps[3]),
   * and the rest of the list is as before.
   */
  lemma StepRecordsNodes(a: Matrix, edges: seq<(int, int)>, swaps: seq<int>, allowLoops: bool, allowMulti: bool,
                         d: SwapDraw)
    requires Square(a, |a|) && Labelled(edges, |a|) && |swaps| == 4 && DrawFits(|edges|, d)
    requires StepStub(a, edges, swaps, allowLoops, allowMulti, d).Success?
    ensures var s := StepStub(a, edges, swaps, allowLoops, allowMulti, d).value;
            var (p1, p2) := Indices(|edges|, d).value;
            s.accepted ==>
              && s.edges[p1] == (s.swaps[0], s.swaps[2]) && s.edges[p2] == (s.swaps[1], s.swaps[3])
              && forall k :: 0 <= k < |edges| && k != p1 && k != p2 ==> s.edges[k] == edges[k]
  {
    var (p1, p2) := Indices(|edges|, d).value;
    assert p1 != p2;
  }

  /*
   * The chain object
   */

  /** `MCMC_class`'s state: the graph, the matrix, the edge list, `swaps` and the two flags. */
  datatype Chain = Chain(g: Graph, a: Matrix, edges: seq<(int, int)>, swaps: seq<int>, allowLoops: bool, allowMulti: bool)

  predicate ChainShape(c: Chain) {
    Square(c.a, |c.a|) && Labelled(c.edges, |c.a|) && |c.swaps| == 4
  }

  /**
   * `step_and_get_graph`: run the step and, when it accepts, add {u,x} and
   * {v,y} to the graph and then remove {u,v} and {x,y}; networkx raises
   * NetworkXError when asked to remove an edge that is not there.
   */
  function StepAndGetGraph(c: Chain, d: SwapDraw): (r: Result<Chain, Fault>)
    requires ChainShape(c) && DrawFits(|c.edges|, d)
    ensures r.Success? ==> ChainShape(r.value) && |r.value.a| == |c.a| && |r.value.edges| == |c.edges|
    ensures r.Success? ==> r.value.allowLoops == c.allowLoops && r.value.allowMulti == c.allowMulti
    ensures r.Success? && r.value.g != c.g ==>
      var step := StepStub(c.a, c.edges, c.swaps, c.allowLoops, c.allowMulti, d); step.Success? && step.value.accepted
  {
    var step := StepStub(c.a, c.edges, c.swaps, c.allowLoops, c.allowMulti, d);
    if step.Failure? then Failure(step.error)
    else if !step.value.accepted then Success(Chain(c.g, step.value.a, step.value.edges, step.value.swaps, c.allowLoops, c.allowMulti))
    else
      var s := step.value.swaps;
      var (u, v, x, y) := (s[0], s[1], s[2], s[3]);
      var added := c.g + {E(u, x)} + {E(v, y)};
      if E(u, v) !in added then Failure(NetworkXError)
      else if E(x, y) !in added - {E(u, v)} then Failure(NetworkXError)
      else Success(Chain(added - {E(u, v)} - {E(x, y)}, step.value.a, step.value.edges, s, c.allowLoops, c.allowMulti))
  }

  /*
   * The matrix and the uniform swap agree
   */

  /** The weight the matrix gives cell (i, j) for the graph `g`: a loop counts twice. */
  function Weight(g: Graph, i: int, j: int): nat {
    if E(i, j) in g then (if i == j then 2 else 1) else 0
  }

  /** The matrix is the graph's adjacency matrix. */
  ghost predicate Matches(a: Matrix, g: Graph) {
    Square(a, |a|)
    && (forall e :: e in g ==> 0 <= e.lo < |a| && 0 <= e.hi < |a|)
    && (forall i, j :: 0 <= i < |a| && 0 <= j < |a| ==> a[i][j] == Weight(g, i, j))
  }

  /** A list that mirrors a graph on the matrix's nodes only names those nodes. */
  lemma MirrorLabelled(a: Matrix, g: Graph, edges: seq<(int, int)>)
    requires Matches(a, g) && Mirror(g, edges)
    ensures Labelled(edges, |a|)
  {
    forall i | 0 <= i < |edges|
      ensures 0 <= edges[i].0 < |a| && 0 <= edges[i].1 < |a|
    {
      assert Key(edges, i) in g;
    }
  }

  /** For a graph edge, the updates of `BumpPair` on a cell are that edge's weight there. */
  lemma HitsAreWeight(a: int, b: int, i: int, j: int)
    ensures Hits(i, j, a, b) == (if E(i, j) == E(a, b) then (if i == j then 2 else 1) else 0)
  {
  }

  /** Membership in the rewired graph, edge by edge. */
  lemma RewiredMember(g: Graph, q: Quad, e: UEdge)
    requires E(q.u, q.v) in g && E(q.x, q.y) in g && E(q.u, q.v) != E(q.x, q.y)
    requires E(q.u, q.x) !in g && E(q.v, q.y) !in g && E(q.u, q.x) != E(q.v, q.y)
    ensures (if e in Rewired(g, q) then 1 else 0)
         == (if e in g then 1 else 0) - (if e == E(q.u, q.v) then 1 else 0) - (if e == E(q.x, q.y) then 1 else 0)
            + (if e == E(q.u, q.x) then 1 else 0) + (if e == E(q.v, q.y) then 1 else 0)
  {
  }

  lemma RewireMatchesCell(a: Matrix, g: Graph, q: Quad, i: int, j: int)
    requires Matches(a, g) && InRange(q, |a|) && 0 <= i < |a| && 0 <= j < |a|
    requires E(q.u, q.v) in g && E(q.x, q.y) in g && E(q.u, q.v) != E(q.x, q.y)
    requires E(q.u, q.x) !in g && E(q.v, q.y) !in g && E(q.u, q.x) != E(q.v, q.y)
    ensures Rewire(a, q)[i][j] == Weight(Rewired(g, q), i, j)
  {
    RewireCell(a, q, i, j);
    HitsAreWeight(q.u, q.v, i, j);
    HitsAreWeight(q.x, q.y, i, j);
    HitsAreWeight(q.u, q.x, i, j);
    HitsAreWeight(q.v, q.y, i, j);
    RewiredMember(g, q, E(i, j));
    assert a[i][j] == Weight(g, i, j);
  }

  /** Moving the weight of two removed edges onto two added ones rewires the adjacency matrix. */
  lemma RewireMatches(a: Matrix, g: Graph, q: Quad)
    requires Matches(a, g) && InRange(q, |a|)
    requires E(q.u, q.v) in g && E(q.x, q.y) in g && E(q.u, q.v) != E(q.x, q.y)
    requires E(q.u, q.x) !in g && E(q.v, q.y) !in g && E(q.u, q.x) != E(q.v, q.y)
    ensures Matches(Rewire(a, q), Rewired(g, q))
  {
    forall i, j | 0 <= i < |a| && 0 <= j < |a|
      ensures Rewire(a, q)[i][j] == Weight(Rewired(g, q), i, j)
    {
      RewireMatchesCell(a, g, q, i, j);
    }
  }

  /**
   * With loops and multi-edges both disallowed, and a matrix that is the
   * graph's adjacency matrix, one `step_and_get_graph` and one
   * configuration-model `_swap` with the same draws accept together and
   * leave the same graph and the same edge list; the matrix stays the
   * graph's adjacency matrix.
   */
  lemma ChainAgreesWithSwap(c: Chain, d: SwapDraw)
    requires ChainShape(c) && DrawFits(|c.edges|, d) && !c.allowLoops && !c.allowMulti
    requires Matches(c.a, c.g) && Mirror(c.g, c.edges) && |c.edges| >= 2
    ensures StepAndGetGraph(c, d).Success? && Swap(State(c.g, c.edges), d).Success?
    ensures StepAndGetGraph(c, d).value.g == Swap(State(c.g, c.edges), d).value.g
    ensures StepAndGetGraph(c, d).value.edges == Swap(State(c.g, c.edges), d).value.edges
    ensures Matches(StepAndGetGraph(c, d).value.a, StepAndGetGraph(c, d).value.g)
  {
    var (p1, p2) := Indices(|c.edges|, d).value;
    var q := Proposal(c.edges, p1, p2, d.keep);
    assert Key(c.edges, p1) == E(q.u, q.v) && Key(c.edges, p2) == E(q.x, q.y);
    assert Key(c.edges, p1) in c.g && Key(c.edges, p2) in c.g;
    assert c.a[q.u][q.x] == Weight(c.g, q.u, q.x) && c.a[q.v][q.y] == Weight(c.g, q.v, q.y);
    assert StubRejects(c.a, q, false, false) <==> Rejected(c.g, q);
    if Rejected(c.g, q) {
      RejectedAgrees(c, d, p1, p2, q);
    } else {
      AcceptedAgrees(c, d, p1, p2, q);
    }
  }

  /** A proposal both sides reject leaves both the chain and the swap state as they were. */
  lemma RejectedAgrees(c: Chain, d: SwapDraw, p1: int, p2: int, q: Quad)
    requires ChainShape(c) && DrawFits(|c.edges|, d) && !c.allowLoops && !c.allowMulti
    requires Matches(c.a, c.g) && |c.edges| >= 2
    requires Indices(|c.edges|, d) == Success((p1, p2)) && q == Proposal(c.edges, p1, p2, d.keep)
    requires InRange(q, |c.a|) && StubRejects(c.a, q, false, false) && Rejected(c.g, q)
    ensures StepAndGetGraph(c, d) == Success(c) && Swap(State(c.g, c.edges), d) == Success(State(c.g, c.edges))
  {
  }

  /** A proposal both sides accept rewires the graph, the list and the matrix alike. */
  lemma AcceptedAgrees(c: Chain, d: SwapDraw, p1: int, p2: int, q: Quad)
    requires ChainShape(c) && DrawFits(|c.edges|, d) && !c.allowLoops && !c.allowMulti
    requires Matches(c.a, c.g) && Mirror(c.g, c.edges) && |c.edges| >= 2
    requires Indices(|c.edges|, d) == Success((p1, p2)) && q == Proposal(c.edges, p1, p2, d.keep)
    requires E(q.u, q.v) in c.g && E(q.x, q.y) in c.g
    requires InRange(q, |c.a|) && !StubRejects(c.a, q, false, false) && !Rejected(c.g, q)
    ensures StepAndGetGraph(c, d).Success? && Swap(State(c.g, c.edges), d).Success?
    ensures StepAndGetGraph(c, d).value.g == Rewired(c.g, q) == Swap(State(c.g, c.edges), d).value.g
    ensures StepAndGetGraph(c, d).value.edges == Swap(State(c.g, c.edges), d).value.edges
    ensures Matches(StepAndGetGraph(c, d).value.a, StepAndGetGraph(c, d).value.g)
  {
    assert E(q.u, q.v) != E(q.x, q.y);
    RewireMatches(c.a, c.g, q);
    StubAccepts(c.a, c.edges, c.swaps, d, p1, p2, q);
    SwapAccepts(State(c.g, c.edges), d, p1, p2, q);
    ChainAccepts(c, d, Rewire(c.a, q), Relisted(c.edges, p1, p2, q), q);
  }

  /**
   * When the step accepts, `step_and_get_graph` finds both old edges to
   * remove, and adding the new ones first and then removing the old ones is
   * the rewired graph.
   */
  lemma ChainAccepts(c: Chain, d: SwapDraw, a: Matrix, edges: seq<(int, int)>, q: Quad)
    requires ChainShape(c) && DrawFits(|c.edges|, d)
    requires StepStub(c.a, c.edges, c.swaps, c.allowLoops, c.allowMulti, d)
          == Success(Step(true, a, edges, [q.u, q.v, q.x, q.y]))
    requires E(q.u, q.v) in c.g && E(q.x, q.y) in c.g && E(q.u, q.v) != E(q.x, q.y)
    requires E(q.u, q.x) !in c.g && E(q.v, q.y) !in c.g
    ensures StepAndGetGraph(c, d)
         == Success(Chain(Rewired(c.g, q), a, edges, [q.u, q.v, q.x, q.y], c.allowLoops, c.allowMulti))
  {
    assert c.g + {E(q.u, q.x)} + {E(q.v, q.y)} - {E(q.u, q.v)} - {E(q.x, q.y)} == Rewired(c.g, q);
  }

  /** An accepted proposal: the step rewires the matrix and the list and records the four nodes. */
  lemma StubAccepts(a: Matrix, edges: seq<(int, int)>, swaps: seq<int>, d: SwapDraw, p1: int, p2: int, q: Quad)
    requires Square(a, |a|) && Labelled(edges, |a|) && |swaps| == 4 && DrawFits(|edges|, d)
    requires Indices(|edges|, d) == Success((p1, p2)) && q == Proposal(edges, p1, p2, d.keep)
    requires InRange(q, |a|) && !StubRejects(a, q, false, false)
    ensures StepStub(a, edges, swaps, false, false, d)
         == Success(Step(true, Rewire(a, q), Relisted(edges, p1, p2, q), [q.u, q.v, q.x, q.y]))
  {
  }

  /** An accepted proposal: the swap rewires the graph and the list. */
  lemma SwapAccepts(s: State, d: SwapDraw, p1: int, p2: int, q: Quad)
    requires DrawFits(|s.edges|, d)
    requires Indices(|s.edges|, d) == Success((p1, p2)) && q == Proposal(s.edges, p1, p2, d.keep)
    requires !Rejected(s.g, q)
    ensures Swap(s, d) == Success(State(Rewired(s.g, q), Relisted(s.edges, p1, p2, q)))
  {
  }

  /*
   * Whole runs
   */

  /** `get_new_sample` with the plain swap probability 1: one tracked `_swap` per draw. */
  function RunTracked(t: TrackedSwap.Tracked, draws: seq<SwapDraw>): Result<TrackedSwap.Tracked, Fault>
    requires forall k :: 0 <= k < |draws| ==> DrawFits(|t.edges|, draws[k])
    decreases |draws|
  {
    if |draws| == 0 then Success(t)
    else
      var next := TrackedSwap.UniformSwap(t, draws[0]);
      if next.Failure? then next
      else RunTracked(next.value, draws[1..])
  }

  /** Repeated `step_and_get_graph`, one per draw. */
  function RunChain(c: Chain, draws: seq<SwapDraw>): Result<Chain, Fault>
    requires ChainShape(c) && forall k :: 0 <= k < |draws| ==> DrawFits(|c.edges|, draws[k])
    decreases |draws|
  {
    if |draws| == 0 then Success(c)
    else
      var next := StepAndGetGraph(c, draws[0]);
      if next.Failure? then next
      else RunChain(next.value, draws[1..])
  }

  /**
   * The equality the samplers' test relies on: seeded alike, the chain
   * object and the degree-preserving sampler with swap probability 1 end
   * with the same graph and the same edge list after any number of steps.
   */
  lemma {:induction false} RunsAgree(c: Chain, t: TrackedSwap.Tracked, draws: seq<SwapDraw>)
    requires ChainShape(c) && !c.allowLoops && !c.allowMulti && |c.edges| >= 2
    requires forall k :: 0 <= k < |draws| ==> DrawFits(|c.edges|, draws[k])
    requires TrackedSwap.Consistent(t) && Matches(c.a, c.g) && c.g == t.g && c.edges == t.edges
    ensures RunChain(c, draws).Success? && RunTracked(t, draws).Success?
    ensures RunChain(c, draws).value.g == RunTracked(t, draws).value.g
    ensures RunChain(c, draws).value.edges == RunTracked(t, draws).value.edges
    decreases |draws|
  {
    if |draws| > 0 {
      var c', t' := StepsAgree(c, t, draws[0]);
      assert forall k :: 0 <= k < |draws[1..]| ==> draws[1..][k] == draws[k + 1];
      RunsAgree(c', t', draws[1..]);
    }
  }

  /** One draw takes agreeing chain and tracked states to agreeing states. */
  lemma StepsAgree(c: Chain, t: TrackedSwap.Tracked, d: SwapDraw) returns (c': Chain, t': TrackedSwap.Tracked)
    requires ChainShape(c) && !c.allowLoops && !c.allowMulti && |c.edges| >= 2 && DrawFits(|c.edges|, d)
    requires TrackedSwap.Consistent(t) && Matches(c.a, c.g) && c.g == t.g && c.edges == t.edges
    ensures StepAndGetGraph(c, d) == Success(c') && TrackedSwap.UniformSwap(t, d) == Success(t')
    ensures ChainShape(c') && !c'.allowLoops && !c'.allowMulti && |c'.edges| == |c.edges| == |t'.edges|
    ensures TrackedSwap.Consistent(t') && Matches(c'.a, c'.g) && c'.g == t'.g && c'.edges == t'.edges
  {
    ChainAgreesWithSwap(c, d);
    TrackedSwap.UniformSwapAgrees(t, d);
    c' := StepAndGetGraph(c, d).value;
    t' := TrackedSwap.UniformSwap(t, d).value;
  }
}

=== FILE: subgraphs.dfy ===
/**
 * How reachability behaves when edges are removed or nodes are set aside:
 * the facts that let a depth-first search over "the unvisited part" of a
 * graph be read as a search of the whole graph.
 */
module Subgraphs {
  import opened Reach

  /** Every edge of `g` is an edge of `h`, on the same nodes. */
  ghost predicate SubgraphOf(g: Adj, h: Adj) {
    |g| == |h| && forall u, v :: 0 <= u < |g| && v in g[u] ==> v in h[u]
  }

  /** No edge leaves `S`. */
  ghost predicate EdgeClosed(g: Adj, S: set<int>) {
    forall u, v :: u in S && 0 <= u < |g| && v in g[u] && 0 <= v < |g| ==> v in S
  }

  /** `g` and `h` list the same neighbours at every node of `U`. */
  ghost predicate AgreeOn(g: Adj, h: Adj, U: set<int>) {
    |g| == |h| && forall u :: u in U && 0 <= u < |g| ==> g[u] == h[u]
  }

  /** The nodes reachable from `s`. */
  ghost function Class(g: Adj, s: int): (c: set<int>)
    ensures forall v :: v in c <==> 0 <= v < |g| && Reachable(g, s, v)
  {
    set v | 0 <= v < |g| && Reachable(g, s, v)
  }

  lemma SuccSubgraph(g: Adj, h: Adj, S: set<int>, T: set<int>)
    requires SubgraphOf(g, h) && S <= T
    ensures Succ(g, S) <= Succ(h, T)
  {
    forall v | v in Succ(g, S)
      ensures v in Succ(h, T)
    {
      var u := SuccWitness(g, S, v);
      SuccMember(h, T, u, v);
    }
  }

  lemma SuccAgree(g: Adj, h: Adj, U: set<int>, S: set<int>, T: set<int>)
    requires AgreeOn(g, h, U) && S <= U && S <= T
    ensures Succ(g, S) <= Succ(h, T)
  {
    forall v | v in Succ(g, S)
      ensures v in Succ(h, T)
    {
      var u := SuccWitness(g, S, v);
      SuccMember(h, T, u, v);
    }
  }

  /** Removing edges can only shrink a ball. */
  lemma {:induction false} BallSubgraph(g: Adj, h: Adj, s: int, k: nat)
    requires SubgraphOf(g, h)
    ensures Ball(g, s, k) <= Ball(h, s, k)
    decreases k
  {
    if k > 0 {
      BallSubgraph(g, h, s, k - 1);
      SuccSubgraph(g, h, Ball(g, s, k - 1), Ball(h, s, k - 1));
    }
  }

  /** What a subgraph reaches, the graph reaches. */
  lemma ReachSubgraph(g: Adj, h: Adj, s: int, v: int)
    requires SubgraphOf(g, h) && Reachable(g, s, v)
    ensures Reachable(h, s, v)
  {
    var k: nat :| v in Ball(g, s, k);
    BallSubgraph(g, h, s, k);
  }

  /** A ball that stays inside `U` is the same in any graph that agrees with `g` on `U`. */
  lemma {:induction false} BallAgree(g: Adj, h: Adj, U: set<int>, s: int, k: nat)
    requires AgreeOn(g, h, U) && Ball(g, s, k) <= U
    ensures Ball(g, s, k) <= Ball(h, s, k)
    decreases k
  {
    if k > 0 {
      var G, H := Ball(g, s, k - 1), Ball(h, s, k - 1);
      BallMono(g, s, k - 1, k);
      BallAgree(g, h, U, s, k - 1);
      SuccAgree(g, h, U, G, H);
      assert Ball(g, s, k) == G + Succ(g, G);
      assert Ball(h, s, k) == H + Succ(h, H);
    }
  }

  /** Starting in a closed set `U` on which `g` and `h` agree, `h` reaches all `g` reaches. */
  lemma ReachAgree(g: Adj, h: Adj, U: set<int>, s: int, v: int)
    requires AgreeOn(g, h, U) && EdgeClosed(g, U) && s in U && Reachable(g, s, v)
    ensures Reachable(h, s, v)
  {
    var k: nat :| v in Ball(g, s, k);
    ClosedContainsBalls(g, s, U, k);
    BallAgree(g, h, U, s, k);
  }

  /** In an undirected graph, the nodes outside a closed set form a closed set too. */
  lemma ComplementClosed(g: Adj, S: set<int>)
    requires Symmetric(g) && EdgeClosed(g, S)
    ensures EdgeClosed(g, Range(|g|) - S)
  {
  }

  /** The union of two closed sets is closed. */
  lemma UnionClosed(g: Adj, S: set<int>, T: set<int>)
    requires EdgeClosed(g, S) && EdgeClosed(g, T)
    ensures EdgeClosed(g, S + T)
  {
  }

  /** The class of `s` is closed: one more hop from a reachable node is still reachable. */
  lemma ClassClosed(g: Adj, s: int)
    ensures EdgeClosed(g, Class(g, s))
  {
    forall u, v | u in Class(g, s) && 0 <= u < |g| && v in g[u] && 0 <= v < |g|
      ensures v in Class(g, s)
    {
      var k: nat :| u in Ball(g, s, k);
      BallStep(g, s, k, u, v);
    }
  }

  /** Reachability is transitive. */
  lemma ReachTrans(g: Adj, a: int, b: int, c: int)
    requires Reachable(g, a, b) && Reachable(g, b, c)
    ensures Reachable(g, a, c)
  {
    var j: nat :| b in Ball(g, a, j);
    var k: nat :| c in Ball(g, b, k);
    BallCompose(g, a, b, c, j, k);
  }

  /** In an undirected graph reachability is symmetric. */
  lemma ReachSymmetric(g: Adj, a: int, b: int)
    requires Symmetric(g) && 0 <= a < |g| && Reachable(g, a, b)
    ensures Reachable(g, b, a)
  {
    var k: nat :| b in Ball(g, a, k);
    BallSymmetric(g, a, b, k);
  }

  /** A node reaches itself. */
  lemma ReachSelf(g: Adj, s: int)
    ensures Reachable(g, s, s)
  {
    assert s in Ball(g, s, 0);
  }

  /** In an undirected graph any two members of a class reach each other. */
  lemma ClassMembers(g: Adj, root: int, u: int, v: int)
    requires Symmetric(g) && 0 <= root < |g| && u in Class(g, root) && v in Class(g, root)
    ensures Reachable(g, u, v)
  {
    ReachSymmetric(g, root, u);
    ReachTrans(g, u, root, v);
  }

  /** A walk that starts in a closed set stays in it. */
  lemma {:induction false} WalkStaysIn(g: Adj, S: set<int>, w: seq<int>, i: int)
    requires IsWalk(g, w) && EdgeClosed(g, S) && w[0] in S && 0 <= i < |w|
    ensures w[i] in S
    decreases i
  {
    if i > 0 {
      WalkStaysIn(g, S, w, i - 1);
    }
  }
}

=== FILE: tracked_swap.dfy ===
/**
 * The double-edge swap of the degree-preserving sampler, which besides the
 * graph and its edge list keeps a dictionary from each unordered edge to its
 * list position. Two proposals exist: the uniform one, which draws two list
 * positions, and the "local" one, which picks each edge by a random node
 * with neighbours and that node's neighbour of most different degree, and
 * finds the positions through the dictionary.
 */
module TrackedSwap {
  import opened Wrappers
  import opened EdgeSwap

  /** The sampler's graph, `_edges` and `_edges_dict`. */
  datatype Tracked = Tracked(g: Graph, edges: seq<(int, int)>, index: map<UEdge, int>)

  /** `_edges_dict` is the inverse of `_edges`: each listed edge maps to its position. */
  ghost predicate Indexed(edges: seq<(int, int)>, index: map<UEdge, int>) {
    (forall i :: 0 <= i < |edges| ==> Key(edges, i) in index && index[Key(edges, i)] == i)
    && (forall e :: e in index ==> 0 <= index[e] < |edges| && Key(edges, index[e]) == e)
  }

  /** The three structures agree. */
  ghost predicate Consistent(t: Tracked) {
    Mirror(t.g, t.edges) && Indexed(t.edges, t.index)
  }

  /** The dictionary of a consistent state has exactly the graph's edges as keys. */
  lemma IndexKeysAreEdges(t: Tracked)
    requires Consistent(t)
    ensures t.index.Keys == t.g
  {
    forall e | e in t.g
      ensures e in t.index
    {
      var i :| 0 <= i < |t.edges| && Key(t.edges, i) == e;
    }
  }

  /**
   * The accepted branch: pop {u,v} and {x,y} from the dictionary (a missing
   * key raises KeyError), overwrite positions `p1` and `p2` of the list,
   * rewire the graph and record the new edges' positions.
   */
  function Install(t: Tracked, p1: int, p2: int, q: Quad): (r: Result<Tracked, Fault>)
    requires 0 <= p1 < |t.edges| && 0 <= p2 < |t.edges|
    ensures r.Failure? <==> E(q.u, q.v) !in t.index || E(q.x, q.y) !in t.index - {E(q.u, q.v)}
    ensures r.Failure? ==> r.error == KeyError
  {
    if E(q.u, q.v) !in t.index then Failure(KeyError)
    else
      var popped := t.index - {E(q.u, q.v)};
      if E(q.x, q.y) !in popped then Failure(KeyError)
      else
        var index' := (popped - {E(q.x, q.y)})[E(q.u, q.x) := p1][E(q.v, q.y) := p2];
        Success(Tracked(Rewired(t.g, q), Relisted(t.edges, p1, p2, q), index'))
  }

  /** In a consistent state the accepted branch cannot fail and stays consistent. */
  lemma InstallConsistent(t: Tracked, p1: int, p2: int, q: Quad)
    requires Consistent(t) && 0 <= p1 < |t.edges| && 0 <= p2 < |t.edges| && p1 != p2
    requires Key(t.edges, p1) == E(q.u, q.v) && Key(t.edges, p2) == E(q.x, q.y) && !Rejected(t.g, q)
    ensures Install(t, p1, p2, q).Success?
    ensures Install(t, p1, p2, q).value.g == Rewired(t.g, q)
    ensures Install(t, p1, p2, q).value.edges == Relisted(t.edges, p1, p2, q)
    ensures Consistent(Install(t, p1, p2, q).value)
  {
    assert E(q.u, q.v) != E(q.x, q.y);
    MirrorRewired(t.g, t.edges, p1, p2, q);
    IndexedRewired(t, p1, p2, q);
  }

  lemma IndexedRewired(t: Tracked, p1: int, p2: int, q: Quad)
    requires Consistent(t) && 0 <= p1 < |t.edges| && 0 <= p2 < |t.edges| && p1 != p2
    requires Key(t.edges, p1) == E(q.u, q.v) && Key(t.edges, p2) == E(q.x, q.y) && !Rejected(t.g, q)
    ensures Install(t, p1, p2, q).Success?
    ensures Indexed(Install(t, p1, p2, q).value.edges, Install(t, p1, p2, q).value.index)
  {
    var edges' := Relisted(t.edges, p1, p2, q);
    var index' := (t.index - {E(q.u, q.v)} - {E(q.x, q.y)})[E(q.u, q.x) := p1][E(q.v, q.y) := p2];
    assert E(q.u, q.x) != E(q.v, q.y);
    forall i | 0 <= i < |edges'|
      ensures Key(edges', i) in index' && index'[Key(edges', i)] == i
    {
      Untouched(t.edges, p1, p2, q, i);
      if i != p1 && i != p2 {
        assert Key(t.edges, i) in t.g;
      }
    }
    forall e | e in index'
      ensures 0 <= index'[e] < |edges'| && Key(edges', index'[e]) == e
    {
      if e != E(q.u, q.x) && e != E(q.v, q.y) {
        Untouched(t.edges, p1, p2, q, t.index[e]);
      } else {
        Untouched(t.edges, p1, p2, q, p1);
      }
    }
  }

  /**
   * `_swap` of the degree-preserving sampler: the uniform proposal, with
   * the dictionary kept in step. Its effect on the graph and the list is the
   * configuration-model `_swap`.
   */
  function UniformSwap(t: Tracked, d: SwapDraw): (r: Result<Tracked, Fault>)
    requires DrawFits(|t.edges|, d)
    ensures |t.edges| < 2 ==> r == Failure(ValueError)
    ensures r.Success? ==> |r.value.edges| == |t.edges|
  {
    var ix := Indices(|t.edges|, d);
    if ix.Failure? then Failure(ix.error)
    else
      var (p1, p2) := ix.value;
      var q := Proposal(t.edges, p1, p2, d.keep);
      if Rejected(t.g, q) then Success(t) else Install(t, p1, p2, q)
  }

  /**
   * On a consistent state the uniform proposal does what the configuration
   * model's `_swap` does to the graph and the list, and keeps the
   * dictionary the inverse of the list.
   */
  lemma UniformSwapAgrees(t: Tracked, d: SwapDraw)
    requires DrawFits(|t.edges|, d) && Consistent(t) && |t.edges| >= 2
    ensures UniformSwap(t, d).Success? && Swap(State(t.g, t.edges), d).Success?
    ensures UniformSwap(t, d).value.g == Swap(State(t.g, t.edges), d).value.g
    ensures UniformSwap(t, d).value.edges == Swap(State(t.g, t.edges), d).value.edges
    ensures Consistent(UniformSwap(t, d).value)
  {
    var (p1, p2) := Indices(|t.edges|, d).value;
    var q := Proposal(t.edges, p1, p2, d.keep);
    if !Rejected(t.g, q) {
      InstallConsistent(t, p1, p2, q);
    }
  }

  /*
   * The local proposal
   */

  /** Each node's neighbours in the order the graph library iterates them. */
  ghost predicate Listing(g: Graph, order: seq<seq<int>>) {
    (forall a, b :: 0 <= a < |order| ==> (b in order[a] <==> E(a, b) in g))
    && (forall e :: e in g ==> 0 <= e.lo < |order| && 0 <= e.hi < |order|)
  }

  /**
   * The rejection loop of `_choose_edge`: the first drawn node that has a
   * neighbour, or `None` when the given draws run out first.
   */
  function FirstWithNeighbour(order: seq<seq<int>>, starts: seq<int>): (r: Option<int>)
    requires forall k :: 0 <= k < |starts| ==> 0 <= starts[k] < |order|
    ensures r.Some? ==> r.value in starts && 0 <= r.value < |order| && order[r.value] != []
    ensures r.None? <==> forall k :: 0 <= k < |starts| ==> order[starts[k]] == []
    decreases |starts|
  {
    if |starts| == 0 then None
    else if order[starts[0]] != [] then Some(starts[0])
    else
      var r := FirstWithNeighbour(order, starts[1..]);
      assert forall k :: 1 <= k < |starts| ==> starts[k] == starts[1..][k - 1];
      r
  }

  /** No drawn node has a neighbour, so `_choose_edge` would keep drawing. */
  predicate NoStart(order: seq<seq<int>>, starts: seq<int>)
    requires forall k :: 0 <= k < |starts| ==> 0 <= starts[k] < |order|
  {
    forall k :: 0 <= k < |starts| ==> order[starts[k]] == []
  }

  /** How far the degree of `b` lies from `deg1`. */
  function Gap(degrees: seq<int>, deg1: int, b: int): int
    requires 0 <= b < |degrees|
  {
    var diff := degrees[b] - deg1;
    if diff < 0 then -diff else diff
  }

  /**
   * The neighbour scan of `_choose_edge`: keep the first neighbour whose
   * degree lies strictly farther from `deg1` than any before it. The running
   * best starts at minus infinity, so the first neighbour is always taken.
   */
  method Farthest(degrees: seq<int>, deg1: int, nbrs: seq<int>) returns (n2: int, ghost pos: int)
    requires forall i :: 0 <= i < |nbrs| ==> 0 <= nbrs[i] < |degrees|
    ensures nbrs == [] ==> n2 == -1
    ensures nbrs != [] ==> 0 <= pos < |nbrs| && n2 == nbrs[pos]
    ensures nbrs != [] ==> forall i :: 0 <= i < |nbrs| ==> Gap(degrees, deg1, nbrs[i]) <= Gap(degrees, deg1, n2)
    ensures nbrs != [] ==> forall i :: 0 <= i < pos ==> Gap(degrees, deg1, nbrs[i]) < Gap(degrees, deg1, n2)
  {
    var best: Option<int> := None;
    n2, pos := -1, -1;
    for j := 0 to |nbrs|
      invariant best.None? <==> j == 0
      invariant j == 0 ==> n2 == -1
      invariant j > 0 ==> 0 <= pos < j && n2 == nbrs[pos] && best == Some(Gap(degrees, deg1, n2))
      invariant j > 0 ==> forall i :: 0 <= i < j ==> Gap(degrees, deg1, nbrs[i]) <= best.value
      invariant j > 0 ==> forall i :: 0 <= i < pos ==> Gap(degrees, deg1, nbrs[i]) < best.value
    {
      var difference := Gap(degrees, deg1, nbrs[j]);
      if best.None? || difference > best.value {
        best := Some(difference);
        n2, pos := nbrs[j], j;
      }
    }
  }

  /**
   * `_choose_edge`: the first drawn node that has neighbours, joined to its
   * first farthest-degree neighbour, returned as the sorted pair.
   */
  method ChooseEdge(g: Graph, order: seq<seq<int>>, degrees: seq<int>, starts: seq<int>)
    returns (r: Option<(int, int)>)
    requires Listing(g, order) && |degrees| == |order|
    requires forall k :: 0 <= k < |starts| ==> 0 <= starts[k] < |order|
    ensures r.None? <==> NoStart(order, starts)
    ensures r.Some? ==> r.value.0 <= r.value.1 && E(r.value.0, r.value.1) in g
    ensures r.Some? ==>
      var n1 := FirstWithNeighbour(order, starts).value;
      (forall i :: 0 <= i < |order[n1]| ==> 0 <= order[n1][i] < |degrees|)
      && (exists pos :: 0 <= pos < |order[n1]|
            && r.value == (if n1 <= order[n1][pos] then (n1, order[n1][pos]) else (order[n1][pos], n1))
            && (forall i :: 0 <= i < |order[n1]| ==> Gap(degrees, degrees[n1], order[n1][i]) <= Gap(degrees, degrees[n1], order[n1][pos]))
            && (forall i :: 0 <= i < pos ==> Gap(degrees, degrees[n1], order[n1][i]) < Gap(degrees, degrees[n1], order[n1][pos])))
  {
    var n1 := FirstWithNeighbour(order, starts);
    if n1.None? {
      return None;
    }
    var a := n1.value;
    assert forall i :: 0 <= i < |order[a]| ==> E(a, order[a][i]) in g;
    assert forall i :: 0 <= i < |order[a]| ==> 0 <= order[a][i] < |degrees|;
    var n2, pos := Farthest(degrees, degrees[a], order[a]);
    assert E(a, n2) in g;
    r := Some(if a <= n2 then (a, n2) else (n2, a));
  }

  /** The randomness of one `_local_swap`. */
  datatype LocalDraw = LocalDraw(
    plain: bool,          // `self._p == 1 or np.random.rand() < self._p`
    uniform: SwapDraw,    // the draws of `_swap` when `plain`
    starts1: seq<int>,    // the node draws of the first `_choose_edge`
    starts2: seq<int>,    // the node draws of the second `_choose_edge`
    flip: bool)           // `np.random.rand() < 0.5` swaps x and y

  /** The draws lie where `randint` puts them. */
  predicate LocalFits(n: int, m: int, d: LocalDraw) {
    DrawFits(m, d.uniform)
    && (forall k :: 0 <= k < |d.starts1| ==> 0 <= d.starts1[k] < n)
    && (forall k :: 0 <= k < |d.starts2| ==> 0 <= d.starts2[k] < n)
  }

  /**
   * `_local_swap`: either the uniform swap, or two edges chosen by
   * `_choose_edge`, optionally flipped, checked against the same rejection
   * rules, and installed at the positions the dictionary gives for them.
   * `None` stands for a node draw list that runs out inside `_choose_edge`.
   */
  method LocalSwap(t: Tracked, order: seq<seq<int>>, degrees: seq<int>, d: LocalDraw)
    returns (r: Option<Result<Tracked, Fault>>)
    requires Consistent(t) && Listing(t.g, order) && |degrees| == |order| && LocalFits(|order|, |t.edges|, d)
    ensures d.plain ==> r == Some(UniformSwap(t, d.uniform))
    ensures !d.plain ==> (r.None? <==> NoStart(order, d.starts1) || NoStart(order, d.starts2))
    ensures r.Some? && (|t.edges| >= 2 || !d.plain) ==> r.value.Success? && Consistent(r.value.value)
    ensures r.Some? && r.value.Success? ==> forall n :: Degree(r.value.value.edges, n) == Degree(t.edges, n)
  {
    if d.plain {
      if |t.edges| >= 2 {
        UniformSwapAgrees(t, d.uniform);
        forall n | true
          ensures Degree(UniformSwap(t, d.uniform).value.edges, n) == Degree(t.edges, n)
        {
          SwapKeepsDegrees(State(t.g, t.edges), d.uniform, n);
        }
      }
      return Some(UniformSwap(t, d.uniform));
    }
    var e1 := ChooseEdge(t.g, order, degrees, d.starts1);
    if e1.None? {
      return None;
    }
    var e2 := ChooseEdge(t.g, order, degrees, d.starts2);
    if e2.None? {
      return None;
    }
    var (u, v) := e1.value;
    var (x, y) := if d.flip then (e2.value.1, e2.value.0) else e2.value;
    var q := Quad(u, v, x, y);
    if Rejected(t.g, q) {
      return Some(Success(t));
    }
    IndexKeysAreEdges(t);
    assert E(x, y) == E(e2.value.0, e2.value.1);
    var p1 := t.index[E(u, v)];
    var p2 := t.index[E(x, y)];
    assert E(u, v) != E(x, y);
    InstallConsistent(t, p1, p2, q);
    forall n | true
      ensures Degree(Install(t, p1, p2, q).value.edges, n) == Degree(t.edges, n)
    {
      RelistedDegree(t.edges, p1, p2, q, n);
    }
    return Some(Install(t, p1, p2, q));
  }
}

=== FILE: wrappers.dfy ===
/** Outcome types shared by the model: an optional value and a value-or-error. */
module Wrappers {

  /** A value that may be absent; Python's implicit `None` return. */
  datatype Option<+T> = None | Some(value: T)

  /** Either a computed value or the error the source raises at that point. */
  datatype Result<+T, +E> = Success(value: T) | Failure(error: E)
}
